=== FILE: README.md ===
# College administration system: a Dafny model of its core

This project models the bookkeeping core of a college administration web
application. The application's server keeps faculty, subjects, divisions,
workload assignments, timetable slots and spreadsheet uploads in an
in-memory repository. An HTTP API creates, reads, updates and deletes those
records. Creating or deleting a workload assignment adjusts the faculty
member's current teaching hours. The browser pages classify workloads,
group and filter assignments, place timetable slots into a grid, filter and
export spreadsheet rows, and validate the "Assign Workload" form.

The model is functional throughout. The repository is an immutable `Store`
of seven id-allocating tables, each a finite map with its own next-id
counter. Every repository method and every API handler is a pure function
from a store to a new store and a result. Each client page helper is a
total function over sequences, strings and integers.

Modules, in dependency order:

- `Common`: `Option` and `Result`.
- `Js`: the JavaScript values the code relies on. It covers truthiness, the
  32-bit wrap-around of `<<` and `&`, the truncating `%` and `Math.abs`.
- `Seqs`: generic filter, map, sum, find and first-occurrence dedup, with
  their laws.
- `Text`: strings as the code uses them. It covers ASCII case mapping,
  `includes`, `split` and `join` on one character, integer-to-decimal
  conversion, `parseInt` and UTF-16 code units.
- `Tables`: one repository table, holding its rows and next id.
- `Schema`: the record shapes, the insert schemas with their omitted columns
  and defaults, and the body validation that precedes every create.
- `Constants`: the position, workload-type, day and time-slot tables the
  client shares.
- `Storage`: the in-memory repository and its dashboard counters.
- `Sample`: the repository's start-up data.
- `Routes`: the API handlers, each one atomic transition with a status code.
- `Percent`: the `current / max * 100` percentage and its comparisons,
  decided exactly by cross-multiplication.
- `Workload`, `Dashboard`, `Tracker`, `Grid`, `Schedule`, `ExcelData`,
  `ExcelImport`, `AssignForm`: the client pages' derivations.

The clock is a parameter. `CreateUpload` and `HandlePostUpload` take `now`,
and `FormatUploadTime` takes both instants. Everything random or
asynchronous is left out (see below).

## Model

| member | source | states |
|---|---|---|
| Tables.Empty | server/storage.ts:102-118 | a table starts with no rows and next id 1 |
| Tables.Get | server/storage.ts:243-245 | a lookup finds the row stored under the id, and nothing when the id is absent (`undefined`) |
| Tables.Insert | server/storage.ts:255-260 | a create stores the record under the current counter, advances the counter by one and keeps every other row; listing order gains the record at the end |
| Tables.Put | server/storage.ts:262-269 | an update on a present id replaces only that row and keeps the key set and the counter |
| Tables.Remove | server/storage.ts:371-374 | a delete reports true exactly when the id was present and removes only that row; the counter is unchanged |
| Tables.AscendingAgree | server/storage.ts:239-241 | two tables that agree below the counter list the same records (map iteration follows id order) |
| Tables.AscendingMembership | server/storage.ts:239-241 | a record is listed exactly when some id below the counter holds it |
| Tables.ValuesMembership | server/storage.ts:239-241 | the listing contains exactly the stored records |
| Tables.SumInsert | server/storage.ts:470-476 | a create adds the new record's term to any per-record sum over the table |
| Tables.SumPut | server/storage.ts:470-476 | an overwrite changes a per-record sum by the new term minus the old one |
| Tables.SumRemove | server/storage.ts:470-476 | a delete subtracts the removed record's term from a per-record sum |
| Tables.IdsIncrease | server/storage.ts:110-118 | two creates in a row take fresh ids, the second larger than the first |
| Tables.ValuesLength | server/storage.ts:470-476 | on a valid table the listing has exactly as many records as the map's `size` |
| Tables.NoReuseAfterRemove | server/storage.ts:355-358 | after a delete, the next create still takes a fresh id, never the deleted one |
| Storage.Init | server/storage.ts:102-118 | every counter starts at 1 and the tables start empty |
| Storage.Records | server/storage.ts:321-330 | stripping the joined details gives back the stored records, one for one |
| Storage.CreateUser | server/storage.ts:231-237 | the new user gets the users counter as id; only the users table changes |
| Storage.GetUserByUsername | server/storage.ts:227-229 | finds none exactly when no user has that name; otherwise the first user with it in id order, since usernames are not kept unique |
| Storage.CreateFaculty | server/storage.ts:255-260 | the new record takes the next id and the given fields with `currentHours` 0; other faculty ids read as before and only the faculty table changes |
| Storage.ApplyFacultyPatch | server/storage.ts:262-269 | each supplied field is overwritten and each absent one is kept; id and `currentHours` never change |
| Storage.FacultyPatchLaws | server/storage.ts:262-269 | an empty patch changes nothing and applying a patch twice equals applying it once |
| Storage.UpdateFaculty | server/storage.ts:262-269 | an absent id gives `undefined` and no change; a present id gets the patch and no other row changes |
| Storage.UpdateFacultyWorkload | server/storage.ts:271-278 | an absent id gives `undefined` and no change; a present id gets `currentHours` overwritten with no recomputation, and nothing else changes |
| Storage.GetFacultyWithWorkload | server/storage.ts:247-253 | found exactly when the faculty id exists; carries that record and its assignments |
| Storage.CreateSubject | server/storage.ts:289-294 | takes the next subject id; only the subjects table changes |
| Storage.SubjectsByDepartment | server/storage.ts:296-299 | exactly the subjects whose department equals the argument, in listing order |
| Storage.CreateDivision | server/storage.ts:309-314 | takes the next division id; only the divisions table changes |
| Storage.DivisionsByDepartment | server/storage.ts:316-319 | exactly the divisions whose department equals the argument, in listing order |
| Storage.JoinAssignments | server/storage.ts:321-330 | every assignment is decorated with its faculty, subject and division lookups, keeping order |
| Storage.AllAssignments | server/storage.ts:321-330 | lists every stored assignment in id order, each with its faculty, subject and division looked up (`undefined` when missing) |
| Storage.GetAssignment | server/storage.ts:331-341 | found exactly when the id is stored, with its details joined |
| Storage.AssignmentsByFaculty | server/storage.ts:343-353 | exactly the assignments whose `facultyId` equals the argument, in order, each with its faculty, subject and division looked up |
| Storage.CreateAssignment | server/storage.ts:355-360 | takes the next id and status "assigned"; no existence check on the referenced ids, and the faculty table is untouched |
| Storage.UpdateAssignmentStatus | server/storage.ts:362-369 | an absent id gives `undefined` and no change; a present id has only `status` overwritten |
| Storage.DeleteAssignment | server/storage.ts:371-374 | true exactly when the id was present; removes only that entry and keeps the counter |
| Storage.JoinSlots | server/storage.ts:376-384 | every slot is decorated with its faculty, subject and division, keeping order |
| Storage.AllSlots | server/storage.ts:376-384 | lists every stored slot in id order, each with its faculty, subject and division looked up |
| Storage.SlotsByDivision | server/storage.ts:386-396 | exactly the slots of that division, in listing order, each with its three lookups |
| Storage.SlotsByFaculty | server/storage.ts:398-408 | exactly the slots of that faculty member, in listing order, each with its three lookups |
| Storage.CreateSlot | server/storage.ts:410-415 | takes the next slot id; only the slots table changes |
| Storage.ApplySlotPatch | server/storage.ts:417-424 | each supplied field is overwritten, each absent one kept, the id never changes |
| Storage.UpdateSlot | server/storage.ts:417-424 | an absent id gives `undefined` and no change; a present id gets the patch and nothing else changes |
| Storage.DeleteSlot | server/storage.ts:426-429 | true exactly when the id was present; removes only that slot |
| Storage.CreateUpload | server/storage.ts:435-447 | a new upload takes the next id, status "processing", 0 of 0 rows and the given instant |
| Storage.UpdateUploadStatus | server/storage.ts:449-461 | an absent id gives `undefined`; a present one always gets the status, and each row count only when supplied |
| Storage.RoundedTenths | server/storage.ts:476-483 | the average in whole tenths, to the nearest tenth with halves rounded up |
| Storage.DashboardStats | server/storage.ts:464-486 | faculty and subject counts are table sizes, pending counts assignments whose status is exactly "pending", and the average is 0 with no faculty; on a valid store the average's divisor is the faculty count |
| Storage.PendingUnchangedByCreate | server/storage.ts:355-360 | a new assignment ("assigned") leaves the pending count unchanged |
| Storage.PendingAfterStatusUpdate | server/storage.ts:362-369 | a status update moves the pending count by the change in that one record's pendingness |
| Storage.PendingAfterDelete | server/storage.ts:371-374 | a delete lowers the pending count by one exactly when the removed record was pending |
| Schema.Rejected | shared/schema.ts:71-77 | the error lists a subset of the columns and is empty exactly when every column accepts the body |
| Schema.RejectedIgnoresOtherKeys | shared/schema.ts:71-77 | keys the schema does not name never affect validation |
| Schema.RejectedNames | shared/schema.ts:71-77 | every column that refuses the body is named in the error |
| Schema.NullableValue | shared/schema.ts:44 | a nullable text column has a value exactly when the body holds a string there |
| Schema.ParseFaculty | shared/schema.ts:11-19 | accepts exactly when every faculty column accepts; a rejection names at least one column |
| Schema.ParseSubject | shared/schema.ts:21-27 | accepts exactly when every subject column accepts; a rejection names at least one column |
| Schema.ParseDivision | shared/schema.ts:29-35 | accepts exactly when every division column accepts; a rejection names at least one column |
| Schema.ParseAssignment | shared/schema.ts:37-46 | accepts exactly when every assignment column accepts; a rejection names at least one column |
| Schema.ParseSlot | shared/schema.ts:48-58 | accepts exactly when every slot column accepts; a rejection names at least one column |
| Schema.ParseUpload | shared/schema.ts:60-69 | accepts exactly when every upload column accepts; a rejection names at least one column |
| Schema.ParseEncodeFaculty | shared/schema.ts:72 | a faculty insert written as a body parses back to itself |
| Schema.ParseEncodeSubject | shared/schema.ts:73 | a subject insert written as a body parses back to itself |
| Schema.ParseEncodeDivision | shared/schema.ts:74 | a division insert written as a body parses back to itself |
| Schema.ParseEncodeAssignment | shared/schema.ts:75 | an assignment insert written as a body parses back to itself, whatever its hours |
| Schema.ParseEncodeSlot | shared/schema.ts:76 | a slot insert written as a body parses back to itself, whatever its day |
| Schema.ParseEncodeUpload | shared/schema.ts:77 | an upload insert written as a body parses back to itself |
| Schema.ParseFacultyIgnoresOtherKeys | shared/schema.ts:72 | keys outside the faculty insert schema, `currentHours` among them, do not change the parse |
| Schema.ParseSubjectIgnoresOtherKeys | shared/schema.ts:73 | keys outside the subject insert schema do not change the parse |
| Schema.ParseDivisionIgnoresOtherKeys | shared/schema.ts:74 | keys outside the division insert schema do not change the parse |
| Schema.ParseAssignmentIgnoresOtherKeys | shared/schema.ts:75 | keys outside the assignment insert schema, `status` among them, do not change the parse |
| Schema.ParseSlotIgnoresOtherKeys | shared/schema.ts:76 | keys outside the slot insert schema do not change the parse |
| Schema.ParseUploadIgnoresOtherKeys | shared/schema.ts:77 | keys outside the upload insert schema do not change the parse |
| Schema.OmittedColumns | shared/schema.ts:72-77 | the insert schemas omit id everywhere, `currentHours` for faculty, `status` for assignments, and status, time and row counts for uploads |
| Schema.ClassroomRequiredOnlyForSlots | shared/schema.ts:44-56 | without a classroom a slot is rejected naming it, while an accepted assignment has a null classroom |
| Constants.PositionTable | client/src/lib/types.ts:24-28 | professor, associate and assistant professor with 14, 16 and 18 hours |
| Constants.WorkloadTypeTable | client/src/lib/types.ts:30-34 | exactly lecture, tutorial and practical |
| Constants.DayCodes | client/src/lib/types.ts:36-44 | seven days with codes 0..6 in order, distinct, Monday 0 and Sunday 6 |
| Constants.TimeSlotHours | client/src/lib/types.ts:46-48 | nine on-the-hour times from 09:00, strictly increasing |
| Sample.CreateFacultyAll | server/storage-old.ts:184 | creating a list of faculty advances the counter by its length, keeps old rows and gives each new row 0 hours |
| Sample.CreateSubjectAll | server/storage-old.ts:185 | creating a list of subjects advances the counter by its length and touches nothing else |
| Sample.CreateDivisionAll | server/storage-old.ts:186 | creating a list of divisions advances the counter by its length and touches nothing else |
| Sample.CreateAssignmentAll | server/storage-old.ts:189-214 | the created assignments follow the old ones, in order, with the given faculty and hours |
| Sample.OverwriteHours | server/storage-old.ts:217-219 | each listed present faculty id ends with the listed hours; keys and other tables are kept |
| Sample.Catalogue | server/storage-old.ts:102-186 | after the catalogue is created the counters stand one past each list, there are no assignments, and faculty 1..n have 0 hours |
| Sample.InitializedAssignments | server/storage-old.ts:189-214 | the start-up assignments are exactly the listed ones, field by field |
| Sample.InitializedCounts | server/storage-old.ts:217-219 | each overwritten faculty id holds its overwritten hours |
| Sample.ThreeRecordsHours | server/storage-old.ts:189-214 | with faculty 1, 2, 3 on three assignments, each faculty's assigned hours are its own record's hours |
| Sample.InitializedHours | server/storage-old.ts:189-219 | after start-up faculty i+1 has assigned hours from its assignment but a current count from the overwrite |
| Sample.InitializedInconsistent | server/storage-old.ts:189-219 | when an overwrite differs from the assigned hours, the store starts with counts that are not the assignment sums |
| Sample.SampleHoursInconsistent | server/storage-old.ts:189-219 | the shipped data has that shape: overwrites 12, 16, 19 exceed the assigned 4, 6, 4 |
| Routes.IdParam | server/routes.ts:37 | a path id is usable exactly when `parseInt` yields a number, and then it is that number |
| Routes.IdParamOfId | server/routes.ts:37 | a path written from an id reads back as that id |
| Routes.QueryId | server/routes.ts:209-210 | a query id filters exactly when present, non-empty and parsing to a non-zero number |
| Routes.QueryIdIgnored | server/routes.ts:209-219 | absent, empty, "0" and non-numeric query ids impose no filter |
| Routes.QueryIdOfId | server/routes.ts:209-210 | a non-zero id written into the query filters on that id |
| Routes.ZeroParses | server/routes.ts:209-210 | "0" parses to the falsy number 0 |
| Routes.LetterDoesNotParse | server/routes.ts:209-210 | a letter parses to NaN |
| Routes.DepartmentQuery | server/routes.ts:84-86 | a department query filters exactly when it is present and non-empty |
| Routes.MaxHoursFor | server/routes.ts:53-55 | professor gets 14, associate professor 16, any other position 18 |
| Routes.MaxHoursAgreesWithPositions | server/routes.ts:53-55 | the server mapping agrees with the client position table |
| Routes.HandleGetFaculty | server/routes.ts:35-46 | 200 with the record and its assignments exactly when the id parses and exists, otherwise 404 |
| Routes.HandlePostFaculty | server/routes.ts:48-65 | an invalid body gives 400 and no change; a valid one creates the record with max hours from the position and replies 201 with the whole created record |
| Routes.PostFacultyIgnoresClientMaxHours | server/routes.ts:53-57 | the `maxHours` the client sends never affects the result |
| Routes.HandlePatchFaculty | server/routes.ts:67-80 | an unparsable or absent id gives 404 and no change; otherwise the patch is applied and returned |
| Routes.HandleGetSubjects | server/routes.ts:82-92 | with a department query, exactly that department's subjects in listing order, otherwise all of them |
| Routes.HandlePostSubject | server/routes.ts:94-106 | 400 and no change on an invalid body, otherwise 201 with the created subject |
| Routes.HandleGetDivisions | server/routes.ts:108-118 | with a department query, exactly that department's divisions in listing order, otherwise all of them |
| Routes.HandlePostDivision | server/routes.ts:120-132 | 400 and no change on an invalid body, otherwise 201 with the created division |
| Routes.HandleGetAssignments | server/routes.ts:134-144 | with a usable faculty query, exactly that member's assignments in listing order, otherwise all of them; every entry carries its faculty, subject and division lookups |
| Routes.HandlePostAssignment | server/routes.ts:146-165 | validation first: 400 and no change on an invalid body; otherwise 201, and the faculty's hours rise by exactly `hoursPerWeek` if it exists, with no other faculty changed |
| Routes.HandlePatchAssignmentStatus | server/routes.ts:167-179 | 404 and no change for an unparsable or absent id, otherwise only that status changes |
| Routes.Max | server/routes.ts:194 | the larger of the two values |
| Routes.HandleDeleteAssignment | server/routes.ts:181-205 | 404 and no change for an absent id; otherwise the record goes and its faculty, if present, drops to max(0, hours − hoursPerWeek) |
| Routes.DeleteHoursFloor | server/routes.ts:189-196 | after a delete the hours are never negative, and the drop is exact when the count covered the assignment |
| Routes.PostThenDeleteRestores | server/routes.ts:146-205 | creating an assignment for an existing faculty member and deleting it restores that member's hours |
| Routes.DeleteOfFresh | server/routes.ts:181-205 | deleting an assignment just added undoes both the addition and the hour increase |
| Routes.PostPreservesConsistency | server/routes.ts:146-165 | if every count equals its assignment sum before a create, it still does after |
| Routes.DeletePreservesConsistency | server/routes.ts:181-205 | with non-negative hours, a consistent store stays consistent across a delete |
| Routes.AssignedHoursNonNegative | server/routes.ts:189-196 | with non-negative assignment hours, a faculty's assigned sum is non-negative |
| Routes.HandleGetTimetable | server/routes.ts:207-225 | a usable division filter wins, then a usable faculty filter, otherwise all slots; the result is in listing order and every entry carries its three lookups |
| Routes.DivisionTakesPrecedence | server/routes.ts:212-214 | with a usable division filter, the faculty query has no effect |
| Routes.HandlePostSlot | server/routes.ts:227-238 | 400 and no change on an invalid body, otherwise 201 with the created slot |
| Routes.HandlePatchSlot | server/routes.ts:240-252 | 404 and no change for an unparsable or absent id, otherwise the patch is applied |
| Routes.HandleDeleteSlot | server/routes.ts:254-267 | 200 and the slot removed exactly when the id parses and exists, otherwise 404 and no change |
| Routes.HandlePostUpload | server/routes.ts:278-289 | 400 and no change on an invalid body, otherwise 201 with a new "processing" upload |
| Routes.HandlePatchUploadStatus | server/routes.ts:291-303 | 404 and no change for an unparsable or absent id, otherwise the status and the supplied counts are set |
| Js.FalsyValues | client/src/pages/TimetableManagement.tsx:107-108 | undefined, null, NaN, 0, "" and false are falsy and every other number is truthy |
| Js.ToInt32 | client/src/pages/timetable-management.tsx:73-74 | the 32-bit result is in range and congruent to its argument modulo 2^32 |
| Js.ToInt32Identity | client/src/pages/timetable-management.tsx:73-74 | values already in 32-bit range are unchanged |
| Js.ToInt32Congruent | client/src/pages/timetable-management.tsx:73-74 | congruent arguments give the same 32-bit result |
| Js.AffineCongruent | client/src/pages/timetable-management.tsx:73 | an affine step preserves congruence modulo 2^32 |
| Js.ToInt32Affine | client/src/pages/timetable-management.tsx:73-74 | wrapping between affine steps does not change the wrapped result |
| Js.Rem | client/src/pages/timetable-management.tsx:76 | the truncating remainder agrees with the mathematical one for non-negative operands and is non-positive otherwise |
| Js.Abs | client/src/pages/timetable-management.tsx:76 | the magnitude is non-negative and equals the value or its negation |
| Text.ToLower | client/src/pages/faculty-tracker.tsx:22-24 | lower-casing maps each character and keeps the length |
| Text.ToUpper | client/src/pages/dashboard.tsx:126 | upper-casing maps each character and keeps the length |
| Text.ToLowerIdempotent | client/src/pages/faculty-tracker.tsx:22-24 | lower-casing twice equals lower-casing once |
| Text.IncludesIff | client/src/pages/faculty-tracker.tsx:22-24 | `includes` holds exactly when the term occurs at some position |
| Text.IncludesEmpty | client/src/pages/faculty-tracker.tsx:22-24 | the empty term is included in every string, so an empty search matches everything |
| Text.Split | client/src/pages/dashboard.tsx:126 | splitting yields at least one piece |
| Text.SplitPiecesFree | client/src/pages/dashboard.tsx:126 | no piece contains the separator |
| Text.JoinSplit | client/src/pages/dashboard.tsx:126 | joining the pieces with the separator gives back the string |
| Text.SplitGlue | client/src/pages/excel-data.tsx:150-164 | a separator-free prefix glues onto the first piece |
| Text.SplitJoin | client/src/pages/excel-data.tsx:150-164 | separator-free parts joined and split again come back unchanged |
| Text.TrimStart | server/routes.ts:37 | `parseInt` skips a suffix-preserving run of leading white space |
| Text.DigitValue | server/routes.ts:37 | a character's digit value lies in -1..35 |
| Text.DigitRun | server/routes.ts:37 | the longest run of digits at the front |
| Text.DigitsValue | server/routes.ts:37 | the value of a run of digits is non-negative |
| Text.ParseDigits | server/routes.ts:37 | parsing digits yields a number or NaN |
| Text.ParseUnsigned | server/routes.ts:37 | parsing after the sign yields a number or NaN |
| Text.ParseInt | server/routes.ts:37 | `parseInt` yields a number or NaN |
| Text.ParseIntEmpty | client/src/pages/TimetableManagement.tsx:401-402 | `parseInt("")` is NaN, which is falsy |
| Text.NatToStringDigits | server/routes.ts:37 | the decimal form of a natural is a non-empty run of digits with that value |
| Text.ParseIntOfNonDigit | server/routes.ts:37 | text starting with a non-digit, non-sign, non-space character parses to NaN |
| Text.ParseIntOfDigits | server/routes.ts:37 | a digit string parses to its decimal value |
| Text.ParseIntOfMinusDigits | server/routes.ts:37 | a minus sign and digits parse to the negated value |
| Text.ParseIntOfNatToString | server/routes.ts:37 | a natural's decimal form parses back to it |
| Text.ParseIntOfNegative | server/routes.ts:37 | a negative number's decimal form parses back to it |
| Text.ParseIntOfDigitsThen | client/src/pages/excel-import.tsx:184-185 | parsing stops at the first character that is not a digit |
| Text.ParseIntOfNatToStringThen | client/src/pages/excel-import.tsx:184-185 | a natural followed by a word parses back to the natural |
| Text.ParseIntOfIntToString | server/routes.ts:37 | every integer's decimal form parses back to it |
| Text.IntToStringNonEmpty | client/src/pages/excel-data.tsx:137-138 | every integer's decimal form is non-empty |
| Text.IntToStringInjective | client/src/pages/timetable-management.tsx:46 | different integers have different decimal forms |
| Text.IntToStringAvoids | client/src/pages/excel-data.tsx:158 | a decimal form contains no character that is neither a digit nor '-' |
| Text.JoinAvoids | client/src/pages/excel-data.tsx:150-164 | joining adds no character other than the separator |
| Text.CodeUnits | client/src/pages/timetable-management.tsx:72-73 | the UTF-16 code units are 16-bit values, at least one per character |
| Percent.Of | client/src/pages/workload-management.tsx:33 | the percentage `current / max * 100` is a well-formed number, infinity or NaN |
| Percent.Min | client/src/pages/dashboard.tsx:141 | `Math.min(p, t)` is never above t and equals p when p is not |
| Percent.AboveImpliesAtLeast | client/src/pages/WorkloadManagement.tsx:87-88 | exceeding a threshold implies reaching every lower one |
| Percent.AtLeastIff | client/src/pages/workload-management.tsx:34-37 | for a positive maximum, reaching t percent is `100 * cur >= t * max` |
| Percent.ZeroLimit | client/src/pages/workload-management.tsx:33 | with maximum 0, any positive count is over every threshold (infinity) and 0 gives NaN, which is over none |
| Percent.Monotone | client/src/pages/workload-management.tsx:32-41 | raising the count never makes a reached threshold unreached |
| Workload.WorkloadStatus | client/src/pages/workload-management.tsx:32-41 | "Over Limit" exactly at 100% or more, "At Limit" from 90% below 100%, "Under Limit" below 90%, with their badge variants |
| Workload.WorkloadStatusByHours | client/src/pages/workload-management.tsx:32-41 | for a positive maximum, over exactly when cur ≥ max, at the limit exactly when 10·cur ≥ 9·max and cur < max |
| Workload.Rank | client/src/pages/workload-management.tsx:32-41 | the three labels are ranked 0..2 |
| Workload.WorkloadStatusMonotone | client/src/pages/workload-management.tsx:32-41 | with the maximum fixed, more hours never lower the label |
| Workload.StrictWorkloadStatus | client/src/pages/WorkloadManagement.tsx:85-90 | "Over Limit" only strictly above 100%, "Near Limit" from 90% to 100% inclusive, "Under Limit" below 90% |
| Workload.StrictWorkloadStatusByHours | client/src/pages/WorkloadManagement.tsx:85-90 | for a positive maximum, over exactly when cur > max, so cur = max is "Near Limit" |
| Workload.ClassifiersDisagreeOnlyAtTheLimit | client/src/pages/WorkloadManagement.tsx:85-90 | the two classifiers differ on "over" exactly when cur = max, and agree on "under" always |
| Workload.FilteredFaculty | client/src/pages/workload-management.tsx:23-30 | a member is kept exactly when the search matches name or email ignoring case and each non-empty filter equals its field |
| Workload.NoFiltersListsAll | client/src/pages/WorkloadManagement.tsx:92-98 | with no search and no filters the list is unchanged |
| Workload.Departments | client/src/pages/workload-management.tsx:43 | each department of the list appears exactly once |
| Workload.Positions | client/src/pages/workload-management.tsx:44 | each position of the list appears exactly once |
| Dashboard.TopThree | client/src/pages/dashboard.tsx:117 | the first three members in list order, or all when fewer |
| Dashboard.BarWidth | client/src/pages/dashboard.tsx:119-141 | the bar width is the percentage capped at 100 |
| Dashboard.FirstChars | client/src/pages/dashboard.tsx:126 | at most one character per word |
| Dashboard.FirstCharsOfWords | client/src/pages/dashboard.tsx:126 | with non-empty words, exactly each word's first character, in order |
| Dashboard.Initials | client/src/pages/dashboard.tsx:126 | at most one character per space-separated word |
| Dashboard.InitialsOfWords | client/src/pages/dashboard.tsx:126 | a name of words joined by spaces yields each word's upper-cased first character, in word order |
| Dashboard.StatusLook | client/src/pages/dashboard.tsx:25-30 | the label is the workload classification and the colours follow it |
| Dashboard.ProgressColor | client/src/pages/dashboard.tsx:32-37 | one of the three bar colours |
| Dashboard.ProgressColorAgrees | client/src/pages/dashboard.tsx:25-37 | for every input the progress colour equals the status colour |
| Dashboard.FacultyLevel | client/src/pages/Dashboard.tsx:30-35 | 'over', 'warning' and 'under' exactly at 100%+, 90–100% and below 90%, with their colours and labels |
| Dashboard.AvatarColor | client/src/pages/Dashboard.tsx:165-168 | one of the three avatar colours |
| Dashboard.AvatarColorByHours | client/src/pages/Dashboard.tsx:160-168 | red exactly when cur ≥ max, yellow from 90%, blue otherwise |
| Dashboard.TwoInitials | client/src/pages/Dashboard.tsx:170 | at most two characters, a prefix of the words' first characters |
| Dashboard.TwoInitialsArePrefix | client/src/pages/Dashboard.tsx:170 | up to case, the two-letter initials are the prefix of the upper-cased initials |
| Tracker.FilteredAssignments | client/src/pages/faculty-tracker.tsx:20-30 | over resolved entries, an assignment is kept exactly when the search matches a faculty, subject or division name ignoring case and each non-empty filter equals its field, in order |
| Tracker.MatchesOrThrows | client/src/pages/faculty-tracker.tsx:20-30 | on a server entry the filter callback throws when the faculty member is missing, and otherwise agrees with `FilteredAssignments`' test whenever all three joins resolved |
| Tracker.PageFilterResolved | client/src/pages/faculty-tracker.tsx:20-30 | when every entry is resolved the page's filter does not throw and keeps exactly what `FilteredAssignments` keeps |
| Tracker.DanglingFacultyThrows | client/src/pages/faculty-tracker.tsx:20-22 | one entry with a missing faculty member makes the whole filter throw |
| Tracker.DanglingStoredAssignmentThrows | server/storage.ts:321-330 | a stored assignment whose faculty id names no faculty member arrives with `faculty` undefined, and the tracker page then throws |
| Tracker.EmptySearchKeepsAll | client/src/pages/faculty-tracker.tsx:20-30 | with no search and no filters every assignment is kept |
| Tracker.AddToGroup | client/src/pages/faculty-tracker.tsx:51-66 | adding an assignment touches only its own faculty's group |
| Tracker.SummaryAppend | client/src/pages/faculty-tracker.tsx:53-65 | a group's totals grow by the assignment's hours, its completed hours only for "completed" |
| Tracker.GroupIsSummary | client/src/pages/faculty-tracker.tsx:51-67 | a faculty has a group exactly when it has an assignment, and the group holds exactly its assignments in order with their totals |
| Tracker.EntryInOwnGroupOnly | client/src/pages/faculty-tracker.tsx:51-67 | every assignment lands in its own faculty's group and in no other |
| Tracker.CompletedHoursBound | client/src/pages/faculty-tracker.tsx:62-65 | with non-negative hours the completed sum lies between 0 and the total |
| Tracker.CompletedAtMostTotal | client/src/pages/faculty-tracker.tsx:62-65 | in every group, completed hours are at most total hours |
| Tracker.TotalOverPick | client/src/pages/faculty-tracker.tsx:139 | the sum over groups splits off any one group |
| Tracker.TotalOverFrame | client/src/pages/faculty-tracker.tsx:139 | the sum over groups depends only on their totals |
| Tracker.GroupTotalsSum | client/src/pages/faculty-tracker.tsx:51-67 | the group totals add up to the hours of all the filtered assignments |
| Tracker.Completion | client/src/pages/faculty-tracker.tsx:140-142 | 0 when the total is 0, otherwise completed over total as a percentage |
| Tracker.CompletionInRange | client/src/pages/faculty-tracker.tsx:140-142 | with non-negative hours completion lies between 0 and 100 |
| Tracker.DepartmentChoices | client/src/pages/faculty-tracker.tsx:69 | each department of any assignment appears exactly once |
| Tracker.FilterKeepsDepartmentChoices | client/src/pages/faculty-tracker.tsx:69 | the choices come from all assignments, so every filtered assignment's department is offered |
| Grid.EmptyGrid | client/src/pages/timetable-management.tsx:49-57 | one empty cell for every time row and every day code |
| Grid.Place | client/src/pages/timetable-management.tsx:59-64 | placing a slot keeps the grid's shape |
| Grid.BuildKeys | client/src/pages/student-dashboard.tsx:46-61 | the built grid has the empty grid's rows and every row has all day codes |
| Grid.PlaceCell | client/src/pages/timetable-management.tsx:59-64 | a slot is appended to a cell exactly when its "start - end" key and day match that cell |
| Grid.BuildCell | client/src/pages/student-dashboard.tsx:46-61 | each cell holds exactly the slots with its key and day, in input order |
| Grid.BuildCells | client/src/pages/timetable-management.tsx:49-67 | the whole grid: every row and day present, each cell the in-order slots that belong to it |
| Grid.Placement | client/src/pages/timetable-management.tsx:59-64 | a slot with an existing key and day is in that cell, and one without is in no cell |
| Grid.PlacedOnce | client/src/pages/student-dashboard.tsx:56-61 | no slot is placed in two cells |
| Grid.RenderedDayCodes | client/src/pages/timetable-management.tsx:166-181 | only Monday to Friday, codes 0..4, are rendered |
| Grid.WeekendFiledButHidden | client/src/pages/student-dashboard.tsx:152-172 | a day-5 or day-6 slot is filed in the grid but sits in no rendered column |
| Grid.HashStep | client/src/pages/timetable-management.tsx:73-74 | one step of the string hash stays in 32-bit range |
| Grid.Hash | client/src/pages/timetable-management.tsx:72-75 | the hash of a subject name stays in 32-bit range |
| Grid.HashStepIsAffine | client/src/pages/timetable-management.tsx:73-74 | one step is `31·a + unit` wrapped to 32 bits |
| Grid.HashIsPolynomial | client/src/pages/timetable-management.tsx:72-75 | the hash is the base-31 polynomial of the code units, wrapped to 32 bits |
| Grid.SlotColor | client/src/pages/student-dashboard.tsx:68-74 | the colour is always one of the palette |
| Grid.SlotColorByPolynomial | client/src/pages/timetable-management.tsx:71-77 | the colour is a function of the subject name alone, through the polynomial hash |
| Grid.SelectedDivision | client/src/pages/timetable-management.tsx:46 | a found division is in the list and its id's decimal form is the selection |
| Grid.SelectedDivisionById | client/src/pages/timetable-management.tsx:46 | selecting an id finds a division exactly when one has that id; an empty selection finds none |
| Grid.SemesterSuffix | client/src/pages/timetable-management.tsx:152 | one of "th", "st", "nd", "rd" |
| Grid.SemesterSuffixCases | client/src/pages/timetable-management.tsx:152 | "st", "nd", "rd" exactly when the last digit of a positive semester is 1, 2, 3, "th" otherwise |
| Grid.Rows | client/src/pages/student-dashboard.tsx:160-214 | each time row is emitted, with break rows added |
| Grid.TimeRows | client/src/pages/student-dashboard.tsx:166-204 | one row per time, in order |
| Grid.RowsAppend | client/src/pages/student-dashboard.tsx:160-214 | rows of concatenated time lists are the concatenated rows |
| Grid.RowsWithoutBreak | client/src/pages/student-dashboard.tsx:162 | without the "11:00 - 12:00" time there are only time rows |
| Grid.RowsAroundBreak | client/src/pages/student-dashboard.tsx:205-214 | the break row follows the "11:00 - 12:00" row directly |
| Grid.RowsWithOneBreak | client/src/pages/student-dashboard.tsx:160-214 | with that time once, exactly one break row, placed right after it |
| Grid.StudentRows | client/src/pages/student-dashboard.tsx:160-214 | eight time rows with the single break row fourth |
| Schedule.FromServer | client/src/pages/TimetableManagement.tsx:67-69 | a server slot seen through the page's type has no day and no time range |
| Schedule.SlotFor | client/src/pages/TimetableManagement.tsx:103-110 | a found slot is in the list and matches day, range and every truthy filter; none when the list is missing |
| Schedule.SlotForIsFirstMatch | client/src/pages/TimetableManagement.tsx:103-110 | nothing is found exactly when no slot matches, otherwise the first match in list order |
| Schedule.FalsyArgumentsIgnored | client/src/pages/TimetableManagement.tsx:107-108 | falsy division and faculty arguments impose no constraint |
| Schedule.ServerSlotsNeverFound | client/src/pages/TimetableManagement.tsx:67-110 | slots as the server sends them never match any day and range |
| Schedule.ViewArgs | client/src/pages/TimetableManagement.tsx:398-403 | the argument not belonging to the view is undefined |
| Schedule.ViewArgsBySelection | client/src/pages/TimetableManagement.tsx:401-402 | an empty selection gives a falsy argument, and a selected id narrows to exactly that id |
| Schedule.SlotClassName | client/src/pages/TimetableManagement.tsx:129-139 | the two break times always get the break class; the result is the break class, the free class or a palette colour |
| Schedule.SlotClassNameCases | client/src/pages/TimetableManagement.tsx:133-138 | a missing slot or a falsy subject is free, and subject id ≥ 1 gets colour (id − 1) mod 5 |
| Schedule.ColorRepeatsEveryFive | client/src/pages/TimetableManagement.tsx:136-138 | subject ids that differ by 5 share a colour |
| Schedule.SubjectName | client/src/pages/TimetableManagement.tsx:112-115 | "" for a falsy id or missing list; a non-empty name belongs to a subject with that id |
| Schedule.FacultyName | client/src/pages/TimetableManagement.tsx:117-120 | "" for a falsy id or missing list; a non-empty name belongs to a member with that id |
| Schedule.DivisionName | client/src/pages/TimetableManagement.tsx:122-124 | "" for a missing list; a non-empty name belongs to a division with that id |
| Schedule.SubjectNameFound | client/src/pages/TimetableManagement.tsx:112-115 | the name of the first subject with the id is returned |
| Schedule.SubjectNameMissing | client/src/pages/TimetableManagement.tsx:112-115 | an id no subject has gives "" |
| Schedule.DayCells | client/src/pages/TimetableManagement.tsx:397-425 | each day emits at most one cell |
| Schedule.RowCells | client/src/pages/TimetableManagement.tsx:392-425 | a row emits at most one cell per day |
| Schedule.BreakRowWithoutMonday | client/src/pages/TimetableManagement.tsx:405-419 | a break row without a "monday" column emits nothing |
| Schedule.OrdinaryRowByDay | client/src/pages/TimetableManagement.tsx:397-425 | an ordinary row emits one cell per day, carrying that day's slot lookup |
| Schedule.OrdinaryRowCells | client/src/pages/TimetableManagement.tsx:397-425 | an ordinary row has exactly one cell per day, in day order |
| Schedule.OrdinaryDayCell | client/src/pages/TimetableManagement.tsx:421-425 | an ordinary day emits one cell holding the slot found for it |
| Schedule.BreakRowsSpanAllDays | client/src/pages/TimetableManagement.tsx:405-419 | each break row is one "monday" cell spanning all five days |
| Schedule.RowCellsAppend | client/src/pages/TimetableManagement.tsx:397 | cells of concatenated day lists are the concatenated cells |
| Schedule.BreakRowPositions | client/src/pages/TimetableManagement.tsx:26-36 | the break and lunch ranges are the third and sixth of nine |
| ExcelData.Unique | client/src/pages/excel-data.tsx:118-131 | the indexOf dedup keeps first occurrences in order, without duplicates, with the same values |
| ExcelData.Departments | client/src/pages/excel-data.tsx:118-121 | each department of the rows appears exactly once |
| ExcelData.Positions | client/src/pages/excel-data.tsx:123-126 | each position of the rows appears exactly once |
| ExcelData.Statuses | client/src/pages/excel-data.tsx:128-131 | each status of the rows appears exactly once |
| ExcelData.Fields | client/src/pages/excel-data.tsx:137 | a row has ten searchable field strings |
| ExcelData.FilteredRows | client/src/pages/excel-data.tsx:134-147 | a row is shown exactly when search and menus match it; the rows keep their order and never outnumber the total |
| ExcelData.ClearedShowsAll | client/src/pages/excel-data.tsx:272 | when "Clear Filters" is hidden every row is shown, in order |
| ExcelData.SearchFindsId | client/src/pages/excel-data.tsx:136-139 | searching a row's id finds it |
| ExcelData.CsvFields | client/src/pages/excel-data.tsx:153-163 | one exported column per header |
| ExcelData.CsvLineRoundTrip | client/src/pages/excel-data.tsx:153-163 | a comma-free row splits back into its columns |
| ExcelData.CsvLineSingle | client/src/pages/excel-data.tsx:153-163 | a line has a line break only where the data has one |
| ExcelData.HeaderLine | client/src/pages/excel-data.tsx:150-152 | the header line splits back into the headers |
| ExcelData.CsvLines | client/src/pages/excel-data.tsx:149-164 | without line breaks in the data, the export is the header line and one line per row, in order, with no trailing newline |
| ExcelData.CsvRoundTrip | client/src/pages/excel-data.tsx:149-164 | reading the export back gives the headers and each comma-free row's columns |
| ExcelImport.VisibleUploads | client/src/pages/excel-import.tsx:51 | exactly the uploads whose status is not "deleted", in order |
| ExcelImport.NewUploadListed | client/src/pages/excel-import.tsx:51 | a newly created upload ("processing") is listed |
| ExcelImport.DeletedUploadHidden | client/src/pages/excel-import.tsx:51 | marking an upload "deleted" removes just it from the listing |
| ExcelImport.SelectFile | client/src/pages/excel-import.tsx:110-132 | an Excel file of at most 10 MiB is selected; otherwise the selection is kept and the toast names the first failed check |
| ExcelImport.PickerKeepsSelectionAcceptable | client/src/pages/excel-import.tsx:110-132 | the file picker never selects an unacceptable file |
| ExcelImport.Drop | client/src/pages/excel-import.tsx:144-150 | a dropped file is selected as is; no file keeps the selection |
| ExcelImport.DropSkipsChecks | client/src/pages/excel-import.tsx:144-150 | a dropped text file is selected although the picker refuses it |
| ExcelImport.UploadRequest | client/src/pages/excel-import.tsx:54-138 | a request is sent exactly when a file is selected; it carries the name and size, and a stored name `<now>_<name>` whose time stamp reads back |
| ExcelImport.StatusVariant | client/src/pages/excel-import.tsx:152-159 | completed, processing and error map to default, secondary and destructive, anything else to outline |
| ExcelImport.StatusIcon | client/src/pages/excel-import.tsx:161-168 | completed, processing and error map to success, warning and danger, anything else to neutral |
| ExcelImport.IconFollowsVariant | client/src/pages/excel-import.tsx:152-168 | the icon colour is a function of the badge variant |
| ExcelImport.Ago | client/src/pages/excel-import.tsx:184-185 | the text starts with a digit |
| ExcelImport.AgoReadsBack | client/src/pages/excel-import.tsx:184-185 | the count reads back from the text |
| ExcelImport.FormatUploadTime | client/src/pages/excel-import.tsx:178-187 | "Just now" exactly below one hour, whole days from one day, whole hours between |
| ExcelImport.UploadTimeReadsBack | client/src/pages/excel-import.tsx:178-187 | from one hour on, the leading number is ⌊elapsed / unit⌋ |
| ExcelImport.OneHourAgo | client/src/pages/excel-import.tsx:185 | exactly one hour reads "1 hour ago", without the plural |
| ExcelImport.TwoDaysAgo | client/src/pages/excel-import.tsx:184 | two days read "2 days ago" |
| AssignForm.Failing | client/src/components/forms/assign-workload-dialog.tsx:36-43 | no field fails exactly when every field passes its check |
| AssignForm.FailingNames | client/src/components/forms/assign-workload-dialog.tsx:36-43 | a field is reported exactly when its check fails |
| AssignForm.Validate | client/src/components/forms/assign-workload-dialog.tsx:36-43 | accepts exactly the forms whose ids are numbers, type a string, hours 1..20 and classroom absent or a string |
| AssignForm.ValidateReports | client/src/components/forms/assign-workload-dialog.tsx:36-43 | a rejection names exactly the failing fields |
| AssignForm.HoursBound | client/src/components/forms/assign-workload-dialog.tsx:41 | with the other fields valid, hours are accepted exactly in 1..20 |
| AssignForm.DefaultHoursPass | client/src/components/forms/assign-workload-dialog.tsx:56-61 | the default of 1 hour passes; a fresh form fails only on the unset fields |
| AssignForm.SubmittedDataAccepted | client/src/components/forms/assign-workload-dialog.tsx:79-80 | what the form submits passes the server's insert schema unchanged |
| AssignForm.ServerAcceptsHoursFormRejects | client/src/components/forms/assign-workload-dialog.tsx:41 | 25 hours passes the server schema but not the form |
| AssignForm.ChooseFacultyAsWritten | client/src/components/forms/assign-workload-dialog.tsx:123 | the faculty select as written stores the option's text, not a number |
| AssignForm.ChooseFaculty | client/src/components/forms/assign-workload-dialog.tsx:147-172 | the faculty select converting with `parseInt` stores the chosen id |
| AssignForm.IdsReadBack | client/src/components/forms/assign-workload-dialog.tsx:147-172 | an option written from an id reads back as that id |
| AssignForm.Apply | client/src/components/forms/assign-workload-dialog.tsx:123-229 | a control's change never removes a field |
| AssignForm.SelectsDeliverIds | client/src/components/forms/assign-workload-dialog.tsx:147-172 | the subject and division selects, and the corrected faculty select, store the chosen ids |
| AssignForm.AsWrittenFacultyNeverNumber | client/src/components/forms/assign-workload-dialog.tsx:123 | as written, no sequence of user actions puts a number in the faculty field |
| AssignForm.AsWrittenNeverSubmits | client/src/components/forms/assign-workload-dialog.tsx:36-123 | as written, no sequence of user actions yields a form that validates |
| AssignForm.RunStep | client/src/components/forms/assign-workload-dialog.tsx:115-229 | one more action applies one more change |
| AssignForm.AfterFaculty | client/src/components/forms/assign-workload-dialog.tsx:123 | with the corrected select, choosing a faculty sets just that id |
| AssignForm.AfterSubject | client/src/components/forms/assign-workload-dialog.tsx:147 | then choosing a subject sets its id too |
| AssignForm.AfterDivision | client/src/components/forms/assign-workload-dialog.tsx:172 | then choosing a division sets its id too |
| AssignForm.CorrectedForm | client/src/components/forms/assign-workload-dialog.tsx:123-197 | with the corrected select the four choices fill in the chosen ids and type |
| AssignForm.ChosenFormValid | client/src/components/forms/assign-workload-dialog.tsx:36-61 | that form, with the default hours, passes every check |
| AssignForm.CorrectedSubmits | client/src/components/forms/assign-workload-dialog.tsx:36-197 | with the corrected select, choosing faculty, subject, division and type yields a form that validates |

## Left out

- `DatabaseStorage` (server/storage-old.ts:491-808) and server/seed.ts are SQL I/O. They are not part of this model. Their statistics query counts status "assigned" as pending and rounds the average to a whole number (server/storage-old.ts:796, 803). That differs from the in-memory repository modelled here.
- The seed script's stale hour update (server/seed.ts:224-229) is not part of this model.
- Storage.DashboardStats: the average workload is `Math.round(avg * 10) / 10` on floating point. The model gives it in whole tenths, rounded half up (`RoundedTenths`), rather than as a float.
- Routes: Express, `async`, JSON parsing and every 500 path are left out. Each handler is one atomic transition, so the read-then-write race on `currentHours` between concurrent requests (server/routes.ts:152-156, 192-196) is not modelled.
- Routes.HandlePatchFaculty and Routes.HandlePatchSlot take an already-typed patch. The server passes the raw request body unvalidated (server/routes.ts:70, 243), so fields of the wrong type or unknown keys are not modelled. Among those keys are `id` and, for faculty, `currentHours`: the server spreads them over the stored record (server/storage.ts:266, 421), so a PATCH can change a record's id field or set `currentHours` to any value. The latter breaks `Storage.HoursConsistent`, so `Routes.PostPreservesConsistency` and `Routes.DeletePreservesConsistency` cover the assignment routes only, not a raw faculty PATCH.
- Routes.HandlePatchUploadStatus takes the status and optional counts already typed. A missing or non-string status in the raw body is not modelled.
- Routes.HandlePatchAssignmentStatus takes the status as a string. The server stores `req.body.status` without validation, so a missing status is stored as `undefined` and a number as a number; the model's assignment status is always a string, so those cases are not modelled.
- Schema: drizzle-zod is reduced to per-column type checks (string, integer, nullable). JSON `null` for non-nullable columns and zod's own error messages are not modelled. The server enforces no business range on `hoursPerWeek` or `dayOfWeek` (shared/schema.ts:43, 53), and the model follows that code: a body with 25 hours is accepted.
- Schema: request-body numbers are mathematical integers here. A fractional JSON number (`hoursPerWeek: 2.5`) cannot be expressed, though it would be stored and added to `currentHours` if the `integer` column maps to a plain `z.number()`. Whether drizzle-zod adds `.int()` and 32-bit bounds to `integer` columns depends on its version, which the sources do not fix, so a body such as `hoursPerWeek: 2^31` is accepted by the model although such a version would answer 400.
- Users and login (client/src/components/auth/login-dialog.tsx) are left out. Only `CreateUser` and `GetUserByUsername` of the repository are modelled.
- Text: case mapping is ASCII only, with no Unicode `toLowerCase`/`toUpperCase`. `Dashboard.Initials` and `Dashboard.TwoInitials` take a word's first character where JavaScript's `n[0]` takes its first UTF-16 code unit; the two differ only for characters outside the Basic Multilingual Plane.
- Text.ParseInt: numbers beyond 2^53 are exact integers here, not rounded doubles.
- Percent: percentages are exact rationals compared by cross-multiplication, not IEEE doubles. Rounded progress badges are not modelled.
- `formatFileSize` (client/src/pages/excel-import.tsx:170-176) uses `Math.log` and `toFixed`, which is floating point. It is not modelled.
- The simulated processing after an upload (client/src/pages/excel-import.tsx:62-73) is left out. It is a `setTimeout` with `Math.random` row counts.
- The client's delete of an upload calls `DELETE /api/excel-uploads/:id`, which the server does not define (client/src/pages/excel-import.tsx:95). Only the client-side listing filter is modelled.
- ExcelImport.UploadRequest: `Date.now()` is a parameter.
- The clock is a parameter throughout; `new Date()` is never read.
- Tracker: an entry whose subject or division is missing passes the filter when the faculty name matches the search, and the page then throws while rendering it. `Tracker.PageFilter` models only the throws inside the filter; rendering is left out.
- Tracker: `Object.values(assignmentsByFaculty)` iterates integer keys in ascending order. The model states totals over the key set, not the card order.
- Schedule: `TimetableManagement.tsx` reads `slot.day` and `slot.timeSlot`, which the server's slots do not carry. The model keeps that mismatch as `FromServer`, and `ServerSlotsNeverFound` states its consequence. The corrected lookup is not modelled, because the intended field mapping cannot be read off the code.
- Grid.SemesterSuffix follows the code: semester 11 gets "st" and 12 gets "nd". For semesters 1 to 8 the result is what one expects.
- The create-timetable dialog (client/src/components/forms/create-timetable-dialog.tsx) is left out. It is form wiring whose schema has only type checks.
- React rendering, hooks, query caching, toasts' display and routing (App.tsx, the sidebars, headers and layout) are left out. Only the values the pages compute are modelled.
- AssignForm: zod's coercions and react-hook-form's internal state are reduced to a map from field name to value. `Validate` checks the fields the schema names.

## Findings

| source | as written | input that shows it | evidently intended | confidence | as-written member | corrected member |
|---|---|---|---|---|---|---|
| client/src/components/forms/assign-workload-dialog.tsx:123-135 | the faculty select passes the option's text straight to `field.onChange`, while the schema demands `z.number()` for `facultyId`; besides, its `SelectContent` with the faculty options is closed off after `</Select>` at line 127, so the options are not part of the select at all. Either way `facultyId` is never a number and the form can never validate | open the dialog and try to choose a faculty member (the options are outside the select, and even a chosen option would arrive as text), then choose any subject, division and type: the form still reports `facultyId` | put the `SelectContent` inside the `Select` and convert with `parseInt`, as the subject and division fields do at lines 147-158 and 172 | not executed | AssignForm.AsWrittenNeverSubmits | AssignForm.CorrectedSubmits |

=== FILE: assignform.dfy ===
/** The "Assign Workload" dialog: its client-side validation schema, the
    form state its controls write, and what a submitted form sends to the
    server. The form state is a `Schema.Body`: a field left untouched is
    absent (JavaScript `undefined`). */
module AssignForm {
  import opened Common
  import opened Js
  import Text
  import Schema

  type Form = Schema.Body

  const MIN_HOURS: int := 1
  const MAX_HOURS: int := 20

  /** The form's only default: one hour per week. */
  const DEFAULT_HOURS: int := 1
  const DEFAULT_FORM: Form := map["hoursPerWeek" := Num(DEFAULT_HOURS)]

  // ---------------------------------------------------------------------
  // the validation schema

  /** What the schema demands of one field. A number check rejects `NaN`
      and strings; an optional string accepts an absent or `undefined`
      field but not `null`. */
  datatype Check = Number | HoursInRange | Text | OptionalText

  const FORM_CHECKS: seq<(string, Check)> :=
    [("facultyId", Number), ("subjectId", Number), ("divisionId", Number), ("type", Text),
     ("hoursPerWeek", HoursInRange), ("classroom", OptionalText)]

  predicate Passes(c: Check, form: Form, key: string)
  {
    match c
    case Number => key in form && form[key].Num?
    case HoursInRange => key in form && form[key].Num? && MIN_HOURS <= form[key].n <= MAX_HOURS
    case Text => key in form && form[key].Str?
    case OptionalText => key !in form || form[key].Undefined? || form[key].Str?
  }

  /** The paths of the fields that fail, in schema order. */
  function Failing(form: Form, checks: seq<(string, Check)>): (r: seq<string>)
    ensures r == [] <==> forall i :: 0 <= i < |checks| ==> Passes(checks[i].1, form, checks[i].0)
    decreases |checks|
  {
    if |checks| == 0 then []
    else
      var last := checks[|checks| - 1];
      Failing(form, checks[..|checks| - 1]) + (if Passes(last.1, form, last.0) then [] else [last.0])
  }

  /** A field path is reported exactly when its check fails. */
  lemma {:induction false} FailingNames(form: Form, checks: seq<(string, Check)>, key: string)
    requires forall i, j :: 0 <= i < j < |checks| ==> checks[i].0 != checks[j].0
    ensures key in Failing(form, checks) <==>
              exists i :: 0 <= i < |checks| && checks[i].0 == key && !Passes(checks[i].1, form, key)
    decreases |checks|
  {
    if |checks| > 0 {
      var init := checks[..|checks| - 1];
      FailingNames(form, init, key);
      if exists i :: 0 <= i < |init| && init[i].0 == key && !Passes(init[i].1, form, key) {
        var i :| 0 <= i < |init| && init[i].0 == key && !Passes(init[i].1, form, key);
        assert checks[i] == init[i];
      }
    }
  }

  /** The schema's demands, field by field. */
  predicate Valid(form: Form)
  {
    && "facultyId" in form && form["facultyId"].Num?
    && "subjectId" in form && form["subjectId"].Num?
    && "divisionId" in form && form["divisionId"].Num?
    && "type" in form && form["type"].Str?
    && "hoursPerWeek" in form && form["hoursPerWeek"].Num?
    && MIN_HOURS <= form["hoursPerWeek"].n <= MAX_HOURS
    && ("classroom" !in form || form["classroom"].Undefined? || form["classroom"].Str?)
  }

  /** The validator: on success the data submitted, which carries only the
      schema's fields; on failure the failing paths, in schema order. */
  function Validate(form: Form): (r: Result<Schema.NewAssignment, seq<string>>)
    ensures r.Ok? <==> Valid(form)
    ensures r.Ok? ==>
              && r.value.facultyId == form["facultyId"].n && r.value.subjectId == form["subjectId"].n
              && r.value.divisionId == form["divisionId"].n && r.value.kind == form["type"].s
              && r.value.hoursPerWeek == form["hoursPerWeek"].n
              && MIN_HOURS <= r.value.hoursPerWeek <= MAX_HOURS
              && (r.value.classroom.Some? <==> "classroom" in form && form["classroom"].Str?)
              && (r.value.classroom.Some? ==> r.value.classroom.value == form["classroom"].s)
    ensures r.Err? ==> r.error != []
  {
    var bad := Failing(form, FORM_CHECKS);
    if bad != [] then
      assert !Valid(form) by {
        var i :| 0 <= i < |FORM_CHECKS| && !Passes(FORM_CHECKS[i].1, form, FORM_CHECKS[i].0);
      }
      Err(bad)
    else
      assert Passes(FORM_CHECKS[0].1, form, FORM_CHECKS[0].0);
      assert Passes(FORM_CHECKS[1].1, form, FORM_CHECKS[1].0);
      assert Passes(FORM_CHECKS[2].1, form, FORM_CHECKS[2].0);
      assert Passes(FORM_CHECKS[3].1, form, FORM_CHECKS[3].0);
      assert Passes(FORM_CHECKS[4].1, form, FORM_CHECKS[4].0);
      assert Passes(FORM_CHECKS[5].1, form, FORM_CHECKS[5].0);
      var classroom := if "classroom" in form && form["classroom"].Str? then Some(form["classroom"].s) else None;
      Ok(Schema.NewAssignment(form["facultyId"].n, form["subjectId"].n, form["divisionId"].n,
                              form["type"].s, form["hoursPerWeek"].n, classroom))
  }

  /** The error names exactly the fields that fail their check. */
  lemma ValidateReports(form: Form, key: string)
    requires Validate(form).Err?
    ensures key in Validate(form).error <==>
              exists i :: 0 <= i < |FORM_CHECKS| && FORM_CHECKS[i].0 == key
                          && !Passes(FORM_CHECKS[i].1, form, key)
  {
    FailingNames(form, FORM_CHECKS, key);
  }

  /** With every other field filled in, the hours decide: a whole number
      of hours is accepted exactly when it lies in 1..20. */
  lemma HoursBound(form: Form, n: int)
    requires Valid(form)
    ensures Validate(form["hoursPerWeek" := Num(n)]).Ok? <==> MIN_HOURS <= n <= MAX_HOURS
  {
  }

  /** The default hours pass their check: a fresh form fails only for the
      four fields the user has to choose. */
  lemma DefaultHoursPass()
    ensures Validate(DEFAULT_FORM) == Err(["facultyId", "subjectId", "divisionId", "type"])
  {
    var f := DEFAULT_FORM;
    assert FORM_CHECKS[..0] == [];
    assert FORM_CHECKS[..1][..0] == [];
    assert FORM_CHECKS[..2][..1] == FORM_CHECKS[..1];
    assert FORM_CHECKS[..3][..2] == FORM_CHECKS[..2];
    assert FORM_CHECKS[..4][..3] == FORM_CHECKS[..3];
    assert FORM_CHECKS[..5][..4] == FORM_CHECKS[..4];
    assert FORM_CHECKS[..6] == FORM_CHECKS;
    assert Failing(f, FORM_CHECKS[..1]) == ["facultyId"];
    assert Failing(f, FORM_CHECKS[..2]) == ["facultyId", "subjectId"];
    assert Failing(f, FORM_CHECKS[..3]) == ["facultyId", "subjectId", "divisionId"];
    assert Failing(f, FORM_CHECKS[..4]) == ["facultyId", "subjectId", "divisionId", "type"];
    assert Failing(f, FORM_CHECKS[..5]) == ["facultyId", "subjectId", "divisionId", "type"];
  }

  /** What the form submits is accepted by the server's insert schema and
      parsed back unchanged. */
  lemma SubmittedDataAccepted(form: Form)
    requires Validate(form).Ok?
    ensures Schema.ParseAssignment(Schema.EncodeAssignment(Validate(form).value)) == Validate(form)
  {
    Schema.ParseEncodeAssignment(Validate(form).value);
  }

  /** The range check exists only here: the server accepts a body with 25
      hours per week that the form refuses. */
  lemma ServerAcceptsHoursFormRejects()
    ensures var b := map["facultyId" := Num(1), "subjectId" := Num(1), "divisionId" := Num(1),
                         "type" := Str("lecture"), "hoursPerWeek" := Num(25)];
            Schema.ParseAssignment(b).Ok? && Validate(b).Err?
  {
    var b := map["facultyId" := Num(1), "subjectId" := Num(1), "divisionId" := Num(1),
                 "type" := Str("lecture"), "hoursPerWeek" := Num(25)];
    assert Schema.Accepts(Schema.ASSIGNMENT_COLUMNS[0].1, b, Schema.ASSIGNMENT_COLUMNS[0].0);
    assert Schema.Accepts(Schema.ASSIGNMENT_COLUMNS[1].1, b, Schema.ASSIGNMENT_COLUMNS[1].0);
    assert Schema.Accepts(Schema.ASSIGNMENT_COLUMNS[2].1, b, Schema.ASSIGNMENT_COLUMNS[2].0);
    assert Schema.Accepts(Schema.ASSIGNMENT_COLUMNS[3].1, b, Schema.ASSIGNMENT_COLUMNS[3].0);
    assert Schema.Accepts(Schema.ASSIGNMENT_COLUMNS[4].1, b, Schema.ASSIGNMENT_COLUMNS[4].0);
    assert Schema.Accepts(Schema.ASSIGNMENT_COLUMNS[5].1, b, Schema.ASSIGNMENT_COLUMNS[5].0);
  }

  // ---------------------------------------------------------------------
  // the controls

  /** What the user does: pick an option (whose value is the text of an
      id, or a workload type) or type into an input. */
  datatype Event =
    | PickFaculty(value: string)
    | PickSubject(value: string)
    | PickDivision(value: string)
    | PickType(value: string)
    | EnterHours(text: string)
    | EnterClassroom(text: string)

  /** The faculty select as written: it hands the option's text to the
      form unconverted. Its options are declared outside the select, so
      the dialog may not offer them at all; allowing the pick anyway only
      adds behaviours, and the faculty field still never becomes a
      number. */
  function ChooseFacultyAsWritten(form: Form, value: string): (r: Form)
    ensures "facultyId" in r && r["facultyId"] == Str(value)
    ensures forall k :: k in form && k != "facultyId" ==> k in r && r[k] == form[k]
  {
    form["facultyId" := Str(value)]
  }

  /** The faculty select converting its value with `parseInt`, as the
      subject and division selects do. */
  function ChooseFaculty(form: Form, value: string): (r: Form)
    ensures "facultyId" in r
    ensures forall id: int :: value == Text.IntToString(id) ==> r["facultyId"] == Num(id)
    ensures forall k :: k in form && k != "facultyId" ==> k in r && r[k] == form[k]
  {
    IdsReadBack();
    form["facultyId" := Text.ParseInt(value)]
  }

  /** An option offered as `id.toString()` reads back as `id`. */
  lemma IdsReadBack()
    ensures forall id: int :: Text.ParseInt(Text.IntToString(id)) == Num(id)
  {
    forall id: int
      ensures Text.ParseInt(Text.IntToString(id)) == Num(id)
    {
      Text.ParseIntOfIntToString(id);
    }
  }

  /** One control's change handler. The subject and division selects and
      the hours input convert with `parseInt` (an empty hours input gives
      `NaN`); the type select and classroom input store the text. With
      `asWritten` the faculty select stores its text, otherwise it
      converts like the others. */
  function Apply(form: Form, e: Event, asWritten: bool): (r: Form)
    ensures forall k :: k in form ==> k in r
  {
    match e
    case PickFaculty(v) => if asWritten then ChooseFacultyAsWritten(form, v) else ChooseFaculty(form, v)
    case PickSubject(v) => form["subjectId" := Text.ParseInt(v)]
    case PickDivision(v) => form["divisionId" := Text.ParseInt(v)]
    case PickType(v) => form["type" := Str(v)]
    case EnterHours(t) => form["hoursPerWeek" := Text.ParseInt(t)]
    case EnterClassroom(t) => form["classroom" := Str(t)]
  }

  /** The form after a sequence of events, starting from the defaults. */
  function Run(events: seq<Event>, asWritten: bool): Form
    decreases |events|
  {
    if |events| == 0 then DEFAULT_FORM
    else Apply(Run(events[..|events| - 1], asWritten), events[|events| - 1], asWritten)
  }

  /** The subject and division selects deliver the id whose option was
      picked. */
  lemma SelectsDeliverIds(form: Form, id: int)
    ensures Apply(form, PickSubject(Text.IntToString(id)), false)["subjectId"] == Num(id)
    ensures Apply(form, PickDivision(Text.IntToString(id)), false)["divisionId"] == Num(id)
    ensures Apply(form, PickFaculty(Text.IntToString(id)), false)["facultyId"] == Num(id)
  {
    Text.ParseIntOfIntToString(id);
  }

  predicate FacultyNotNumber(form: Form)
  {
    "facultyId" !in form || !form["facultyId"].Num?
  }

  /** As written, the faculty field never holds a number: it is absent
      until the select is used and a string after. */
  lemma {:induction false} AsWrittenFacultyNeverNumber(events: seq<Event>)
    ensures FacultyNotNumber(Run(events, true))
    decreases |events|
  {
    if |events| > 0 {
      AsWrittenFacultyNeverNumber(events[..|events| - 1]);
    }
  }

  /** As written, no sequence of user actions yields a form that passes
      validation, so the dialog can never submit. */
  lemma AsWrittenNeverSubmits(events: seq<Event>)
    ensures Validate(Run(events, true)).Err?
  {
    AsWrittenFacultyNeverNumber(events);
  }

  /** The form after choosing a faculty member, a subject, a division and
      a type through the corrected controls. */
  function ChosenForm(facultyId: int, subjectId: int, divisionId: int, kind: string): Form
  {
    DEFAULT_FORM["facultyId" := Num(facultyId)]["subjectId" := Num(subjectId)]
                ["divisionId" := Num(divisionId)]["type" := Str(kind)]
  }

  /** Running one more event applies it to the form so far. */
  lemma RunStep(events: seq<Event>, e: Event, asWritten: bool)
    ensures Run(events + [e], asWritten) == Apply(Run(events, asWritten), e, asWritten)
  {
    assert (events + [e])[..|events + [e]| - 1] == events;
  }

  lemma AfterFaculty(facultyId: int)
    ensures Run([PickFaculty(Text.IntToString(facultyId))], false) == DEFAULT_FORM["facultyId" := Num(facultyId)]
  {
    var e1 := PickFaculty(Text.IntToString(facultyId));
    RunStep([], e1, false);
    assert [] + [e1] == [e1];
    assert Run([e1], false) == ChooseFaculty(DEFAULT_FORM, Text.IntToString(facultyId));
  }

  lemma AfterSubject(facultyId: int, subjectId: int)
    ensures Run([PickFaculty(Text.IntToString(facultyId)), PickSubject(Text.IntToString(subjectId))], false)
            == DEFAULT_FORM["facultyId" := Num(facultyId)]["subjectId" := Num(subjectId)]
  {
    var e1 := PickFaculty(Text.IntToString(facultyId));
    var e2 := PickSubject(Text.IntToString(subjectId));
    AfterFaculty(facultyId);
    RunStep([e1], e2, false);
    assert [e1] + [e2] == [e1, e2];
    Text.ParseIntOfIntToString(subjectId);
  }

  lemma AfterDivision(facultyId: int, subjectId: int, divisionId: int)
    ensures Run([PickFaculty(Text.IntToString(facultyId)), PickSubject(Text.IntToString(subjectId)),
                 PickDivision(Text.IntToString(divisionId))], false)
            == DEFAULT_FORM["facultyId" := Num(facultyId)]["subjectId" := Num(subjectId)]
                           ["divisionId" := Num(divisionId)]
  {
    var e1 := PickFaculty(Text.IntToString(facultyId));
    var e2 := PickSubject(Text.IntToString(subjectId));
    var e3 := PickDivision(Text.IntToString(divisionId));
    AfterSubject(facultyId, subjectId);
    RunStep([e1, e2], e3, false);
    assert [e1, e2] + [e3] == [e1, e2, e3];
    Text.ParseIntOfIntToString(divisionId);
  }

  /** The corrected controls fill in the chosen ids and type. */
  lemma CorrectedForm(facultyId: int, subjectId: int, divisionId: int, kind: string)
    ensures var events := [PickFaculty(Text.IntToString(facultyId)), PickSubject(Text.IntToString(subjectId)),
                           PickDivision(Text.IntToString(divisionId)), PickType(kind)];
            Run(events, false) == ChosenForm(facultyId, subjectId, divisionId, kind)
  {
    var e1 := PickFaculty(Text.IntToString(facultyId));
    var e2 := PickSubject(Text.IntToString(subjectId));
    var e3 := PickDivision(Text.IntToString(divisionId));
    var e4 := PickType(kind);
    AfterDivision(facultyId, subjectId, divisionId);
    RunStep([e1, e2, e3], e4, false);
    assert [e1, e2, e3] + [e4] == [e1, e2, e3, e4];
  }

  /** The chosen form passes every check, the default hours included. */
  lemma ChosenFormValid(facultyId: int, subjectId: int, divisionId: int, kind: string)
    ensures var f := ChosenForm(facultyId, subjectId, divisionId, kind);
            Valid(f) && "classroom" !in f
            && f["facultyId"] == Num(facultyId) && f["subjectId"] == Num(subjectId)
            && f["divisionId"] == Num(divisionId) && f["type"] == Str(kind)
            && f["hoursPerWeek"] == Num(DEFAULT_HOURS)
  {
  }

  /** The corrected dialog moves the faculty options inside their select,
      as the subject and division fields have them, and converts the
      chosen value with `parseInt`. Then choosing a faculty member, a
      subject, a division and a type is enough to submit; the hours keep
      their default of one. */
  lemma CorrectedSubmits(facultyId: int, subjectId: int, divisionId: int, kind: string)
    ensures var events := [PickFaculty(Text.IntToString(facultyId)), PickSubject(Text.IntToString(subjectId)),
                           PickDivision(Text.IntToString(divisionId)), PickType(kind)];
            Validate(Run(events, false))
            == Ok(Schema.NewAssignment(facultyId, subjectId, divisionId, kind, DEFAULT_HOURS, None))
  {
    CorrectedForm(facultyId, subjectId, divisionId, kind);
    ChosenFormValid(facultyId, subjectId, divisionId, kind);
  }
}

=== FILE: common.dfy ===
/** Failure-carrying wrappers shared by the whole model.
    `Option` stands for a JavaScript value that may be `undefined`;
    `Result` stands for a validation outcome: the parsed value or the
    list of offending field names. */
module Common {

  datatype Option<T> = None | Some(value: T)

  datatype Result<T, E> = Ok(value: T) | Err(error: E)

  function OptionOr<T>(o: Option<T>, default: T): (r: T)
    ensures o.Some? ==> r == o.value
    ensures o.None? ==> r == default
  {
    match o
    case Some(v) => v
    case None => default
  }
}

=== FILE: constants.dfy ===
/** The client's constant tables: the faculty positions with their weekly
    hour limits, the workload types, the days of the week with their
    numeric codes, and the hour marks of the teaching day. */
module Constants {

  /** A faculty position. Here and in `Choice` and `Day` the `name`
      field is the source's `label`, a reserved word in Dafny. */
  datatype Position = Position(value: string, name: string, maxHours: int)

  const FACULTY_POSITIONS: seq<Position> := [
    Position("professor", "Professor", 14),
    Position("associate_professor", "Associate Professor", 16),
    Position("assistant_professor", "Assistant Professor", 18)
  ]

  datatype Choice = Choice(value: string, name: string)

  const WORKLOAD_TYPES: seq<Choice> := [
    Choice("lecture", "Lecture"),
    Choice("tutorial", "Tutorial"),
    Choice("practical", "Practical")
  ]

  /** A day of the week; `value` is the code stored in `dayOfWeek`. */
  datatype Day = Day(value: int, name: string)

  const DAYS_OF_WEEK: seq<Day> := [
    Day(0, "Monday"), Day(1, "Tuesday"), Day(2, "Wednesday"), Day(3, "Thursday"),
    Day(4, "Friday"), Day(5, "Saturday"), Day(6, "Sunday")
  ]

  const TIME_SLOTS: seq<string> :=
    ["09:00", "10:00", "11:00", "12:00", "13:00", "14:00", "15:00", "16:00", "17:00"]

  /** The value of a decimal digit character. */
  function Digit(c: char): (d: int)
    requires '0' <= c <= '9'
    ensures 0 <= d <= 9
  {
    c as int - '0' as int
  }

  /** A five-character "HH:00" mark. */
  predicate OnTheHour(t: string)
  {
    |t| == 5 && '0' <= t[0] <= '9' && '0' <= t[1] <= '9' && t[2] == ':' && t[3] == '0' && t[4] == '0'
  }

  /** The hour of an "HH:00" mark. */
  function Hour(t: string): (h: int)
    requires OnTheHour(t)
    ensures 0 <= h <= 99
  {
    10 * Digit(t[0]) + Digit(t[1])
  }

  /** The faculty positions, in order, with limits 14, 16 and 18. */
  lemma PositionTable()
    ensures |FACULTY_POSITIONS| == 3
    ensures FACULTY_POSITIONS[0].value == "professor" && FACULTY_POSITIONS[0].maxHours == 14
    ensures FACULTY_POSITIONS[1].value == "associate_professor" && FACULTY_POSITIONS[1].maxHours == 16
    ensures FACULTY_POSITIONS[2].value == "assistant_professor" && FACULTY_POSITIONS[2].maxHours == 18
  {
  }

  /** The workload types are exactly lecture, tutorial and practical. */
  lemma WorkloadTypeTable()
    ensures forall i :: 0 <= i < |WORKLOAD_TYPES| ==> WORKLOAD_TYPES[i].value in ["lecture", "tutorial", "practical"]
    ensures |WORKLOAD_TYPES| == 3
    ensures WORKLOAD_TYPES[0].value == "lecture" && WORKLOAD_TYPES[1].value == "tutorial"
    ensures WORKLOAD_TYPES[2].value == "practical"
  {
  }

  /** Each day's code is its position in the table, so the codes are 0..6
      and distinct, Monday is 0 and Sunday is 6. */
  lemma DayCodes()
    ensures |DAYS_OF_WEEK| == 7
    ensures forall i :: 0 <= i < |DAYS_OF_WEEK| ==> DAYS_OF_WEEK[i].value == i
    ensures forall i, j :: 0 <= i < j < |DAYS_OF_WEEK| ==> DAYS_OF_WEEK[i].value != DAYS_OF_WEEK[j].value
    ensures DAYS_OF_WEEK[0].name == "Monday" && DAYS_OF_WEEK[6].name == "Sunday"
  {
    assert forall i :: 0 <= i < |DAYS_OF_WEEK| ==> DAYS_OF_WEEK[i].value == i;
  }

  /** Nine on-the-hour marks, the i-th at hour 9 + i: from "09:00" to
      "17:00", strictly increasing. */
  lemma TimeSlotHours()
    ensures |TIME_SLOTS| == 9
    ensures forall i :: 0 <= i < |TIME_SLOTS| ==> OnTheHour(TIME_SLOTS[i]) && Hour(TIME_SLOTS[i]) == 9 + i
    ensures forall i, j :: 0 <= i < j < |TIME_SLOTS| ==> Hour(TIME_SLOTS[i]) < Hour(TIME_SLOTS[j])
  {
    forall i | 0 <= i < |TIME_SLOTS|
      ensures OnTheHour(TIME_SLOTS[i]) && Hour(TIME_SLOTS[i]) == 9 + i
    {
      if i == 0 {
        assert TIME_SLOTS[0] == "09:00";
      } else if i == 1 {
        assert TIME_SLOTS[1] == "10:00";
      } else if i == 2 {
        assert TIME_SLOTS[2] == "11:00";
      } else if i == 3 {
        assert TIME_SLOTS[3] == "12:00";
      } else if i == 4 {
        assert TIME_SLOTS[4] == "13:00";
      } else if i == 5 {
        assert TIME_SLOTS[5] == "14:00";
      } else if i == 6 {
        assert TIME_SLOTS[6] == "15:00";
      } else if i == 7 {
        assert TIME_SLOTS[7] == "16:00";
      } else {
        assert TIME_SLOTS[8] == "17:00";
      }
    }
  }
}

=== FILE: dashboard.dfy ===
/** The two dashboard pages' faculty panel: the first three faculty
    members, each with initials, a workload status whose colour drives the
    progress bar (and, on the capitalised page, the avatar), and a bar
    whose width is the percentage capped at 100. */
module Dashboard {
  import opened Schema
  import Text
  import Percent
  import Workload

  // ---------------------------------------------------------------------
  // shared pieces

  /** `xs.slice(0, 3)`: the first three, or all of a shorter list. */
  function TopThree<T>(xs: seq<T>): (r: seq<T>)
    ensures |r| <= 3
    ensures |r| == if |xs| < 3 then |xs| else 3
    ensures r == xs[..|r|]
  {
    xs[..if |xs| < 3 then |xs| else 3]
  }

  /** `Math.min((cur / max) * 100, 100)`: the bar never goes past 100, and
      a percentage up to 100 is drawn as it is. */
  function BarWidth(cur: int, max: int): (r: Percent.Num)
    ensures Percent.WellFormed(r)
    ensures !Percent.Above(r, 100)
    ensures !Percent.Above(Percent.Of(cur, max), 100) ==> r == Percent.Of(cur, max)
    ensures Percent.Above(Percent.Of(cur, max), 100) ==> r == Percent.Frac(100, 1)
  {
    Percent.Min(Percent.Of(cur, max), 100)
  }

  /** `words.map(n => n[0]).join('')`: the first character of every word;
      an empty word contributes `undefined`, which `join` writes as
      nothing. */
  function FirstChars(words: seq<string>): (r: string)
    ensures |r| <= |words|
    decreases |words|
  {
    if |words| == 0 then ""
    else
      var last := words[|words| - 1];
      FirstChars(words[..|words| - 1]) + (if last == "" then "" else [last[0]])
  }

  /** On words that are all non-empty, one character per word, in order. */
  lemma {:induction false} FirstCharsOfWords(words: seq<string>)
    requires forall i :: 0 <= i < |words| ==> words[i] != ""
    ensures |FirstChars(words)| == |words|
    ensures forall i :: 0 <= i < |words| ==> FirstChars(words)[i] == words[i][0]
    decreases |words|
  {
    if |words| > 0 {
      FirstCharsOfWords(words[..|words| - 1]);
    }
  }

  // ---------------------------------------------------------------------
  // dashboard.tsx

  /** The initials of the lower-case dashboard: first characters of the
      space-separated words, upper-cased. */
  function Initials(name: string): (r: string)
    ensures |r| <= |Text.Split(name, ' ')|
  {
    Text.ToUpper(FirstChars(Text.Split(name, ' ')))
  }

  /** A name written as words separated by single spaces has one initial
      per word: its first character, upper-cased, in word order. */
  lemma InitialsOfWords(words: seq<string>)
    requires |words| >= 1
    requires forall i :: 0 <= i < |words| ==> words[i] != "" && ' ' !in words[i]
    ensures |Initials(Text.Join(words, ' '))| == |words|
    ensures forall i :: 0 <= i < |words| ==> Initials(Text.Join(words, ' '))[i] == Text.UpperChar(words[i][0])
  {
    Text.SplitJoin(words, ' ');
    FirstCharsOfWords(words);
  }

  datatype Look = Look(status: string, color: string, textColor: string)

  /** `getWorkloadStatus` of the lower-case dashboard: the same thresholds
      and labels as the workload page, with a colour per label. */
  function StatusLook(cur: int, max: int): (r: Look)
    ensures r.status == Workload.WorkloadStatus(cur, max).text
    ensures r.status == Workload.OVER_LIMIT ==> r.color == "bg-cms-danger" && r.textColor == "text-cms-danger"
    ensures r.status == Workload.AT_LIMIT ==> r.color == "bg-cms-warning" && r.textColor == "text-cms-warning"
    ensures r.status == Workload.UNDER_LIMIT ==> r.color == "bg-cms-success" && r.textColor == "text-cms-success"
  {
    var p := Percent.Of(cur, max);
    if Percent.AtLeast(p, 100) then Look(Workload.OVER_LIMIT, "bg-cms-danger", "text-cms-danger")
    else if Percent.AtLeast(p, 90) then Look(Workload.AT_LIMIT, "bg-cms-warning", "text-cms-warning")
    else Look(Workload.UNDER_LIMIT, "bg-cms-success", "text-cms-success")
  }

  /** `getProgressColor`, written separately from the status. */
  function ProgressColor(cur: int, max: int): (c: string)
    ensures c in {"bg-cms-danger", "bg-cms-warning", "bg-cms-success"}
  {
    var p := Percent.Of(cur, max);
    if Percent.AtLeast(p, 100) then "bg-cms-danger"
    else if Percent.AtLeast(p, 90) then "bg-cms-warning"
    else "bg-cms-success"
  }

  /** The bar's colour is always the status colour. */
  lemma ProgressColorAgrees(cur: int, max: int)
    ensures ProgressColor(cur, max) == StatusLook(cur, max).color
  {
  }

  // ---------------------------------------------------------------------
  // Dashboard.tsx

  datatype Level = Level(status: string, color: string, text: string)

  /** `getFacultyWorkloadStatus`: 'over' from 100%, 'warning' from 90%,
      'under' below. */
  function FacultyLevel(f: Faculty): (r: Level)
    ensures r.status == "over" <==> Workload.WorkloadStatus(f.currentHours, f.maxHours).text == Workload.OVER_LIMIT
    ensures r.status == "warning" <==> Workload.WorkloadStatus(f.currentHours, f.maxHours).text == Workload.AT_LIMIT
    ensures r.status == "under" <==> Workload.WorkloadStatus(f.currentHours, f.maxHours).text == Workload.UNDER_LIMIT
    ensures r.status == "over" ==> r.color == "bg-red-500" && r.text == Workload.OVER_LIMIT
    ensures r.status == "warning" ==> r.color == "bg-yellow-500" && r.text == Workload.NEAR_LIMIT
    ensures r.status == "under" ==> r.color == "bg-green-500" && r.text == Workload.UNDER_LIMIT
  {
    var p := Percent.Of(f.currentHours, f.maxHours);
    if Percent.AtLeast(p, 100) then Level("over", "bg-red-500", Workload.OVER_LIMIT)
    else if Percent.AtLeast(p, 90) then Level("warning", "bg-yellow-500", Workload.NEAR_LIMIT)
    else Level("under", "bg-green-500", Workload.UNDER_LIMIT)
  }

  /** The avatar background chosen from the status. */
  function AvatarColor(status: string): (c: string)
    ensures c in {"bg-red-600", "bg-yellow-600", "bg-blue-600"}
  {
    if status == "over" then "bg-red-600"
    else if status == "warning" then "bg-yellow-600"
    else "bg-blue-600"
  }

  /** For a positive limit the avatar is red iff the hours reach the
      limit, yellow iff they are below it but at least nine tenths of it,
      and blue otherwise (while the bar of the same member is green). */
  lemma AvatarColorByHours(f: Faculty)
    requires f.maxHours > 0
    ensures AvatarColor(FacultyLevel(f).status) == "bg-red-600" <==> f.currentHours >= f.maxHours
    ensures AvatarColor(FacultyLevel(f).status) == "bg-yellow-600" <==>
              f.currentHours < f.maxHours && 10 * f.currentHours >= 9 * f.maxHours
    ensures AvatarColor(FacultyLevel(f).status) == "bg-blue-600" <==> 10 * f.currentHours < 9 * f.maxHours
    ensures AvatarColor(FacultyLevel(f).status) == "bg-blue-600" ==> FacultyLevel(f).color == "bg-green-500"
  {
    Workload.WorkloadStatusByHours(f.currentHours, f.maxHours);
  }

  /** `name.split(' ').map(n => n[0]).join('').slice(0, 2)`: at most two
      first characters, not upper-cased. */
  function TwoInitials(name: string): (r: string)
    ensures |r| <= 2 && |r| <= |FirstChars(Text.Split(name, ' '))|
    ensures r == FirstChars(Text.Split(name, ' '))[..|r|]
  {
    var all := FirstChars(Text.Split(name, ' '));
    all[..if |all| < 2 then |all| else 2]
  }

  /** Upper-cased, the two initials are the first two initials of the
      lower-case dashboard. */
  lemma TwoInitialsArePrefix(name: string)
    ensures |TwoInitials(name)| == if |Initials(name)| < 2 then |Initials(name)| else 2
    ensures Text.ToUpper(TwoInitials(name)) == Initials(name)[..|TwoInitials(name)|]
  {
  }
}

=== FILE: exceldata.dfy ===
/** The spreadsheet viewer: a fixed list of rows, the unique values
    offered by its three filter menus, the search-and-filter over the rows,
    the "Clear Filters" control and the CSV export of what is shown. */
module ExcelData {
  import Text
  import Seqs

  datatype ExcelRow = ExcelRow(id: int, facultyName: string, position: string, department: string,
                               subject: string, hours: int, room: string, semester: string,
                               division: string, status: string)

  /** The rows the page shows. */
  const SAMPLE_ROWS: seq<ExcelRow> := [
    ExcelRow(1, "Dr. Rajesh Kumar", "Professor", "Computer Science", "Advanced Algorithms", 4,
             "CS-101", "Spring 2025", "A", "Active"),
    ExcelRow(2, "Prof. Priya Sharma", "Associate Professor", "Mathematics", "Linear Algebra", 6,
             "MATH-201", "Spring 2025", "B", "Active"),
    ExcelRow(3, "Dr. Amit Mehta", "Assistant Professor", "Physics", "Quantum Physics", 3,
             "PHY-301", "Spring 2025", "A", "Pending"),
    ExcelRow(4, "Dr. Sarah Johnson", "Professor", "Computer Science", "Machine Learning", 5,
             "CS-102", "Spring 2025", "C", "Active"),
    ExcelRow(5, "Prof. Michael Brown", "Associate Professor", "Mathematics", "Calculus III", 4,
             "MATH-103", "Spring 2025", "A", "Active")
  ]

  /** The value a menu filter holds when it imposes nothing. */
  const ALL: string := "all"

  // ---------------------------------------------------------------------
  // filter menus

  /** `xs.filter((x, i) => xs.indexOf(x) === i)` over one column. */
  function Unique(values: seq<string>): (r: seq<string>)
    ensures r == Seqs.Distinct(values)
    ensures Seqs.NoDuplicates(r)
    ensures forall v :: v in r <==> v in values
    ensures Seqs.IsSubsequence(r, values)
  {
    Seqs.DedupByIndexOfIsDistinct(values);
    Seqs.DistinctProperties(values);
    Seqs.DedupByIndexOf(values)
  }

  function Departments(rows: seq<ExcelRow>): (r: seq<string>)
    ensures Seqs.NoDuplicates(r)
    ensures forall v :: v in r <==> exists i :: 0 <= i < |rows| && rows[i].department == v
  {
    var vs := Seqs.Map(rows, (x: ExcelRow) => x.department);
    assert forall v :: v in vs <==> exists i :: 0 <= i < |rows| && rows[i].department == v by {
      forall v | v in vs
        ensures exists i :: 0 <= i < |rows| && rows[i].department == v
      {
        var i :| 0 <= i < |vs| && vs[i] == v;
        assert rows[i].department == v;
      }
    }
    Unique(vs)
  }

  function Positions(rows: seq<ExcelRow>): (r: seq<string>)
    ensures Seqs.NoDuplicates(r)
    ensures forall v :: v in r <==> exists i :: 0 <= i < |rows| && rows[i].position == v
  {
    var vs := Seqs.Map(rows, (x: ExcelRow) => x.position);
    assert forall v :: v in vs <==> exists i :: 0 <= i < |rows| && rows[i].position == v by {
      forall v | v in vs
        ensures exists i :: 0 <= i < |rows| && rows[i].position == v
      {
        var i :| 0 <= i < |vs| && vs[i] == v;
        assert rows[i].position == v;
      }
    }
    Unique(vs)
  }

  function Statuses(rows: seq<ExcelRow>): (r: seq<string>)
    ensures Seqs.NoDuplicates(r)
    ensures forall v :: v in r <==> exists i :: 0 <= i < |rows| && rows[i].status == v
  {
    var vs := Seqs.Map(rows, (x: ExcelRow) => x.status);
    assert forall v :: v in vs <==> exists i :: 0 <= i < |rows| && rows[i].status == v by {
      forall v | v in vs
        ensures exists i :: 0 <= i < |rows| && rows[i].status == v
      {
        var i :| 0 <= i < |vs| && vs[i] == v;
        assert rows[i].status == v;
      }
    }
    Unique(vs)
  }

  // ---------------------------------------------------------------------
  // search and filters

  /** `Object.values(row)` rendered with `toString`, in declaration order. */
  function Fields(x: ExcelRow): (r: seq<string>)
    ensures |r| == 10
  {
    [Text.IntToString(x.id), x.facultyName, x.position, x.department, x.subject,
     Text.IntToString(x.hours), x.room, x.semester, x.division, x.status]
  }

  /** The empty term matches every row; any other term must occur, ignoring
      case, in one of the row's fields, the number fields included. */
  predicate MatchesSearch(x: ExcelRow, term: string)
  {
    term == "" || exists i :: 0 <= i < |Fields(x)| && Text.IncludesIgnoringCase(Fields(x)[i], term)
  }

  /** The four conditions together; "all" in a menu imposes nothing. */
  predicate RowMatches(x: ExcelRow, term: string, department: string, position: string, status: string)
  {
    MatchesSearch(x, term)
    && (department == ALL || x.department == department)
    && (position == ALL || x.position == position)
    && (status == ALL || x.status == status)
  }

  /** `filteredData`: the matching rows, in order; so the count shown
      never exceeds the total. */
  function FilteredRows(rows: seq<ExcelRow>, term: string, department: string, position: string,
                        status: string): (r: seq<ExcelRow>)
    ensures forall x :: x in r <==> x in rows && RowMatches(x, term, department, position, status)
    ensures Seqs.IsSubsequence(r, rows)
    ensures |r| <= |rows|
  {
    var p := (x: ExcelRow) => RowMatches(x, term, department, position, status);
    Seqs.FilterMembership(rows, p);
    Seqs.FilterIsSubsequence(rows, p);
    Seqs.Filter(rows, p)
  }

  /** "Clear Filters" is offered iff the search is non-empty or a menu is
      not on "all". */
  predicate ShowClear(term: string, department: string, position: string, status: string)
  {
    term != "" || department != ALL || position != ALL || status != ALL
  }

  /** When the control is hidden (in particular right after it is used)
      every row is shown, in order. */
  lemma ClearedShowsAll(rows: seq<ExcelRow>, term: string, department: string, position: string, status: string)
    requires !ShowClear(term, department, position, status)
    ensures FilteredRows(rows, term, department, position, status) == rows
  {
    Seqs.FilterKeepsAll(rows, (x: ExcelRow) => RowMatches(x, term, department, position, status));
  }

  /** The search term matches a row through its id: writing the id finds
      the row, whatever the menus say about other rows. */
  lemma SearchFindsId(x: ExcelRow)
    ensures MatchesSearch(x, Text.IntToString(x.id))
  {
    var s := Text.IntToString(x.id);
    assert Fields(x)[0] == s;
    assert Text.IsPrefix(Text.ToLower(s), Text.ToLower(s));
  }

  // ---------------------------------------------------------------------
  // CSV export

  const HEADERS: seq<string> :=
    ["Faculty Name", "Position", "Department", "Subject", "Hours", "Room", "Semester", "Division", "Status"]

  /** The exported columns of a row: every field except the id. */
  function CsvFields(x: ExcelRow): (r: seq<string>)
    ensures |r| == |HEADERS|
  {
    [x.facultyName, x.position, x.department, x.subject, Text.IntToString(x.hours), x.room,
     x.semester, x.division, x.status]
  }

  /** One CSV line: the columns joined by ',' with no quoting. */
  function CsvLine(x: ExcelRow): string
  {
    Text.Join(CsvFields(x), ',')
  }

  /** `exportToCSV`'s text: the header line, then one line per shown row,
      joined by '\n' with no trailing newline. */
  function Csv(rows: seq<ExcelRow>): string
  {
    Text.Join([Text.Join(HEADERS, ',')] + Seqs.Map(rows, CsvLine), '\n')
  }

  /** No text column contains `c`. */
  predicate TextAvoids(x: ExcelRow, c: char)
  {
    c !in x.facultyName && c !in x.position && c !in x.department && c !in x.subject
    && c !in x.room && c !in x.semester && c !in x.division && c !in x.status
  }

  /** A row free of line breaks and commas reads back from its line. */
  lemma CsvLineRoundTrip(x: ExcelRow)
    requires TextAvoids(x, ',')
    ensures Text.Split(CsvLine(x), ',') == CsvFields(x)
  {
    Text.IntToStringAvoids(x.hours, ',');
    Text.SplitJoin(CsvFields(x), ',');
  }

  /** A line has a line break only where a text column has one. */
  lemma CsvLineSingle(x: ExcelRow)
    requires TextAvoids(x, '\n')
    ensures '\n' !in CsvLine(x)
  {
    Text.IntToStringAvoids(x.hours, '\n');
    Text.JoinAvoids(CsvFields(x), ',', '\n');
  }

  /** The header line reads back into the headers and has no line
      break. */
  lemma HeaderLine()
    ensures '\n' !in Text.Join(HEADERS, ',')
    ensures Text.Split(Text.Join(HEADERS, ','), ',') == HEADERS
  {
    assert forall i :: 0 <= i < |HEADERS| ==> ',' !in HEADERS[i] && '\n' !in HEADERS[i];
    Text.JoinAvoids(HEADERS, ',', '\n');
    Text.SplitJoin(HEADERS, ',');
  }

  /** With no line breaks in the data the export has exactly one line per
      row after the header, in row order. */
  lemma CsvLines(rows: seq<ExcelRow>)
    requires forall i :: 0 <= i < |rows| ==> TextAvoids(rows[i], '\n')
    ensures Text.Split(Csv(rows), '\n') == [Text.Join(HEADERS, ',')] + Seqs.Map(rows, CsvLine)
  {
    var lines := [Text.Join(HEADERS, ',')] + Seqs.Map(rows, CsvLine);
    HeaderLine();
    forall i | 0 <= i < |lines|
      ensures '\n' !in lines[i]
    {
      if i > 0 {
        CsvLineSingle(rows[i - 1]);
      }
    }
    Text.SplitJoin(lines, '\n');
  }

  /** Reading the export back: the first line splits into the headers and
      line `i + 1` into row `i`'s columns, when the data has no line breaks
      and that row no commas. */
  lemma CsvRoundTrip(rows: seq<ExcelRow>)
    requires forall i :: 0 <= i < |rows| ==> TextAvoids(rows[i], '\n')
    ensures |Text.Split(Csv(rows), '\n')| == |rows| + 1
    ensures Text.Split(Text.Split(Csv(rows), '\n')[0], ',') == HEADERS
    ensures forall i :: 0 <= i < |rows| && TextAvoids(rows[i], ',') ==>
              Text.Split(Text.Split(Csv(rows), '\n')[i + 1], ',') == CsvFields(rows[i])
  {
    CsvLines(rows);
    HeaderLine();
    forall i | 0 <= i < |rows| && TextAvoids(rows[i], ',')
      ensures Text.Split(Text.Split(Csv(rows), '\n')[i + 1], ',') == CsvFields(rows[i])
    {
      CsvLineRoundTrip(rows[i]);
    }
  }
}

=== FILE: excelimport.dfy ===
/** The spreadsheet import page: the list of uploads it shows, the checks a
    picked file must pass before it is selected (and the drop zone that
    skips them), the upload request built from the selected file, the
    status badge and icon, and the "3 days ago" rendering of an upload's
    age. The clock is a parameter: `now` is the reading of `Date.now()`
    (or `new Date()`) in milliseconds. */
module ExcelImport {
  import opened Common
  import opened Schema
  import Js
  import Text
  import Seqs
  import Storage

  // ---------------------------------------------------------------------
  // the upload list

  predicate Listed(u: Upload)
  {
    u.status != "deleted"
  }

  /** The uploads shown: every upload whose status is not "deleted", in
      the order the server returned them. */
  function VisibleUploads(all: seq<Upload>): (r: seq<Upload>)
    ensures forall u :: u in r <==> u in all && u.status != "deleted"
    ensures Seqs.IsSubsequence(r, all)
  {
    Seqs.FilterMembership(all, Listed);
    Seqs.FilterIsSubsequence(all, Listed);
    Seqs.Filter(all, Listed)
  }

  /** An upload the server has just created ("processing") is listed
      last, after the uploads listed before. */
  lemma NewUploadListed(s: Storage.Store, nu: NewUpload, now: int)
    requires Storage.Valid(s)
    ensures var (s', u) := Storage.CreateUpload(s, nu, now);
            VisibleUploads(Storage.AllUploads(s')) == VisibleUploads(Storage.AllUploads(s)) + [u]
  {
    var (s', u) := Storage.CreateUpload(s, nu, now);
    Seqs.FilterAppend(Storage.AllUploads(s), [u], Listed);
    assert Seqs.Filter([u], Listed) == Seqs.Filter([], Listed) + [u];
  }

  /** Marking an upload "deleted" removes exactly that entry from the
      list and keeps the rest in order. */
  lemma DeletedUploadHidden(before: seq<Upload>, u: Upload, after: seq<Upload>)
    ensures VisibleUploads(before + [u.(status := "deleted")] + after)
            == VisibleUploads(before) + VisibleUploads(after)
  {
    var d := u.(status := "deleted");
    var all := before + [d] + after;
    assert VisibleUploads(all) == Seqs.Filter(all, Listed);
    Seqs.FilterAppend(before + [d], after, Listed);
    Seqs.FilterAppend(before, [d], Listed);
    assert !Listed(d) && [d][..0] == [];
    assert Seqs.Filter([d], Listed) == [];
    assert Seqs.Filter(before + [d], Listed) == Seqs.Filter(before, Listed);
  }

  // ---------------------------------------------------------------------
  // picking and dropping a file

  /** A browser `File`: its name, MIME type and size in bytes. */
  datatype File = File(name: string, mimeType: string, size: int)

  const XLSX_TYPE: string := "application/vnd.openxmlformats-officedocument.spreadsheetml.sheet"
  const XLS_TYPE: string := "application/vnd.ms-excel"

  /** 10 MB. */
  const MAX_FILE_SIZE: int := 10 * 1024 * 1024

  const INVALID_TYPE_TITLE: string := "Invalid file type"
  const TOO_LARGE_TITLE: string := "File too large"

  /** A file the picker accepts: one of the two Excel types, at most
      10 MB. */
  predicate Acceptable(f: File)
  {
    (f.mimeType == XLSX_TYPE || f.mimeType == XLS_TYPE) && f.size <= MAX_FILE_SIZE
  }

  /** The selection after an event and the title of the error toast it
      raised, if any. */
  datatype Picked = Picked(selected: Option<File>, toast: Option<string>)

  /** The file input's change handler: `picked` is the first file of the
      input, if any. The type is checked before the size, so a file that
      fails both reports the type. A rejected file leaves the previous
      selection in place. */
  function SelectFile(current: Option<File>, picked: Option<File>): (r: Picked)
    ensures picked.None? ==> r == Picked(current, None)
    ensures picked.Some? && Acceptable(picked.value) ==> r == Picked(picked, None)
    ensures picked.Some? && !Acceptable(picked.value) ==> r.selected == current && r.toast.Some?
    ensures r.toast == Some(INVALID_TYPE_TITLE) <==>
              picked.Some? && picked.value.mimeType != XLSX_TYPE && picked.value.mimeType != XLS_TYPE
    ensures r.toast == Some(TOO_LARGE_TITLE) <==>
              picked.Some? && (picked.value.mimeType == XLSX_TYPE || picked.value.mimeType == XLS_TYPE)
              && picked.value.size > MAX_FILE_SIZE
  {
    match picked
    case None => Picked(current, None)
    case Some(f) =>
      if f.mimeType != XLSX_TYPE && f.mimeType != XLS_TYPE then Picked(current, Some(INVALID_TYPE_TITLE))
      else if f.size > MAX_FILE_SIZE then Picked(current, Some(TOO_LARGE_TITLE))
      else Picked(Some(f), None)
  }

  /** Through the picker only acceptable files are ever selected: the
      property is kept by every change event. */
  lemma PickerKeepsSelectionAcceptable(current: Option<File>, picked: Option<File>)
    requires current.Some? ==> Acceptable(current.value)
    ensures var r := SelectFile(current, picked);
            r.selected.Some? ==> Acceptable(r.selected.value)
  {
  }

  /** The drop zone's handler: the first dropped file, if any, becomes the
      selection with no type or size check. */
  function Drop(current: Option<File>, dropped: Option<File>): (r: Option<File>)
    ensures dropped.Some? ==> r == dropped
    ensures dropped.None? ==> r == current
  {
    if dropped.Some? then dropped else current
  }

  /** Dropping selects any file, including one the picker rejects: a plain
      text file ends up selected for upload. */
  lemma DropSkipsChecks()
    ensures var f := File("notes.txt", "text/plain", 0);
            Drop(None, Some(f)) == Some(f) && !Acceptable(f)
            && SelectFile(None, Some(f)) == Picked(None, Some(INVALID_TYPE_TITLE))
  {
  }

  // ---------------------------------------------------------------------
  // the upload request

  /** The upload button: with a file selected, the body posted to the
      server names the stored file `<now>_<name>` and carries the original
      name and size; with nothing selected nothing is sent. The time stamp
      reads back from the stored name with `parseInt`. */
  function UploadRequest(now: nat, selected: Option<File>): (r: Option<NewUpload>)
    ensures r.Some? <==> selected.Some?
    ensures r.Some? ==>
              var f := selected.value;
              r.value.originalName == f.name && r.value.fileSize == f.size
              && Text.ParseInt(r.value.filename) == Js.Num(now)
              && |r.value.filename| > |f.name|
              && r.value.filename[|r.value.filename| - |f.name| - 1..] == "_" + f.name
  {
    match selected
    case None => None
    case Some(f) =>
      var filename := Text.NatToString(now) + "_" + f.name;
      assert filename == Text.NatToString(now) + ("_" + f.name);
      Text.ParseIntOfNatToStringThen(now, "_" + f.name);
      Text.NatToStringDigits(now);
      assert filename[|filename| - |f.name| - 1..] == "_" + f.name;
      Some(NewUpload(filename, f.name, f.size))
  }

  // ---------------------------------------------------------------------
  // status badge and icon

  datatype BadgeVariant = Default | Secondary | Destructive | Outline

  const KNOWN_STATUSES: set<string> := {"completed", "processing", "error"}

  function StatusVariant(status: string): (r: BadgeVariant)
    ensures r == Default <==> status == "completed"
    ensures r == Secondary <==> status == "processing"
    ensures r == Destructive <==> status == "error"
    ensures r == Outline <==> status !in KNOWN_STATUSES
  {
    match status
    case "completed" => Default
    case "processing" => Secondary
    case "error" => Destructive
    case _ => Outline
  }

  const SUCCESS_ICON: string := "text-cms-success"
  const WARNING_ICON: string := "text-cms-warning"
  const DANGER_ICON: string := "text-cms-danger"
  const NEUTRAL_ICON: string := "text-slate-500"

  function StatusIcon(status: string): (r: string)
    ensures r == SUCCESS_ICON <==> status == "completed"
    ensures r == WARNING_ICON <==> status == "processing"
    ensures r == DANGER_ICON <==> status == "error"
    ensures r == NEUTRAL_ICON <==> status !in KNOWN_STATUSES
  {
    match status
    case "completed" => SUCCESS_ICON
    case "processing" => WARNING_ICON
    case "error" => DANGER_ICON
    case _ => NEUTRAL_ICON
  }

  /** The icon colour each badge variant goes with. */
  function VariantIcon(v: BadgeVariant): string
  {
    match v
    case Default => SUCCESS_ICON
    case Secondary => WARNING_ICON
    case Destructive => DANGER_ICON
    case Outline => NEUTRAL_ICON
  }

  /** Badge and icon classify statuses the same way: the icon is a
      function of the badge. */
  lemma IconFollowsVariant(status: string)
    ensures StatusIcon(status) == VariantIcon(StatusVariant(status))
  {
  }

  // ---------------------------------------------------------------------
  // upload age

  const MS_PER_HOUR: int := 1000 * 60 * 60
  const MS_PER_DAY: int := 24 * MS_PER_HOUR
  const JUST_NOW: string := "Just now"

  /** "N unit ago", with the plural "s" exactly when N > 1. */
  function Ago(n: nat, unit: string): (r: string)
    ensures |r| > 0 && Text.IsDigitIn(r[0], 10)
  {
    Text.NatToStringDigits(n);
    Text.NatToString(n) + " " + unit + (if n > 1 then "s" else "") + " ago"
  }

  /** A product with a factor of at least one is at least the other
      factor. */
  lemma AtLeastOneTimes(a: int, m: int)
    requires a >= 1 && m > 0
    ensures a * m >= m
  {
    assert a * m == m + (a - 1) * m;
  }

  /** Integer division by `m` has one answer. */
  lemma DivUnique(d: int, m: int, q: int, rem: int)
    requires m > 0 && 0 <= rem < m && d == q * m + rem
    ensures d / m == q
  {
    var q' := d / m;
    var rem' := d % m;
    assert d == q' * m + rem';
    assert (q - q') * m == rem' - rem;
    if q > q' {
      AtLeastOneTimes(q - q', m);
    } else if q < q' {
      AtLeastOneTimes(q' - q, m);
    }
  }

  /** Whole days counted from whole hours are the whole days of the
      milliseconds: `floor(floor(d / 3600000) / 24) == floor(d / 86400000)`,
      negative `d` included. */
  lemma DaysOfHours(d: int)
    ensures (d / MS_PER_HOUR) / 24 == d / MS_PER_DAY
  {
    var q := d / MS_PER_HOUR;
    var r1 := d % MS_PER_HOUR;
    var q2 := q / 24;
    var r2 := q % 24;
    assert d == q * MS_PER_HOUR + r1;
    assert q == q2 * 24 + r2;
    assert d == q2 * MS_PER_DAY + (r2 * MS_PER_HOUR + r1);
    assert 0 <= r2 * MS_PER_HOUR + r1 < MS_PER_DAY;
    DivUnique(d, MS_PER_DAY, q2, r2 * MS_PER_HOUR + r1);
  }

  /** `floor(d / m) > 0` exactly when `d >= m`. */
  lemma PositiveQuotient(d: int, m: int)
    requires m > 0
    ensures d / m > 0 <==> d >= m
  {
    if d >= m {
      assert d == (d / m) * m + d % m;
    } else if d >= 0 {
      DivUnique(d, m, 0, d);
    } else {
      assert d == (d / m) * m + d % m;
    }
  }

  /** `formatUploadTime`: whole hours are the floor of the milliseconds
      elapsed over 3 600 000 and whole days the floor of those hours over
      24; days are shown when there is at least one, else hours when there
      is at least one, else "Just now" (also for an upload time in the
      future). */
  function FormatUploadTime(now: int, uploadedAt: int): (r: string)
    ensures r == JUST_NOW <==> now - uploadedAt < MS_PER_HOUR
    ensures now - uploadedAt >= MS_PER_DAY ==> r == Ago((now - uploadedAt) / MS_PER_DAY, "day")
    ensures MS_PER_HOUR <= now - uploadedAt < MS_PER_DAY ==>
              r == Ago((now - uploadedAt) / MS_PER_HOUR, "hour")
  {
    var diffMs := now - uploadedAt;
    var diffHrs := diffMs / MS_PER_HOUR;
    var diffDays := diffHrs / 24;
    DaysOfHours(diffMs);
    PositiveQuotient(diffMs, MS_PER_HOUR);
    PositiveQuotient(diffMs, MS_PER_DAY);
    assert JUST_NOW[0] == 'J';
    if diffDays > 0 then Ago(diffDays, "day")
    else if diffHrs > 0 then Ago(diffHrs, "hour")
    else JUST_NOW
  }

  /** A rendered age reads back with `parseInt` as its count. */
  lemma AgoReadsBack(n: nat, unit: string)
    ensures Text.ParseInt(Ago(n, unit)) == Js.Num(n)
  {
    var rest := " " + unit + (if n > 1 then "s" else "") + " ago";
    assert Ago(n, unit) == Text.NatToString(n) + rest;
    Text.ParseIntOfNatToStringThen(n, rest);
  }

  /** The number shown reads back with `parseInt` as the whole days (or,
      under a day, the whole hours) elapsed. */
  lemma UploadTimeReadsBack(now: int, uploadedAt: int)
    requires now - uploadedAt >= MS_PER_HOUR
    ensures var d := now - uploadedAt;
            Text.ParseInt(FormatUploadTime(now, uploadedAt))
            == Js.Num(if d >= MS_PER_DAY then d / MS_PER_DAY else d / MS_PER_HOUR)
  {
    var d := now - uploadedAt;
    var r := FormatUploadTime(now, uploadedAt);
    if d >= MS_PER_DAY {
      var n := d / MS_PER_DAY;
      assert r == Ago(n, "day");
      AgoReadsBack(n, "day");
    } else {
      var n := d / MS_PER_HOUR;
      assert r == Ago(n, "hour");
      AgoReadsBack(n, "hour");
    }
  }

  /** The plural is used exactly for counts above one: an hour-old upload
      reads "1 hour ago". */
  lemma OneHourAgo()
    ensures FormatUploadTime(MS_PER_HOUR, 0) == "1 hour ago"
  {
    var d := MS_PER_HOUR - 0;
    assert d / MS_PER_HOUR == 1;
    assert Text.NatToString(1) == "1";
  }

  /** A two-day-old upload reads "2 days ago". */
  lemma TwoDaysAgo()
    ensures FormatUploadTime(2 * MS_PER_DAY, 0) == "2 days ago"
  {
    var d := 2 * MS_PER_DAY - 0;
    assert d / MS_PER_DAY == 2;
    assert Text.NatToString(2) == "2";
  }

}

=== FILE: grid.dfy ===
/** The timetable grid shared by the lower-case timetable page and the
    student dashboard: every slot is filed under the cell named by its
    "start - end" text and its day code, provided the grid has that cell;
    the subject colour comes from a 32-bit string hash; the heading reads
    the division's semester with an English ordinal suffix; and the
    student view inserts one break row after the late-morning hour. */
module Grid {
  import opened Common
  import opened Schema
  import Js
  import Text
  import Seqs
  import Storage
  import Constants

  type Entry = Storage.Joined<Slot>

  /** The grid's hour ranges, in display order. */
  const GRID_TIMES: seq<string> := [
    "09:00 - 10:00", "10:00 - 11:00", "11:00 - 12:00", "12:00 - 13:00",
    "13:00 - 14:00", "14:00 - 15:00", "15:00 - 16:00", "16:00 - 17:00"
  ]

  /** The colour classes of the timetable page. */
  const TIMETABLE_COLORS: seq<string> := [
    "bg-blue-50 border-blue-400", "bg-green-50 border-green-400",
    "bg-purple-50 border-purple-400", "bg-orange-50 border-orange-400",
    "bg-red-50 border-red-400", "bg-yellow-50 border-yellow-400",
    "bg-indigo-50 border-indigo-400"
  ]

  /** The colour classes of the student dashboard. */
  const STUDENT_COLORS: seq<string> := [
    "bg-blue-50 border-l-4 border-blue-400 text-blue-600",
    "bg-green-50 border-l-4 border-green-400 text-green-600",
    "bg-purple-50 border-l-4 border-purple-400 text-purple-600",
    "bg-orange-50 border-l-4 border-orange-400 text-orange-600",
    "bg-red-50 border-l-4 border-red-400 text-red-600",
    "bg-yellow-50 border-l-4 border-yellow-400 text-yellow-600",
    "bg-indigo-50 border-l-4 border-indigo-400 text-indigo-600"
  ]

  /** The day codes the grid has columns for: all seven. */
  const DAY_CODES: set<int> := set d | d in Constants.DAYS_OF_WEEK :: d.value

  /** The columns drawn: the first five days. */
  const RENDERED_DAYS: seq<Constants.Day> := Constants.DAYS_OF_WEEK[..5]

  // ---------------------------------------------------------------------
  // bucketing

  /** Hour range text, then day code, to the slots filed there. */
  type Table = map<string, map<int, seq<Entry>>>

  /** The `${startTime} - ${endTime}` key of a slot. */
  function SlotKey(x: Slot): string
  {
    x.startTime + " - " + x.endTime
  }

  /** The slot belongs in the cell at hour range `t` and day `d`. */
  function InCell(t: string, d: int): Entry -> bool
  {
    (x: Entry) => SlotKey(x.record) == t && x.record.dayOfWeek == d
  }

  /** The grid before any slot is placed: an empty cell for every hour
      range and every day code. */
  function EmptyGrid(): (g: Table)
    ensures forall t :: t in g <==> t in GRID_TIMES
    ensures forall t :: t in g ==> g[t].Keys == DAY_CODES
    ensures forall t, d :: t in g && d in g[t] ==> g[t][d] == []
  {
    map t | t in GRID_TIMES :: map d | d in DAY_CODES :: []
  }

  /** One `forEach` step: append the slot to its cell when the grid has
      that cell, otherwise leave the grid as it is. */
  function Place(g: Table, x: Entry): (r: Table)
    ensures r.Keys == g.Keys
    ensures forall t :: t in g ==> r[t].Keys == g[t].Keys
  {
    var t := SlotKey(x.record);
    var d := x.record.dayOfWeek;
    if t in g && d in g[t] then g[t := g[t][d := g[t][d] + [x]]] else g
  }

  /** `createTimetableGrid`: the empty grid with every slot placed in list
      order. */
  function Build(xs: seq<Entry>): Table
    decreases |xs|
  {
    if |xs| == 0 then EmptyGrid() else Place(Build(xs[..|xs| - 1]), xs[|xs| - 1])
  }

  /** Placing slots never adds or removes a cell. */
  lemma {:induction false} BuildKeys(xs: seq<Entry>)
    ensures Build(xs).Keys == EmptyGrid().Keys
    ensures forall t :: t in Build(xs) ==> Build(xs)[t].Keys == DAY_CODES
    decreases |xs|
  {
    if |xs| > 0 {
      BuildKeys(xs[..|xs| - 1]);
    }
  }

  /** Placing a slot appends it to its own cell and leaves every other
      cell as it was. */
  lemma PlaceCell(g: Table, x: Entry, t: string, d: int)
    requires t in g && d in g[t]
    ensures t in Place(g, x) && d in Place(g, x)[t]
    ensures Place(g, x)[t][d] == g[t][d] + (if InCell(t, d)(x) then [x] else [])
  {
  }

  /** Each cell holds precisely the slots whose key and day name it, in
      list order. */
  lemma {:induction false} BuildCell(xs: seq<Entry>, t: string, d: int)
    requires t in GRID_TIMES && d in DAY_CODES
    ensures t in Build(xs) && d in Build(xs)[t]
    ensures Build(xs)[t][d] == Seqs.Filter(xs, InCell(t, d))
    decreases |xs|
  {
    BuildKeys(xs);
    if |xs| == 0 {
      assert Build(xs)[t][d] == [];
    } else {
      var init := xs[..|xs| - 1];
      var x := xs[|xs| - 1];
      BuildCell(init, t, d);
      PlaceCell(Build(init), x, t, d);
    }
  }

  /** The grid has exactly the empty grid's cells, and each cell holds
      precisely the slots whose key and day name it, in list order. */
  lemma BuildCells(xs: seq<Entry>)
    ensures forall t :: t in Build(xs) <==> t in GRID_TIMES
    ensures forall t :: t in Build(xs) ==> Build(xs)[t].Keys == DAY_CODES
    ensures forall t, d :: t in Build(xs) && d in Build(xs)[t] ==> Build(xs)[t][d] == Seqs.Filter(xs, InCell(t, d))
  {
    BuildKeys(xs);
    forall t, d | t in Build(xs) && d in Build(xs)[t]
      ensures Build(xs)[t][d] == Seqs.Filter(xs, InCell(t, d))
    {
      BuildCell(xs, t, d);
    }
  }

  /** `grid[t]?.[d] || []`: the cell, or nothing for a missing one. */
  function Cell(g: Table, t: string, d: int): seq<Entry>
  {
    if t in g && d in g[t] then g[t][d] else []
  }

  /** A slot whose key and day name a cell of the grid is filed there; one
      whose key or day does not is in no cell at all. */
  lemma Placement(xs: seq<Entry>, x: Entry)
    requires x in xs
    ensures SlotKey(x.record) in GRID_TIMES && x.record.dayOfWeek in DAY_CODES ==>
              x in Cell(Build(xs), SlotKey(x.record), x.record.dayOfWeek)
    ensures SlotKey(x.record) !in GRID_TIMES || x.record.dayOfWeek !in DAY_CODES ==>
              forall t, d :: x !in Cell(Build(xs), t, d)
  {
    BuildCells(xs);
    Seqs.FilterMembership(xs, InCell(SlotKey(x.record), x.record.dayOfWeek));
    forall t, d
      ensures x in Cell(Build(xs), t, d) ==> SlotKey(x.record) == t && x.record.dayOfWeek == d
    {
      Seqs.FilterMembership(xs, InCell(t, d));
    }
  }

  /** A slot is in at most one cell. */
  lemma PlacedOnce(xs: seq<Entry>, x: Entry, t1: string, d1: int, t2: string, d2: int)
    requires x in Cell(Build(xs), t1, d1) && x in Cell(Build(xs), t2, d2)
    ensures t1 == t2 && d1 == d2
  {
    BuildCells(xs);
    Seqs.FilterMembership(xs, InCell(t1, d1));
    Seqs.FilterMembership(xs, InCell(t2, d2));
  }

  /** The drawn columns are Monday to Friday, codes 0 to 4. */
  lemma RenderedDayCodes()
    ensures |RENDERED_DAYS| == 5
    ensures forall j :: 0 <= j < 5 ==> RENDERED_DAYS[j].value == j
    ensures RENDERED_DAYS[0].name == "Monday" && RENDERED_DAYS[4].name == "Friday"
  {
    Constants.DayCodes();
  }

  /** A Saturday or Sunday slot in the grid's hours is filed in its cell
      but never drawn: no drawn cell holds it. */
  lemma WeekendFiledButHidden(xs: seq<Entry>, x: Entry)
    requires x in xs && SlotKey(x.record) in GRID_TIMES
    requires x.record.dayOfWeek == 5 || x.record.dayOfWeek == 6
    ensures x in Cell(Build(xs), SlotKey(x.record), x.record.dayOfWeek)
    ensures forall t, j :: 0 <= j < |RENDERED_DAYS| ==> x !in Cell(Build(xs), t, RENDERED_DAYS[j].value)
  {
    Constants.DayCodes();
    assert Constants.DAYS_OF_WEEK[x.record.dayOfWeek].value == x.record.dayOfWeek;
    Placement(xs, x);
    RenderedDayCodes();
    forall t, j | 0 <= j < |RENDERED_DAYS|
      ensures x !in Cell(Build(xs), t, RENDERED_DAYS[j].value)
    {
      if x in Cell(Build(xs), t, RENDERED_DAYS[j].value) {
        PlacedOnce(xs, x, t, RENDERED_DAYS[j].value, SlotKey(x.record), x.record.dayOfWeek);
      }
    }
  }

  // ---------------------------------------------------------------------
  // subject colours

  /** One step of the hash: `a = ((a << 5) - a) + code; return a & a`.
      The shift works on the 32-bit value of `a`, the sum is exact, and
      `a & a` brings the result back to 32 bits. */
  function HashStep(a: int, unit: int): (r: int)
    ensures -Js.TWO_31 <= r < Js.TWO_31
  {
    Js.ToInt32(Js.ToInt32(Js.ToInt32(a) * 32) - a + unit)
  }

  /** The hash of a string's code units, folded from the first. */
  function Hash(units: seq<int>): (h: int)
    ensures -Js.TWO_31 <= h < Js.TWO_31
    decreases |units|
  {
    if |units| == 0 then 0 else HashStep(Hash(units[..|units| - 1]), units[|units| - 1])
  }

  /** The polynomial the hash approximates: the code units read as the
      digits of a base-31 number, without any overflow. */
  function Polynomial(units: seq<int>): int
    decreases |units|
  {
    if |units| == 0 then 0 else 31 * Polynomial(units[..|units| - 1]) + units[|units| - 1]
  }

  /** A step multiplies by 31 and adds the code, modulo 2^32. */
  lemma HashStepIsAffine(a: int, unit: int)
    ensures HashStep(a, unit) == Js.ToInt32(31 * a + unit)
  {
    var a32 := Js.ToInt32(a);
    var shifted := Js.ToInt32(a32 * 32);
    var k1 := (a - a32) / Js.TWO_32;
    assert a - a32 == k1 * Js.TWO_32;
    var k2 := (a32 * 32 - shifted) / Js.TWO_32;
    assert a32 * 32 - shifted == k2 * Js.TWO_32;
    assert (shifted - a + unit) - (31 * a + unit) == (-k2 - 32 * k1) * Js.TWO_32;
    Js.ToInt32Congruent(shifted - a + unit, 31 * a + unit);
  }

  /** The hash is the 32-bit value of the polynomial: the overflow of each
      step is the overflow of the whole sum. */
  lemma {:induction false} HashIsPolynomial(units: seq<int>)
    ensures Hash(units) == Js.ToInt32(Polynomial(units))
    decreases |units|
  {
    if |units| > 0 {
      var init := units[..|units| - 1];
      var c := units[|units| - 1];
      HashIsPolynomial(init);
      HashStepIsAffine(Hash(init), c);
      Js.ToInt32Affine(Polynomial(init), 31, c);
    }
  }

  /** `getSlotColor`: the palette entry at `|hash| % length`. */
  function SlotColor(palette: seq<string>, subjectName: string): (r: string)
    requires |palette| > 0
    ensures r in palette
  {
    palette[Js.Abs(Hash(Text.CodeUnits(subjectName))) % |palette|]
  }

  /** The colour is chosen by the 32-bit polynomial hash of the name's
      code units; for a name of characters below 0x10000 the units are the
      character codes. */
  lemma SlotColorByPolynomial(palette: seq<string>, subjectName: string)
    requires |palette| > 0
    ensures SlotColor(palette, subjectName) ==
              palette[Js.Abs(Js.ToInt32(Polynomial(Text.CodeUnits(subjectName)))) % |palette|]
  {
    HashIsPolynomial(Text.CodeUnits(subjectName));
  }

  // ---------------------------------------------------------------------
  // the division heading

  /** `divisions.find(d => d.id.toString() === selected)`. */
  function SelectedDivision(divisions: seq<Division>, selected: string): (r: Option<Division>)
    ensures r.Some? ==> r.value in divisions && Text.IntToString(r.value.id) == selected
  {
    Seqs.Find(divisions, (d: Division) => Text.IntToString(d.id) == selected)
  }

  /** Choosing the option written from an id finds a division with that id
      exactly when the list has one; the initial empty choice finds
      nothing. */
  lemma SelectedDivisionById(divisions: seq<Division>, id: int)
    ensures SelectedDivision(divisions, Text.IntToString(id)).Some? <==>
              exists i :: 0 <= i < |divisions| && divisions[i].id == id
    ensures SelectedDivision(divisions, Text.IntToString(id)).Some? ==>
              SelectedDivision(divisions, Text.IntToString(id)).value.id == id
    ensures SelectedDivision(divisions, "").None?
  {
    forall i | 0 <= i < |divisions|
      ensures Text.IntToString(divisions[i].id) == Text.IntToString(id) <==> divisions[i].id == id
      ensures Text.IntToString(divisions[i].id) != ""
    {
      Text.IntToStringInjective(divisions[i].id, id);
      Text.IntToStringNonEmpty(divisions[i].id);
    }
  }

  const ORDINAL_SUFFIXES: seq<string> := ["th", "st", "nd", "rd"]

  /** `['th', 'st', 'nd', 'rd'][semester % 10] || 'th'` with JavaScript's
      truncating `%`: a negative remainder or one past 3 indexes nothing
      and falls back to "th". */
  function SemesterSuffix(semester: int): (r: string)
    ensures r in ORDINAL_SUFFIXES
  {
    var i := Js.Rem(semester, 10);
    if 0 <= i < |ORDINAL_SUFFIXES| then ORDINAL_SUFFIXES[i] else "th"
  }

  /** The suffix by the last digit: "st", "nd" and "rd" for a positive
      semester ending in 1, 2 and 3 (so 11, 12 and 13 included), "th" for
      every other semester, zero and negatives included. */
  lemma SemesterSuffixCases(semester: int)
    ensures SemesterSuffix(semester) == "st" <==> semester > 0 && semester % 10 == 1
    ensures SemesterSuffix(semester) == "nd" <==> semester > 0 && semester % 10 == 2
    ensures SemesterSuffix(semester) == "rd" <==> semester > 0 && semester % 10 == 3
    ensures SemesterSuffix(semester) == "th" <==> semester <= 0 || semester % 10 == 0 || semester % 10 >= 4
  {
  }

  // ---------------------------------------------------------------------
  // the student dashboard's rows

  /** A table row: an hour range, or the break row. */
  datatype Row = TimeRow(time: string) | BreakRow(time: string)

  const BREAK_AFTER: string := "11:00 - 12:00"
  const BREAK_TIME: string := "11:00 - 11:15"

  /** The rows for the hour ranges `ts`: each range's row, followed by the
      break row when the range is `BREAK_AFTER`. */
  function Rows(ts: seq<string>): (r: seq<Row>)
    ensures |r| >= |ts|
    decreases |ts|
  {
    if |ts| == 0 then []
    else
      var t := ts[|ts| - 1];
      Rows(ts[..|ts| - 1]) + [TimeRow(t)] + (if t == BREAK_AFTER then [BreakRow(BREAK_TIME)] else [])
  }

  /** Hour-range rows only, one per range. */
  function TimeRows(ts: seq<string>): (r: seq<Row>)
    ensures |r| == |ts| && forall i :: 0 <= i < |ts| ==> r[i] == TimeRow(ts[i])
  {
    Seqs.Map(ts, (t: string) => TimeRow(t))
  }

  lemma {:induction false} RowsAppend(a: seq<string>, b: seq<string>)
    ensures Rows(a + b) == Rows(a) + Rows(b)
    decreases |b|
  {
    if |b| == 0 {
      assert a + b == a;
    } else {
      var b' := b[..|b| - 1];
      assert (a + b)[..|a + b| - 1] == a + b';
      RowsAppend(a, b');
    }
  }

  /** Without the late-morning range there is no break row. */
  lemma {:induction false} RowsWithoutBreak(ts: seq<string>)
    requires BREAK_AFTER !in ts
    ensures Rows(ts) == TimeRows(ts)
    decreases |ts|
  {
    if |ts| > 0 {
      var init := ts[..|ts| - 1];
      assert BREAK_AFTER !in init by {
        forall i | 0 <= i < |init|
          ensures init[i] != BREAK_AFTER
        {
          assert init[i] == ts[i];
        }
      }
      RowsWithoutBreak(init);
    }
  }

  /** Around a single late-morning range the break row follows that
      range's row. */
  lemma RowsAroundBreak(before: seq<string>, after: seq<string>)
    requires BREAK_AFTER !in before && BREAK_AFTER !in after
    ensures Rows(before + [BREAK_AFTER] + after) ==
              TimeRows(before + [BREAK_AFTER]) + [BreakRow(BREAK_TIME)] + TimeRows(after)
  {
    var head := before + [BREAK_AFTER];
    RowsAppend(head, after);
    assert head[..|head| - 1] == before;
    assert Rows(head) == Rows(before) + [TimeRow(BREAK_AFTER)] + [BreakRow(BREAK_TIME)];
    RowsWithoutBreak(before);
    RowsWithoutBreak(after);
    assert TimeRows(head) == TimeRows(before) + [TimeRow(BREAK_AFTER)];
  }

  /** With the late-morning range once, at position `k`, the rows are the
      ranges up to it, the break row, then the remaining ranges. */
  lemma RowsWithOneBreak(ts: seq<string>, k: int)
    requires 0 <= k < |ts| && ts[k] == BREAK_AFTER
    requires forall i :: 0 <= i < |ts| && i != k ==> ts[i] != BREAK_AFTER
    ensures Rows(ts) == TimeRows(ts[..k + 1]) + [BreakRow(BREAK_TIME)] + TimeRows(ts[k + 1..])
  {
    var before := ts[..k];
    var after := ts[k + 1..];
    assert ts == before + [BREAK_AFTER] + after;
    assert ts[..k + 1] == before + [BREAK_AFTER];
    assert BREAK_AFTER !in before by {
      forall i | 0 <= i < |before|
        ensures before[i] != BREAK_AFTER
      {
        assert before[i] == ts[i];
      }
    }
    assert BREAK_AFTER !in after by {
      forall i | 0 <= i < |after|
        ensures after[i] != BREAK_AFTER
      {
        assert after[i] == ts[k + 1 + i];
      }
    }
    RowsAroundBreak(before, after);
  }

  /** The student timetable has nine rows: the eight hour ranges in order
      and exactly one break row, directly after "11:00 - 12:00". */
  lemma StudentRows()
    ensures |Rows(GRID_TIMES)| == 9
    ensures Rows(GRID_TIMES)[2] == TimeRow(BREAK_AFTER) && Rows(GRID_TIMES)[3] == BreakRow(BREAK_TIME)
    ensures forall i :: 0 <= i < 9 && i != 3 ==> Rows(GRID_TIMES)[i].TimeRow?
    ensures forall i :: 0 <= i < 3 ==> Rows(GRID_TIMES)[i] == TimeRow(GRID_TIMES[i])
    ensures forall i :: 4 <= i < 9 ==> Rows(GRID_TIMES)[i] == TimeRow(GRID_TIMES[i - 1])
  {
    RowsWithOneBreak(GRID_TIMES, 2);
  }
}

=== FILE: js.dfy ===
/** The slice of JavaScript value semantics the application relies on:
    loosely typed values, truthiness, the 32-bit integer conversion used by
    bitwise operators, and the truncating remainder operator `%`.
    Numbers are modelled as mathematical integers: the client only ever
    sends integral numbers, since every control it reads a number from
    goes through `parseInt`, and the fractional numbers the pages compute
    (percentages) are handled in module Percent. */
module Js {

  /** A JavaScript value as far as request bodies, form state and query
      arguments go. `NaN` is the only non-integral number kept, because
      `parseInt` produces it and every truthiness test treats it specially. */
  datatype Value = Undefined | Null | Num(n: int) | NaN | Str(s: string) | Bool(b: bool)

  /** JavaScript truthiness: `undefined`, `null`, `0`, `NaN`, `""` and `false`
      are falsy, everything else is truthy. */
  predicate Truthy(v: Value)
  {
    match v
    case Num(n) => n != 0
    case Str(s) => s != ""
    case Bool(b) => b
    case _ => false
  }

  lemma FalsyValues()
    ensures !Truthy(Undefined) && !Truthy(Null) && !Truthy(NaN)
    ensures !Truthy(Num(0)) && !Truthy(Str("")) && !Truthy(Bool(false))
    ensures forall n: int :: n != 0 ==> Truthy(Num(n))
  {
  }

  const TWO_32: int := 0x1_0000_0000
  const TWO_31: int := 0x8000_0000

  /** ECMAScript ToInt32: the integer congruent to `x` modulo 2^32 that
      lies in the signed 32-bit range. */
  function ToInt32(x: int): (r: int)
    ensures -TWO_31 <= r < TWO_31
    ensures (x - r) % TWO_32 == 0
  {
    var m := x % TWO_32;
    if m >= TWO_31 then m - TWO_32 else m
  }

  /** ToInt32 is the identity on values already in the 32-bit range. */
  lemma ToInt32Identity(x: int)
    requires -TWO_31 <= x < TWO_31
    ensures ToInt32(x) == x
  {
  }

  /** ToInt32 only sees its argument modulo 2^32. */
  lemma ToInt32Congruent(x: int, y: int)
    requires (x - y) % TWO_32 == 0
    ensures ToInt32(x) == ToInt32(y)
  {
    var k := (x - y) / TWO_32;
    assert x == y + k * TWO_32;
    assert x % TWO_32 == y % TWO_32;
  }

  /** Congruence modulo 2^32 survives `a * _ + c`. */
  lemma AffineCongruent(x: int, y: int, a: int, c: int)
    requires (x - y) % TWO_32 == 0
    ensures ((a * x + c) - (a * y + c)) % TWO_32 == 0
  {
    var k := (x - y) / TWO_32;
    assert x - y == k * TWO_32;
    assert (a * x + c) - (a * y + c) == (a * k) * TWO_32;
  }

  /** Reducing the argument of an affine map to 32 bits first does not
      change the 32-bit result. */
  lemma ToInt32Affine(x: int, a: int, c: int)
    ensures ToInt32(a * ToInt32(x) + c) == ToInt32(a * x + c)
  {
    var r := ToInt32(x);
    var k := (x - r) / TWO_32;
    assert x - r == k * TWO_32;
    assert r - x == (-k) * TWO_32;
    AffineCongruent(r, x, a, c);
    ToInt32Congruent(a * r + c, a * x + c);
  }

  /** The `%` operator of JavaScript on integers: the remainder of the
      division truncated toward zero, carrying the sign of the dividend
      (Dafny's own `%` is Euclidean and never negative). Only positive
      divisors occur in the application. */
  function Rem(a: int, b: int): (r: int)
    requires b > 0
    ensures a >= 0 ==> r == a % b
    ensures a < 0 ==> -b < r <= 0
  {
    if a >= 0 then a % b else -((-a) % b)
  }

  function Abs(x: int): (r: int)
    ensures r >= 0 && (r == x || r == -x)
  {
    if x < 0 then -x else x
  }
}

=== FILE: percent.dfy ===
/** The percentage `(current / max) * 100` the client pages compute from
    two integers, read exactly rather than in floating point: a fraction
    with a positive denominator, or, when `max` is zero, one of the three
    non-finite results of a JavaScript division by zero. Comparing it with
    an integer threshold becomes integer cross-multiplication. */
module Percent {

  datatype Num = Frac(num: int, den: int) | PosInf | NegInf | NaN

  predicate WellFormed(p: Num)
  {
    p.Frac? ==> p.den > 0
  }

  /** `(cur / max) * 100`: `x / 0` is `Infinity`, `-Infinity` or `NaN`
      according to the sign of `x`. */
  function Of(cur: int, max: int): (p: Num)
    ensures WellFormed(p)
  {
    if max > 0 then Frac(100 * cur, max)
    else if max < 0 then Frac(-100 * cur, -max)
    else if cur > 0 then PosInf
    else if cur < 0 then NegInf
    else NaN
  }

  /** `p >= t`; every comparison with `NaN` is false. */
  predicate AtLeast(p: Num, t: int)
  {
    match p
    case Frac(n, d) => n >= t * d
    case PosInf => true
    case _ => false
  }

  /** `p > t`. */
  predicate Above(p: Num, t: int)
  {
    match p
    case Frac(n, d) => n > t * d
    case PosInf => true
    case _ => false
  }

  /** `Math.min(p, t)`: `NaN` if `p` is `NaN`. */
  function Min(p: Num, t: int): (r: Num)
    requires WellFormed(p)
    ensures WellFormed(r)
    ensures !Above(r, t)
    ensures !Above(p, t) ==> r == p
    ensures Above(p, t) ==> r == Frac(t, 1)
  {
    match p
    case Frac(n, d) => if n <= t * d then p else Frac(t, 1)
    case PosInf => Frac(t, 1)
    case _ => p
  }

  /** Being above a threshold means reaching every lower one. */
  lemma AboveImpliesAtLeast(p: Num, t1: int, t2: int)
    requires WellFormed(p) && t2 <= t1
    ensures Above(p, t1) ==> AtLeast(p, t2)
    ensures AtLeast(p, t1) ==> AtLeast(p, t2)
  {
  }

  /** For a positive limit, the percentage reaches `t` exactly when
      `100 * cur >= t * max`. */
  lemma AtLeastIff(cur: int, max: int, t: int)
    requires max > 0
    ensures AtLeast(Of(cur, max), t) <==> 100 * cur >= t * max
    ensures Above(Of(cur, max), t) <==> 100 * cur > t * max
  {
  }

  /** For a zero limit: any positive count is infinitely over, zero hours
      give `NaN` (no threshold reached), negative counts are below all. */
  lemma ZeroLimit(cur: int, t: int)
    ensures AtLeast(Of(cur, 0), t) <==> cur > 0
    ensures Above(Of(cur, 0), t) <==> cur > 0
    ensures cur == 0 ==> Of(cur, 0) == NaN
  {
  }

  /** With a fixed non-negative limit, more hours never lower the
      percentage below a threshold it had reached. */
  lemma Monotone(cur1: int, cur2: int, max: int, t: int)
    requires max >= 0 && cur1 <= cur2
    ensures AtLeast(Of(cur1, max), t) ==> AtLeast(Of(cur2, max), t)
    ensures Above(Of(cur1, max), t) ==> Above(Of(cur2, max), t)
  {
  }
}

=== FILE: routes.dfy ===
/** The API handlers, each one atomic transition over the repository that
    answers an HTTP status code and, where there is one, the record sent
    back. Path ids go through `parseInt`, so a non-numeric id finds
    nothing; request bodies of the create handlers are validated before
    any repository call, and a validation failure answers 400 with the
    repository untouched. The hour bookkeeping of the workload handlers
    is the heart of the module. */
module Routes {
  import opened Common
  import opened Schema
  import Storage
  import Tables
  import Text
  import Js
  import Seqs
  import Constants

  const OK: int := 200
  const CREATED: int := 201
  const BAD_REQUEST: int := 400
  const NOT_FOUND: int := 404
  const SERVER_ERROR: int := 500

  datatype Reply<T> = Reply(status: int, body: Option<T>)

  // ---------------------------------------------------------------------
  // request parameters

  /** `parseInt(req.params.id)` used as a key: `NaN` is no key at all. */
  function IdParam(param: string): (r: Option<int>)
    ensures r.Some? <==> Text.ParseInt(param).Num?
    ensures r.Some? ==> Text.ParseInt(param) == Js.Num(r.value)
  {
    match Text.ParseInt(param)
    case Num(n) => Some(n)
    case _ => None
  }

  /** The decimal form of an id names that id. */
  lemma IdParamOfId(id: int)
    ensures IdParam(Text.IntToString(id)) == Some(id)
  {
    Text.ParseIntOfIntToString(id);
  }

  /** `q ? parseInt(q) : null`, then used only if truthy: `None` when the
      query value is absent, empty, not a number, or zero. */
  function QueryId(q: Option<string>): (r: Option<int>)
    ensures r.Some? <==> q.Some? && q.value != "" && Text.ParseInt(q.value).Num?
                         && Text.ParseInt(q.value).n != 0
    ensures r.Some? ==> Text.ParseInt(q.value) == Js.Num(r.value)
  {
    if q.None? || q.value == "" then None
    else
      var v := Text.ParseInt(q.value);
      if Js.Truthy(v) then Some(v.n) else None
  }

  /** Absent, empty, non-numeric and zero query values impose no
      filter. */
  lemma QueryIdIgnored()
    ensures QueryId(None) == None && QueryId(Some("")) == None
    ensures QueryId(Some("0")) == None && QueryId(Some("x")) == None
  {
    ZeroParses();
    LetterDoesNotParse();
  }

  lemma ZeroParses()
    ensures Text.ParseInt("0") == Js.Num(0)
  {
    Text.ParseIntOfIntToString(0);
    assert Text.IntToString(0) == "0";
  }

  lemma LetterDoesNotParse()
    ensures Text.ParseInt("x") == Js.NaN
  {
    Text.ParseIntOfNonDigit("x");
  }

  /** The decimal form of a non-zero id selects that id. */
  lemma QueryIdOfId(n: int)
    requires n != 0
    ensures QueryId(Some(Text.IntToString(n))) == Some(n)
  {
    Text.ParseIntOfIntToString(n);
  }

  /** A department query given and non-empty. */
  function DepartmentQuery(q: Option<string>): (r: Option<string>)
    ensures r.Some? <==> q.Some? && q.value != ""
    ensures r.Some? ==> r.value == q.value
  {
    if q.Some? && q.value != "" then q else None
  }

  // ---------------------------------------------------------------------
  // faculty

  /** The weekly limit the server assigns by position; every position
      other than the two named ones gets 18. */
  function MaxHoursFor(position: string): (h: int)
    ensures position == "professor" ==> h == 14
    ensures position == "associate_professor" ==> h == 16
    ensures position != "professor" && position != "associate_professor" ==> h == 18
  {
    if position == "professor" then 14
    else if position == "associate_professor" then 16
    else 18
  }

  /** The server's limits agree with the client's position table. */
  lemma MaxHoursAgreesWithPositions()
    ensures forall i :: 0 <= i < |Constants.FACULTY_POSITIONS| ==>
              MaxHoursFor(Constants.FACULTY_POSITIONS[i].value) == Constants.FACULTY_POSITIONS[i].maxHours
  {
    Constants.PositionTable();
  }

  function HandleGetFaculty(s: Storage.Store, param: string): (r: Reply<(Faculty, seq<Storage.Joined<Assignment>>)>)
    ensures r.status == OK <==> IdParam(param).Some? && IdParam(param).value in s.faculty.rows
    ensures r.status != OK ==> r.status == NOT_FOUND && r.body.None?
    ensures r.status == OK ==> r.body == Storage.GetFacultyWithWorkload(s, IdParam(param).value)
  {
    match IdParam(param)
    case None => Reply(NOT_FOUND, None)
    case Some(id) =>
      match Storage.GetFacultyWithWorkload(s, id)
      case None => Reply(NOT_FOUND, None)
      case Some(w) => Reply(OK, Some(w))
  }

  /** Validates the body, then stores it with the position's limit in
      place of the `maxHours` the body had to carry. */
  function HandlePostFaculty(s: Storage.Store, body: Body): (r: (Storage.Store, Reply<Faculty>))
    ensures ParseFaculty(body).Err? ==> r == (s, Reply(BAD_REQUEST, None))
    ensures ParseFaculty(body).Ok? ==>
              var d := ParseFaculty(body).value;
              r.1.status == CREATED && r.1.body.Some?
              && r.1.body.value.maxHours == MaxHoursFor(d.position)
              && r.1.body.value.currentHours == 0
              && r.1.body.value.name == d.name && r.1.body.value.position == d.position
              && r.0 == Storage.CreateFaculty(s, d.(maxHours := MaxHoursFor(d.position))).0
    ensures ParseFaculty(body).Ok? ==>
              var c := Storage.CreateFaculty(s, ParseFaculty(body).value.(maxHours := MaxHoursFor(ParseFaculty(body).value.position)));
              r == (c.0, Reply(CREATED, Some(c.1)))
  {
    match ParseFaculty(body)
    case Err(_) => (s, Reply(BAD_REQUEST, None))
    case Ok(d) =>
      var (s1, f) := Storage.CreateFaculty(s, d.(maxHours := MaxHoursFor(d.position)));
      (s1, Reply(CREATED, Some(f)))
  }

  /** The client's `maxHours` has no effect, as long as it is a number. */
  lemma PostFacultyIgnoresClientMaxHours(s: Storage.Store, body: Body, m1: int, m2: int)
    ensures HandlePostFaculty(s, body["maxHours" := Js.Num(m1)]) == HandlePostFaculty(s, body["maxHours" := Js.Num(m2)])
  {
    var b1 := body["maxHours" := Js.Num(m1)];
    var b2 := body["maxHours" := Js.Num(m2)];
    assert FACULTY_COLUMNS[4].0 == "maxHours";
    assert forall i :: 0 <= i < |FACULTY_COLUMNS| ==>
             Accepts(FACULTY_COLUMNS[i].1, b1, FACULTY_COLUMNS[i].0) == Accepts(FACULTY_COLUMNS[i].1, b2, FACULTY_COLUMNS[i].0);
  }

  function HandlePatchFaculty(s: Storage.Store, param: string, p: Storage.FacultyPatch): (r: (Storage.Store, Reply<Faculty>))
    ensures IdParam(param).None? ==> r == (s, Reply(NOT_FOUND, None))
    ensures IdParam(param).Some? ==>
              var u := Storage.UpdateFaculty(s, IdParam(param).value, p);
              r.0 == u.0 && r.1.body == u.1 && (r.1.status == OK <==> u.1.Some?)
              && (r.1.status != OK ==> r.1.status == NOT_FOUND)
  {
    match IdParam(param)
    case None => (s, Reply(NOT_FOUND, None))
    case Some(id) =>
      var (s1, f) := Storage.UpdateFaculty(s, id, p);
      if f.None? then (s1, Reply(NOT_FOUND, None)) else (s1, Reply(OK, f))
  }

  // ---------------------------------------------------------------------
  // subjects and divisions

  /** A non-empty department query filters; otherwise all subjects. */
  function HandleGetSubjects(s: Storage.Store, department: Option<string>): (r: seq<Subject>)
    ensures DepartmentQuery(department).Some? ==>
              forall x :: x in r <==> x in Storage.AllSubjects(s) && x.department == department.value
    ensures Seqs.IsSubsequence(r, Storage.AllSubjects(s))
    ensures DepartmentQuery(department).None? ==> r == Storage.AllSubjects(s)
  {
    match DepartmentQuery(department)
    case Some(d) => Storage.SubjectsByDepartment(s, d)
    case None =>
      Seqs.SubsequenceReflexive(Storage.AllSubjects(s));
      Storage.AllSubjects(s)
  }

  function HandlePostSubject(s: Storage.Store, body: Body): (r: (Storage.Store, Reply<Subject>))
    ensures ParseSubject(body).Err? ==> r == (s, Reply(BAD_REQUEST, None))
    ensures ParseSubject(body).Ok? ==>
              var c := Storage.CreateSubject(s, ParseSubject(body).value);
              r == (c.0, Reply(CREATED, Some(c.1)))
  {
    match ParseSubject(body)
    case Err(_) => (s, Reply(BAD_REQUEST, None))
    case Ok(d) =>
      var (s1, x) := Storage.CreateSubject(s, d);
      (s1, Reply(CREATED, Some(x)))
  }

  function HandleGetDivisions(s: Storage.Store, department: Option<string>): (r: seq<Division>)
    ensures DepartmentQuery(department).Some? ==>
              forall x :: x in r <==> x in Storage.AllDivisions(s) && x.department == department.value
    ensures Seqs.IsSubsequence(r, Storage.AllDivisions(s))
    ensures DepartmentQuery(department).None? ==> r == Storage.AllDivisions(s)
  {
    match DepartmentQuery(department)
    case Some(d) => Storage.DivisionsByDepartment(s, d)
    case None =>
      Seqs.SubsequenceReflexive(Storage.AllDivisions(s));
      Storage.AllDivisions(s)
  }

  function HandlePostDivision(s: Storage.Store, body: Body): (r: (Storage.Store, Reply<Division>))
    ensures ParseDivision(body).Err? ==> r == (s, Reply(BAD_REQUEST, None))
    ensures ParseDivision(body).Ok? ==>
              var c := Storage.CreateDivision(s, ParseDivision(body).value);
              r == (c.0, Reply(CREATED, Some(c.1)))
  {
    match ParseDivision(body)
    case Err(_) => (s, Reply(BAD_REQUEST, None))
    case Ok(d) =>
      var (s1, x) := Storage.CreateDivision(s, d);
      (s1, Reply(CREATED, Some(x)))
  }

  // ---------------------------------------------------------------------
  // workload assignments and hour bookkeeping

  function HandleGetAssignments(s: Storage.Store, facultyId: Option<string>): (r: seq<Storage.Joined<Assignment>>)
    ensures QueryId(facultyId).Some? ==>
              forall a :: a in Storage.Records(r) <==> a in Storage.AssignmentRecords(s) && a.facultyId == QueryId(facultyId).value
    ensures Seqs.IsSubsequence(Storage.Records(r), Storage.AssignmentRecords(s))
    ensures forall i :: 0 <= i < |r| ==> r[i] == Storage.JoinAssignment(s, Storage.Records(r)[i])
    ensures QueryId(facultyId).None? ==> Storage.Records(r) == Storage.AssignmentRecords(s)
  {
    match QueryId(facultyId)
    case Some(id) => Storage.AssignmentsByFaculty(s, id)
    case None =>
      Seqs.SubsequenceReflexive(Storage.AssignmentRecords(s));
      Storage.AllAssignments(s)
  }

  /** Validates, stores the assignment, then adds its hours to its
      faculty member's count if that member exists. */
  function HandlePostAssignment(s: Storage.Store, body: Body): (r: (Storage.Store, Reply<Assignment>))
    ensures ParseAssignment(body).Err? ==> r == (s, Reply(BAD_REQUEST, None))
    ensures ParseAssignment(body).Ok? ==>
              var d := ParseAssignment(body).value;
              var c := Storage.CreateAssignment(s, d);
              r.1 == Reply(CREATED, Some(c.1))
              && r.0.assignments == c.0.assignments
              && r.0 == s.(faculty := r.0.faculty, assignments := r.0.assignments)
              && r.0.faculty.nextId == s.faculty.nextId
              && (d.facultyId in s.faculty.rows ==>
                    r.0.faculty.rows == s.faculty.rows[d.facultyId := s.faculty.rows[d.facultyId].(
                      currentHours := s.faculty.rows[d.facultyId].currentHours + d.hoursPerWeek)])
              && (d.facultyId !in s.faculty.rows ==> r.0.faculty == s.faculty)
  {
    match ParseAssignment(body)
    case Err(_) => (s, Reply(BAD_REQUEST, None))
    case Ok(d) =>
      var (s1, a) := Storage.CreateAssignment(s, d);
      match Storage.GetFaculty(s1, d.facultyId)
      case None => (s1, Reply(CREATED, Some(a)))
      case Some(f) =>
        var (s2, _) := Storage.UpdateFacultyWorkload(s1, d.facultyId, f.currentHours + d.hoursPerWeek);
        (s2, Reply(CREATED, Some(a)))
  }

  function HandlePatchAssignmentStatus(s: Storage.Store, param: string, status: string): (r: (Storage.Store, Reply<Assignment>))
    ensures IdParam(param).None? || IdParam(param).value !in s.assignments.rows ==>
              r == (s, Reply(NOT_FOUND, None))
    ensures IdParam(param).Some? && IdParam(param).value in s.assignments.rows ==>
              var u := Storage.UpdateAssignmentStatus(s, IdParam(param).value, status);
              r == (u.0, Reply(OK, u.1))
  {
    match IdParam(param)
    case None => (s, Reply(NOT_FOUND, None))
    case Some(id) =>
      var (s1, a) := Storage.UpdateAssignmentStatus(s, id, status);
      if a.None? then (s1, Reply(NOT_FOUND, None)) else (s1, Reply(OK, a))
  }

  function Max(a: int, b: int): (m: int)
    ensures m >= a && m >= b && (m == a || m == b)
  {
    if a >= b then a else b
  }

  /** Removes the assignment and takes its hours off its faculty member's
      count, never below zero. An unknown id answers 404 and changes
      nothing. */
  function HandleDeleteAssignment(s: Storage.Store, param: string): (r: (Storage.Store, int))
    ensures IdParam(param).None? || IdParam(param).value !in s.assignments.rows ==> r == (s, NOT_FOUND)
    ensures IdParam(param).Some? && IdParam(param).value in s.assignments.rows ==>
              var id := IdParam(param).value;
              var a := s.assignments.rows[id];
              r.1 == OK
              && r.0.assignments.rows == s.assignments.rows - {id}
              && r.0.assignments.nextId == s.assignments.nextId
              && r.0 == s.(faculty := r.0.faculty, assignments := r.0.assignments)
              && r.0.faculty.nextId == s.faculty.nextId
              && (a.facultyId in s.faculty.rows ==>
                    r.0.faculty.rows == s.faculty.rows[a.facultyId := s.faculty.rows[a.facultyId].(
                      currentHours := Max(0, s.faculty.rows[a.facultyId].currentHours - a.hoursPerWeek))])
              && (a.facultyId !in s.faculty.rows ==> r.0.faculty == s.faculty)
  {
    match IdParam(param)
    case None => (s, NOT_FOUND)
    case Some(id) =>
      match Storage.GetAssignment(s, id)
      case None => (s, NOT_FOUND)
      case Some(j) =>
        var a := j.record;
        var (s1, ok) := Storage.DeleteAssignment(s, id);
        if !ok then (s1, SERVER_ERROR)
        else
          match Storage.GetFaculty(s1, a.facultyId)
          case None => (s1, OK)
          case Some(f) =>
            (Storage.UpdateFacultyWorkload(s1, a.facultyId, Max(0, f.currentHours - a.hoursPerWeek)).0, OK)
  }

  /** After a delete the member's count is never negative, and it drops by
      exactly the assignment's hours when it held at least that many. */
  lemma DeleteHoursFloor(s: Storage.Store, id: int)
    requires id in s.assignments.rows && s.assignments.rows[id].facultyId in s.faculty.rows
    ensures var a := s.assignments.rows[id];
            var before := s.faculty.rows[a.facultyId].currentHours;
            var after := HandleDeleteAssignment(s, Text.IntToString(id)).0.faculty.rows[a.facultyId].currentHours;
            after >= 0 && (before >= a.hoursPerWeek ==> after == before - a.hoursPerWeek)
  {
    IdParamOfId(id);
  }

  /** Creating an assignment for an existing faculty member and deleting it
      again restores that member's count (when it was not negative), and
      leaves every faculty record and every other assignment as before;
      only the id counter has moved on. */
  lemma PostThenDeleteRestores(s: Storage.Store, body: Body)
    requires Storage.Valid(s)
    requires ParseAssignment(body).Ok?
    requires var d := ParseAssignment(body).value;
             d.facultyId in s.faculty.rows && s.faculty.rows[d.facultyId].currentHours >= 0
    ensures var (s1, rep) := HandlePostAssignment(s, body);
            var (s2, code) := HandleDeleteAssignment(s1, Text.IntToString(rep.body.value.id));
            code == OK && s2.faculty == s.faculty && s2.assignments.rows == s.assignments.rows
            && s2 == s.(assignments := s2.assignments)
  {
    var d := ParseAssignment(body).value;
    var (s1, rep) := HandlePostAssignment(s, body);
    var a := rep.body.value;
    assert a.id !in s.assignments.rows && a.facultyId == d.facultyId && a.hoursPerWeek == d.hoursPerWeek;
    IdParamOfId(a.id);
    DeleteOfFresh(s, s1, a, Text.IntToString(a.id));
  }

  /** Deleting an assignment that a create has just added, with its hours
      added to an existing member's count, gives back the store before. */
  lemma DeleteOfFresh(s: Storage.Store, s1: Storage.Store, a: Assignment, param: string)
    requires IdParam(param) == Some(a.id)
    requires a.id !in s.assignments.rows && s1.assignments.rows == s.assignments.rows[a.id := a]
    requires a.facultyId in s.faculty.rows && s.faculty.rows[a.facultyId].currentHours >= 0
    requires s1 == s.(faculty := s1.faculty, assignments := s1.assignments)
    requires s1.faculty.nextId == s.faculty.nextId
    requires s1.faculty.rows == s.faculty.rows[a.facultyId := s.faculty.rows[a.facultyId].(
               currentHours := s.faculty.rows[a.facultyId].currentHours + a.hoursPerWeek)]
    ensures var (s2, code) := HandleDeleteAssignment(s1, param);
            code == OK && s2.faculty == s.faculty && s2.assignments.rows == s.assignments.rows
            && s2 == s.(assignments := s2.assignments)
  {
    assert s1.assignments.rows[a.id] == a;
    var (s2, code) := HandleDeleteAssignment(s1, param);
    var f := s.faculty.rows[a.facultyId];
    var g := s1.faculty.rows[a.facultyId];
    assert g.currentHours == f.currentHours + a.hoursPerWeek;
    assert Max(0, g.currentHours - a.hoursPerWeek) == f.currentHours;
    assert g.(currentHours := f.currentHours) == f;
    assert s2.faculty.rows == s1.faculty.rows[a.facultyId := f];
    assert s1.faculty.rows[a.facultyId := f] == s.faculty.rows;
    assert s2.assignments.rows == s1.assignments.rows - {a.id};
    assert s2.assignments.rows == s.assignments.rows;
  }

  /** The assignments of a store carry no negative hours. */
  predicate NonNegativeHours(s: Storage.Store)
  {
    forall k :: k in s.assignments.rows ==> s.assignments.rows[k].hoursPerWeek >= 0
  }

  /** If every count equals the hours of its member's assignments, a
      successful create keeps it so. */
  lemma PostPreservesConsistency(s: Storage.Store, body: Body)
    requires Storage.Valid(s) && Storage.HoursConsistent(s)
    ensures Storage.HoursConsistent(HandlePostAssignment(s, body).0)
  {
    if ParseAssignment(body).Ok? {
      var d := ParseAssignment(body).value;
      var (s1, rep) := HandlePostAssignment(s, body);
      var a := rep.body.value;
      forall fid | fid in s1.faculty.rows
        ensures s1.faculty.rows[fid].currentHours == Storage.AssignedHours(s1, fid)
      {
        Tables.SumInsert(s.assignments, a, Storage.HoursFor(fid));
      }
    }
  }

  /** With no negative hours, a delete keeps every count equal to its
      member's assignment hours: the floor at zero never takes effect. */
  lemma DeletePreservesConsistency(s: Storage.Store, param: string)
    requires Storage.Valid(s) && Storage.HoursConsistent(s) && NonNegativeHours(s)
    ensures Storage.HoursConsistent(HandleDeleteAssignment(s, param).0)
  {
    if IdParam(param).Some? && IdParam(param).value in s.assignments.rows {
      var id := IdParam(param).value;
      var a := s.assignments.rows[id];
      var s1 := HandleDeleteAssignment(s, param).0;
      forall fid | fid in s1.faculty.rows
        ensures s1.faculty.rows[fid].currentHours == Storage.AssignedHours(s1, fid)
      {
        Tables.SumRemove(s.assignments, id, Storage.HoursFor(fid));
        AssignedHoursNonNegative(s1, fid);
      }
    }
  }

  lemma AssignedHoursNonNegative(s: Storage.Store, fid: int)
    requires Tables.Valid(s.assignments) && NonNegativeHours(s)
    ensures Storage.AssignedHours(s, fid) >= 0
  {
    var xs := Storage.AssignmentRecords(s);
    forall i | 0 <= i < |xs|
      ensures Storage.HoursFor(fid)(xs[i]) >= 0
    {
      Tables.ValuesMembership(s.assignments, xs[i]);
    }
    Seqs.SumByNonNegative(xs, Storage.HoursFor(fid));
  }

  // ---------------------------------------------------------------------
  // timetable

  /** A usable division id wins; otherwise a usable faculty id; otherwise
      every slot. */
  function HandleGetTimetable(s: Storage.Store, divisionId: Option<string>, facultyId: Option<string>): (r: seq<Storage.Joined<Slot>>)
    ensures QueryId(divisionId).Some? ==>
              forall x :: x in Storage.Records(r) <==> x in Storage.SlotRecords(s) && x.divisionId == QueryId(divisionId).value
    ensures QueryId(divisionId).None? && QueryId(facultyId).Some? ==>
              forall x :: x in Storage.Records(r) <==> x in Storage.SlotRecords(s) && x.facultyId == QueryId(facultyId).value
    ensures QueryId(divisionId).None? && QueryId(facultyId).None? ==> Storage.Records(r) == Storage.SlotRecords(s)
    ensures Seqs.IsSubsequence(Storage.Records(r), Storage.SlotRecords(s))
    ensures forall i :: 0 <= i < |r| ==> r[i] == Storage.JoinSlot(s, Storage.Records(r)[i])
  {
    match QueryId(divisionId)
    case Some(d) => Storage.SlotsByDivision(s, d)
    case None =>
      match QueryId(facultyId)
      case Some(f) => Storage.SlotsByFaculty(s, f)
      case None =>
        Seqs.SubsequenceReflexive(Storage.SlotRecords(s));
        Storage.AllSlots(s)
  }

  /** Once the division id is usable, the faculty id is ignored. */
  lemma DivisionTakesPrecedence(s: Storage.Store, divisionId: Option<string>, f1: Option<string>, f2: Option<string>)
    requires QueryId(divisionId).Some?
    ensures HandleGetTimetable(s, divisionId, f1) == HandleGetTimetable(s, divisionId, f2)
  {
  }

  function HandlePostSlot(s: Storage.Store, body: Body): (r: (Storage.Store, Reply<Slot>))
    ensures ParseSlot(body).Err? ==> r == (s, Reply(BAD_REQUEST, None))
    ensures ParseSlot(body).Ok? ==>
              var c := Storage.CreateSlot(s, ParseSlot(body).value);
              r == (c.0, Reply(CREATED, Some(c.1)))
  {
    match ParseSlot(body)
    case Err(_) => (s, Reply(BAD_REQUEST, None))
    case Ok(d) =>
      var (s1, x) := Storage.CreateSlot(s, d);
      (s1, Reply(CREATED, Some(x)))
  }

  function HandlePatchSlot(s: Storage.Store, param: string, p: Storage.SlotPatch): (r: (Storage.Store, Reply<Slot>))
    ensures IdParam(param).None? || IdParam(param).value !in s.slots.rows ==>
              r == (s, Reply(NOT_FOUND, None))
    ensures IdParam(param).Some? && IdParam(param).value in s.slots.rows ==>
              var u := Storage.UpdateSlot(s, IdParam(param).value, p);
              r == (u.0, Reply(OK, u.1))
  {
    match IdParam(param)
    case None => (s, Reply(NOT_FOUND, None))
    case Some(id) =>
      var (s1, x) := Storage.UpdateSlot(s, id, p);
      if x.None? then (s1, Reply(NOT_FOUND, None)) else (s1, Reply(OK, x))
  }

  function HandleDeleteSlot(s: Storage.Store, param: string): (r: (Storage.Store, int))
    ensures r.1 == OK <==> IdParam(param).Some? && IdParam(param).value in s.slots.rows
    ensures r.1 != OK ==> r == (s, NOT_FOUND)
    ensures r.1 == OK ==> r.0 == Storage.DeleteSlot(s, IdParam(param).value).0
  {
    match IdParam(param)
    case None => (s, NOT_FOUND)
    case Some(id) =>
      var (s1, ok) := Storage.DeleteSlot(s, id);
      if ok then (s1, OK) else (s, NOT_FOUND)
  }

  // ---------------------------------------------------------------------
  // upload records

  function HandlePostUpload(s: Storage.Store, body: Body, now: int): (r: (Storage.Store, Reply<Upload>))
    ensures ParseUpload(body).Err? ==> r == (s, Reply(BAD_REQUEST, None))
    ensures ParseUpload(body).Ok? ==>
              var c := Storage.CreateUpload(s, ParseUpload(body).value, now);
              r == (c.0, Reply(CREATED, Some(c.1)))
  {
    match ParseUpload(body)
    case Err(_) => (s, Reply(BAD_REQUEST, None))
    case Ok(d) =>
      var (s1, u) := Storage.CreateUpload(s, d, now);
      (s1, Reply(CREATED, Some(u)))
  }

  function HandlePatchUploadStatus(s: Storage.Store, param: string, status: string,
                                   processedRows: Option<int>, totalRows: Option<int>): (r: (Storage.Store, Reply<Upload>))
    ensures IdParam(param).None? || IdParam(param).value !in s.uploads.rows ==>
              r == (s, Reply(NOT_FOUND, None))
    ensures IdParam(param).Some? && IdParam(param).value in s.uploads.rows ==>
              var u := Storage.UpdateUploadStatus(s, IdParam(param).value, status, processedRows, totalRows);
              r == (u.0, Reply(OK, u.1))
  {
    match IdParam(param)
    case None => (s, Reply(NOT_FOUND, None))
    case Some(id) =>
      var (s1, u) := Storage.UpdateUploadStatus(s, id, status, processedRows, totalRows);
      if u.None? then (s1, Reply(NOT_FOUND, None)) else (s1, Reply(OK, u))
  }
}

=== FILE: sample.dfy ===
/** The sample data the repository installs when it is constructed: five
    faculty members, seven subjects, four divisions, three assignments,
    and then three hour counts written directly. The hour counts written
    are not the assignments' hours, so the stored hour counts never start
    out as the sums of the assignments. */
module Sample {
  import opened Common
  import opened Schema
  import Storage
  import Tables
  import Seqs

  const SAMPLE_FACULTY: seq<NewFaculty> := [
    NewFaculty("Dr. Rajesh Kumar", "rajesh.kumar@college.edu", "professor", "Computer Science", 14),
    NewFaculty("Prof. Priya Sharma", "priya.sharma@college.edu", "associate_professor", "Mathematics", 16),
    NewFaculty("Dr. Amit Mehta", "amit.mehta@college.edu", "assistant_professor", "Physics", 18),
    NewFaculty("Dr. Sarah Wilson", "sarah.wilson@college.edu", "professor", "Computer Science", 14),
    NewFaculty("Prof. Neha Patel", "neha.patel@college.edu", "associate_professor", "Computer Science", 16)
  ]

  const SAMPLE_SUBJECTS: seq<NewSubject> := [
    NewSubject("Advanced Algorithms", "CS401", "Computer Science", 4),
    NewSubject("Database Systems", "CS402", "Computer Science", 4),
    NewSubject("Software Engineering", "CS403", "Computer Science", 3),
    NewSubject("Machine Learning", "CS404", "Computer Science", 4),
    NewSubject("Computer Networks", "CS405", "Computer Science", 3),
    NewSubject("Linear Algebra", "MATH201", "Mathematics", 3),
    NewSubject("Quantum Physics", "PHY301", "Physics", 4)
  ]

  const SAMPLE_DIVISIONS: seq<NewDivision> := [
    NewDivision("Computer Engineering - Division A", "Computer Science", 6, "2024-25"),
    NewDivision("Computer Engineering - Division B", "Computer Science", 6, "2024-25"),
    NewDivision("Information Technology - Division A", "Computer Science", 6, "2024-25"),
    NewDivision("Electronics & Communication - Division A", "Electronics", 6, "2024-25")
  ]

  const SAMPLE_ASSIGNMENTS: seq<NewAssignment> := [
    NewAssignment(1, 1, 1, "lecture", 4, Some("CS-101")),
    NewAssignment(2, 6, 1, "lecture", 6, Some("MATH-201")),
    NewAssignment(3, 7, 1, "lecture", 4, Some("PHY-301"))
  ]

  /** The hour counts written after the assignments: faculty id and
      hours. */
  const HOUR_OVERWRITES: seq<(int, int)> := [(1, 12), (2, 16), (3, 19)]

  /** `xs.forEach(f => createFaculty(f))`. */
  function CreateFacultyAll(s: Storage.Store, xs: seq<NewFaculty>): (r: Storage.Store)
    requires Storage.Valid(s)
    ensures Storage.Valid(r)
    ensures r == s.(faculty := r.faculty)
    ensures r.faculty.nextId == s.faculty.nextId + |xs|
    ensures forall k :: k in s.faculty.rows ==> k in r.faculty.rows && r.faculty.rows[k] == s.faculty.rows[k]
    ensures forall k :: s.faculty.nextId <= k < r.faculty.nextId ==>
                          k in r.faculty.rows && r.faculty.rows[k].currentHours == 0
    decreases |xs|
  {
    if |xs| == 0 then s
    else
      var p := CreateFacultyAll(s, xs[..|xs| - 1]);
      assert forall k :: k in p.faculty.rows ==> k < p.faculty.nextId;
      Storage.CreateFaculty(p, xs[|xs| - 1]).0
  }

  function CreateSubjectAll(s: Storage.Store, xs: seq<NewSubject>): (r: Storage.Store)
    requires Storage.Valid(s)
    ensures Storage.Valid(r)
    ensures r == s.(subjects := r.subjects)
    ensures r.subjects.nextId == s.subjects.nextId + |xs|
    decreases |xs|
  {
    if |xs| == 0 then s
    else Storage.CreateSubject(CreateSubjectAll(s, xs[..|xs| - 1]), xs[|xs| - 1]).0
  }

  function CreateDivisionAll(s: Storage.Store, xs: seq<NewDivision>): (r: Storage.Store)
    requires Storage.Valid(s)
    ensures Storage.Valid(r)
    ensures r == s.(divisions := r.divisions)
    ensures r.divisions.nextId == s.divisions.nextId + |xs|
    decreases |xs|
  {
    if |xs| == 0 then s
    else Storage.CreateDivision(CreateDivisionAll(s, xs[..|xs| - 1]), xs[|xs| - 1]).0
  }

  /** Creating assignments one after the other appends them, in order, to
      the assignment list and touches no other table. */
  function CreateAssignmentAll(s: Storage.Store, xs: seq<NewAssignment>): (r: Storage.Store)
    requires Storage.Valid(s)
    ensures Storage.Valid(r)
    ensures r == s.(assignments := r.assignments)
    ensures |Storage.AssignmentRecords(r)| == |Storage.AssignmentRecords(s)| + |xs|
    ensures Storage.AssignmentRecords(r)[..|Storage.AssignmentRecords(s)|] == Storage.AssignmentRecords(s)
    ensures forall i :: 0 <= i < |xs| ==>
              var a := Storage.AssignmentRecords(r)[|Storage.AssignmentRecords(s)| + i];
              a.facultyId == xs[i].facultyId && a.hoursPerWeek == xs[i].hoursPerWeek
    decreases |xs|
  {
    if |xs| == 0 then
      assert Storage.AssignmentRecords(s)[..|Storage.AssignmentRecords(s)|] == Storage.AssignmentRecords(s);
      s
    else
      var p := CreateAssignmentAll(s, xs[..|xs| - 1]);
      var r := Storage.CreateAssignment(p, xs[|xs| - 1]).0;
      assert Storage.AssignmentRecords(r) == Storage.AssignmentRecords(p) + [Storage.CreateAssignment(p, xs[|xs| - 1]).1];
      r
  }

  /** `updateFacultyWorkload(id, hours)` for each pair in turn. */
  function OverwriteHours(s: Storage.Store, updates: seq<(int, int)>): (r: Storage.Store)
    requires forall i, j :: 0 <= i < j < |updates| ==> updates[i].0 != updates[j].0
    ensures r == s.(faculty := r.faculty)
    ensures forall k :: k in s.faculty.rows ==> k in r.faculty.rows
    ensures forall j :: 0 <= j < |updates| && updates[j].0 in s.faculty.rows ==>
              updates[j].0 in r.faculty.rows && r.faculty.rows[updates[j].0].currentHours == updates[j].1
    decreases |updates|
  {
    if |updates| == 0 then s
    else
      var p := OverwriteHours(s, updates[..|updates| - 1]);
      var u := updates[|updates| - 1];
      assert forall j :: 0 <= j < |updates| - 1 ==> updates[..|updates| - 1][j] == updates[j];
      Storage.UpdateFacultyWorkload(p, u.0, u.1).0
  }

  /** The store after the faculty, subjects and divisions are created: the
      faculty members get ids 1 to |fs|, each with no hours. */
  function Catalogue(fs: seq<NewFaculty>, ss: seq<NewSubject>, ds: seq<NewDivision>): (s: Storage.Store)
    ensures Storage.Valid(s)
    ensures s.faculty.nextId == |fs| + 1 && s.subjects.nextId == |ss| + 1 && s.divisions.nextId == |ds| + 1
    ensures Storage.AssignmentRecords(s) == []
    ensures forall k :: 1 <= k <= |fs| ==> k in s.faculty.rows && s.faculty.rows[k].currentHours == 0
  {
    var s0 := Storage.Init();
    var s1 := CreateFacultyAll(s0, fs);
    var s2 := CreateSubjectAll(s1, ss);
    var s3 := CreateDivisionAll(s2, ds);
    assert s3.faculty == s2.faculty == s1.faculty;
    assert s3.assignments == s2.assignments == s1.assignments == s0.assignments;
    s3
  }

  /** `initializeSampleData` on given lists. */
  function Initialized(fs: seq<NewFaculty>, ss: seq<NewSubject>, ds: seq<NewDivision>,
                       xs: seq<NewAssignment>, updates: seq<(int, int)>): Storage.Store
    requires forall i, j :: 0 <= i < j < |updates| ==> updates[i].0 != updates[j].0
  {
    OverwriteHours(CreateAssignmentAll(Catalogue(fs, ss, ds), xs), updates)
  }

  /** The constructed repository. */
  function Constructed(): Storage.Store
  {
    Initialized(SAMPLE_FACULTY, SAMPLE_SUBJECTS, SAMPLE_DIVISIONS, SAMPLE_ASSIGNMENTS, HOUR_OVERWRITES)
  }

  /** After `initializeSampleData` the assignment list is the given one,
      in order. */
  lemma InitializedAssignments(fs: seq<NewFaculty>, ss: seq<NewSubject>, ds: seq<NewDivision>,
                               xs: seq<NewAssignment>, updates: seq<(int, int)>)
    requires forall i, j :: 0 <= i < j < |updates| ==> updates[i].0 != updates[j].0
    ensures var recs := Storage.AssignmentRecords(Initialized(fs, ss, ds, xs, updates));
            |recs| == |xs|
            && forall i :: 0 <= i < |xs| ==>
                 recs[i].facultyId == xs[i].facultyId && recs[i].hoursPerWeek == xs[i].hoursPerWeek
  {
    var c := Catalogue(fs, ss, ds);
    var w := CreateAssignmentAll(c, xs);
    var s := OverwriteHours(w, updates);
    assert s.assignments == w.assignments;
    assert Storage.AssignmentRecords(s) == Storage.AssignmentRecords(w);
    assert |Storage.AssignmentRecords(c)| == 0;
  }

  /** After `initializeSampleData` each overwritten faculty member of the
      catalogue holds the overwritten count. */
  lemma InitializedCounts(fs: seq<NewFaculty>, ss: seq<NewSubject>, ds: seq<NewDivision>,
                          xs: seq<NewAssignment>, updates: seq<(int, int)>)
    requires forall i, j :: 0 <= i < j < |updates| ==> updates[i].0 != updates[j].0
    ensures var s := Initialized(fs, ss, ds, xs, updates);
            forall j :: 0 <= j < |updates| && 1 <= updates[j].0 <= |fs| ==>
              updates[j].0 in s.faculty.rows && s.faculty.rows[updates[j].0].currentHours == updates[j].1
  {
    var c := Catalogue(fs, ss, ds);
    var w := CreateAssignmentAll(c, xs);
    assert w.faculty == c.faculty;
  }

  /** Three records for faculty 1, 2 and 3: member `i + 1`'s sum is record
      `i`'s hours. */
  lemma ThreeRecordsHours(recs: seq<Assignment>, i: int)
    requires |recs| == 3 && 0 <= i < 3
    requires forall k :: 0 <= k < 3 ==> recs[k].facultyId == k + 1
    ensures Seqs.SumBy(recs, Storage.HoursFor(i + 1)) == recs[i].hoursPerWeek
  {
    assert recs == [recs[0], recs[1], recs[2]];
    SumOfThree(recs[0], recs[1], recs[2], Storage.HoursFor(i + 1));
  }

  /** Three assignments for faculty 1, 2 and 3, in that order, each
      followed by an overwrite of the same member's count. */
  predicate ThreeOverwritten(fs: seq<NewFaculty>, xs: seq<NewAssignment>, updates: seq<(int, int)>)
  {
    |fs| >= 3 && |xs| == 3 && |updates| == 3
    && forall i :: 0 <= i < 3 ==> xs[i].facultyId == i + 1 && updates[i].0 == i + 1
  }

  /** With that shape, each of the three members' assigned hours are their
      assignment's hours while their count is the overwritten one. */
  lemma InitializedHours(fs: seq<NewFaculty>, ss: seq<NewSubject>, ds: seq<NewDivision>,
                         xs: seq<NewAssignment>, updates: seq<(int, int)>)
    requires ThreeOverwritten(fs, xs, updates)
    ensures var s := Initialized(fs, ss, ds, xs, updates);
            forall i :: 0 <= i < 3 ==>
              Storage.AssignedHours(s, i + 1) == xs[i].hoursPerWeek
              && i + 1 in s.faculty.rows && s.faculty.rows[i + 1].currentHours == updates[i].1
  {
    var s := Initialized(fs, ss, ds, xs, updates);
    var recs := Storage.AssignmentRecords(s);
    InitializedAssignments(fs, ss, ds, xs, updates);
    InitializedCounts(fs, ss, ds, xs, updates);
    assert |recs| == 3;
    assert forall k :: 0 <= k < 3 ==> recs[k].facultyId == k + 1;
    forall i | 0 <= i < 3
      ensures Storage.AssignedHours(s, i + 1) == xs[i].hoursPerWeek
    {
      ThreeRecordsHours(recs, i);
    }
  }

  /** So one overwrite that differs from its assignment breaks the
      consistency of hour counts with assignments. */
  lemma InitializedInconsistent(fs: seq<NewFaculty>, ss: seq<NewSubject>, ds: seq<NewDivision>,
                                xs: seq<NewAssignment>, updates: seq<(int, int)>, i: int)
    requires ThreeOverwritten(fs, xs, updates)
    requires 0 <= i < 3 && xs[i].hoursPerWeek != updates[i].1
    ensures !Storage.HoursConsistent(Initialized(fs, ss, ds, xs, updates))
  {
    var s := Initialized(fs, ss, ds, xs, updates);
    InitializedHours(fs, ss, ds, xs, updates);
    assert s.faculty.rows[i + 1].currentHours != Storage.AssignedHours(s, i + 1);
  }

  /** The sample data has that shape, and its overwrites (12, 16, 19) all
      differ from the assignments' hours (4, 6, 4): the constructed
      repository starts with hour counts its assignments do not explain. */
  lemma SampleHoursInconsistent()
    ensures ThreeOverwritten(SAMPLE_FACULTY, SAMPLE_ASSIGNMENTS, HOUR_OVERWRITES)
    ensures forall i :: 0 <= i < 3 ==> SAMPLE_ASSIGNMENTS[i].hoursPerWeek < HOUR_OVERWRITES[i].1
  {
  }

  lemma SumOfThree<T>(a: T, b: T, c: T, f: T -> int)
    ensures Seqs.SumBy([a, b, c], f) == f(a) + f(b) + f(c)
  {
    assert [a][..0] == [];
    assert Seqs.SumBy([a], f) == f(a);
    assert [a, b][..1] == [a];
    assert Seqs.SumBy([a, b], f) == f(a) + f(b);
    assert [a, b, c][..2] == [a, b];
  }
}

=== FILE: schedule.dfy ===
/** The capitalised timetable page: a fixed table of nine time ranges by
    five weekdays, where each cell shows the first slot whose day and time
    range match, optionally narrowed to the selected division or faculty
    member. The page reads `day` and `timeSlot` fields that the server's
    slot records do not have (they carry `dayOfWeek`, `startTime` and
    `endTime`), so a slot list fetched from the server never matches a
    cell; the model keeps those two fields optional to say exactly that. */
module Schedule {
  import opened Common
  import opened Schema
  import Js
  import Text
  import Seqs

  /** A slot as this page reads it. */
  datatype ViewSlot = ViewSlot(day: Option<string>, timeSlot: Option<string>, divisionId: int,
                               facultyId: int, subjectId: int, classroom: string)

  /** A server slot seen through the page's field names: it has no `day`
      and no `timeSlot`. */
  function FromServer(x: Slot): (v: ViewSlot)
    ensures v.day.None? && v.timeSlot.None?
    ensures v.divisionId == x.divisionId && v.facultyId == x.facultyId && v.subjectId == x.subjectId
  {
    ViewSlot(None, None, x.divisionId, x.facultyId, x.subjectId, x.classroom)
  }

  const TIME_RANGES: seq<string> := [
    "9:00-10:00", "10:00-11:00", "11:00-11:15", "11:15-12:15", "12:15-1:15",
    "1:15-2:00", "2:00-3:00", "3:00-4:00", "4:00-5:00"
  ]

  const DAYS: seq<string> := ["monday", "tuesday", "wednesday", "thursday", "friday"]

  const SLOT_COLORS: seq<string> := [
    "cms-timetable-slot primary", "cms-timetable-slot secondary", "cms-timetable-slot success",
    "cms-timetable-slot warning", "cms-timetable-slot danger"
  ]

  const BREAK_RANGE: string := "11:00-11:15"
  const LUNCH_RANGE: string := "1:15-2:00"
  const BREAK_CLASS: string := "cms-timetable-slot bg-yellow-50 border-2 border-dashed border-yellow-300 text-yellow-800"
  const FREE_CLASS: string := "cms-timetable-slot free"

  // ---------------------------------------------------------------------
  // slot lookup

  /** `id ? slot.field === id : true`: a falsy argument does not narrow. */
  predicate Narrows(arg: Js.Value, field: int)
  {
    !Js.Truthy(arg) || arg == Js.Num(field)
  }

  /** The lookup condition for one slot. */
  function SlotMatches(day: string, range: string, divisionArg: Js.Value, facultyArg: Js.Value): ViewSlot -> bool
  {
    (x: ViewSlot) => x.day == Some(day) && x.timeSlot == Some(range)
                     && Narrows(divisionArg, x.divisionId) && Narrows(facultyArg, x.facultyId)
  }

  /** `getSlotForDayAndTime`: the first matching slot, or nothing when the
      list has not loaded or nothing matches. */
  function SlotFor(slots: Option<seq<ViewSlot>>, day: string, range: string,
                   divisionArg: Js.Value, facultyArg: Js.Value): (r: Option<ViewSlot>)
    ensures slots.None? ==> r.None?
    ensures r.Some? ==> slots.Some? && r.value in slots.value
    ensures r.Some? ==> r.value.day == Some(day) && r.value.timeSlot == Some(range)
    ensures r.Some? ==> Narrows(divisionArg, r.value.divisionId) && Narrows(facultyArg, r.value.facultyId)
  {
    match slots
    case None => None
    case Some(xs) =>
      var r := Seqs.Find(xs, SlotMatches(day, range, divisionArg, facultyArg));
      assert r.Some? ==> r.value in xs && SlotMatches(day, range, divisionArg, facultyArg)(r.value);
      r
  }

  /** The lookup finds something exactly when some slot matches, and then
      it is the first one that does. */
  lemma SlotForIsFirstMatch(xs: seq<ViewSlot>, day: string, range: string, divisionArg: Js.Value, facultyArg: Js.Value)
    ensures SlotFor(Some(xs), day, range, divisionArg, facultyArg).None? <==>
              forall i :: 0 <= i < |xs| ==> !SlotMatches(day, range, divisionArg, facultyArg)(xs[i])
    ensures SlotFor(Some(xs), day, range, divisionArg, facultyArg).Some? ==>
              exists i :: 0 <= i < |xs| && xs[i] == SlotFor(Some(xs), day, range, divisionArg, facultyArg).value
                          && forall j :: 0 <= j < i ==> !SlotMatches(day, range, divisionArg, facultyArg)(xs[j])
  {
  }

  /** Falsy narrowing arguments (`undefined`, `0`, `NaN`) are ignored: the
      lookup is then the first slot of that day and time range. */
  lemma FalsyArgumentsIgnored(xs: seq<ViewSlot>, day: string, range: string,
                              divisionArg: Js.Value, facultyArg: Js.Value)
    requires !Js.Truthy(divisionArg) && !Js.Truthy(facultyArg)
    ensures SlotFor(Some(xs), day, range, divisionArg, facultyArg).None? <==>
              forall i :: 0 <= i < |xs| ==> !(xs[i].day == Some(day) && xs[i].timeSlot == Some(range))
    ensures SlotFor(Some(xs), day, range, divisionArg, facultyArg).Some? ==>
              exists i :: 0 <= i < |xs| && xs[i] == SlotFor(Some(xs), day, range, divisionArg, facultyArg).value
                          && xs[i].day == Some(day) && xs[i].timeSlot == Some(range)
                          && forall j :: 0 <= j < i ==> !(xs[j].day == Some(day) && xs[j].timeSlot == Some(range))
  {
    SlotForIsFirstMatch(xs, day, range, divisionArg, facultyArg);
  }

  /** Slots fetched from the server never fill a cell, whatever the
      arguments: none of them has the fields the lookup compares. */
  lemma ServerSlotsNeverFound(xs: seq<Slot>, day: string, range: string, divisionArg: Js.Value, facultyArg: Js.Value)
    ensures SlotFor(Some(Seqs.Map(xs, FromServer)), day, range, divisionArg, facultyArg).None?
  {
  }

  /** The narrowing arguments: in division view `parseInt` of the chosen
      division and no faculty constraint, in faculty view the other way
      round, in any other view neither. */
  function ViewArgs(viewType: string, selectedDivision: string, selectedFaculty: string): (r: (Js.Value, Js.Value))
    ensures viewType != "division" ==> r.0 == Js.Undefined
    ensures viewType != "faculty" ==> r.1 == Js.Undefined
  {
    (if viewType == "division" then Text.ParseInt(selectedDivision) else Js.Undefined,
     if viewType == "faculty" then Text.ParseInt(selectedFaculty) else Js.Undefined)
  }

  /** Before anything is chosen the argument is `parseInt("")`, `NaN`,
      which narrows nothing; once an option written from an id is chosen,
      the argument is that id and (for a non-zero id) narrows to it. */
  lemma ViewArgsBySelection(viewType: string, id: int, field: int)
    ensures !Js.Truthy(ViewArgs(viewType, "", "").0) && !Js.Truthy(ViewArgs(viewType, "", "").1)
    ensures viewType == "division" ==> ViewArgs(viewType, Text.IntToString(id), "").0 == Js.Num(id)
    ensures viewType == "faculty" ==> ViewArgs(viewType, "", Text.IntToString(id)).1 == Js.Num(id)
    ensures id != 0 ==> (Narrows(Js.Num(id), field) <==> field == id)
  {
    Text.ParseIntEmpty();
    Text.ParseIntOfIntToString(id);
  }

  // ---------------------------------------------------------------------
  // cell classes and names

  /** `getSlotClassName`: the two break ranges always get the break class;
      a missing slot or one without a subject is free; otherwise the colour
      at `(subjectId - 1) % 5`, where a negative remainder indexes nothing
      and yields `undefined` (`None`). */
  function SlotClassName(slot: Option<ViewSlot>, range: string): (r: Option<string>)
    ensures range == BREAK_RANGE || range == LUNCH_RANGE ==> r == Some(BREAK_CLASS)
    ensures r.Some? ==> r.value == BREAK_CLASS || r.value == FREE_CLASS || r.value in SLOT_COLORS
  {
    if range == BREAK_RANGE || range == LUNCH_RANGE then Some(BREAK_CLASS)
    else if slot.None? || slot.value.subjectId == 0 then Some(FREE_CLASS)
    else
      var i := Js.Rem(slot.value.subjectId - 1, |SLOT_COLORS|);
      if 0 <= i then Some(SLOT_COLORS[i]) else None
  }

  /** Outside the break ranges: free for a missing slot or subject id 0;
      for a positive subject id the colour `(id - 1) mod 5`, so ids five
      apart share a colour; for a negative id a colour only when
      `id - 1` is a multiple of 5. */
  lemma SlotClassNameCases(slot: Option<ViewSlot>, range: string)
    requires range != BREAK_RANGE && range != LUNCH_RANGE
    ensures slot.None? || slot.value.subjectId == 0 ==> SlotClassName(slot, range) == Some(FREE_CLASS)
    ensures slot.Some? && slot.value.subjectId >= 1 ==>
              SlotClassName(slot, range) == Some(SLOT_COLORS[(slot.value.subjectId - 1) % 5])
    ensures slot.Some? && slot.value.subjectId < 0 ==>
              (SlotClassName(slot, range).None? <==> (slot.value.subjectId - 1) % 5 != 0)
  {
  }

  /** Subject ids five apart get the same colour. */
  lemma ColorRepeatsEveryFive(x: ViewSlot, range: string)
    requires range != BREAK_RANGE && range != LUNCH_RANGE && x.subjectId >= 1
    ensures SlotClassName(Some(x), range) == SlotClassName(Some(x.(subjectId := x.subjectId + 5)), range)
  {
    SlotClassNameCases(Some(x), range);
    SlotClassNameCases(Some(x.(subjectId := x.subjectId + 5)), range);
  }

  /** `getSubjectName`: "" for a falsy id, a list not yet loaded, an
      unknown id or a nameless subject; otherwise the name of the first
      subject with that id. */
  function SubjectName(subjects: Option<seq<Subject>>, id: int): (r: string)
    ensures id == 0 || subjects.None? ==> r == ""
    ensures r != "" ==> exists i :: 0 <= i < |subjects.value| && subjects.value[i].id == id && subjects.value[i].name == r
  {
    if id == 0 || subjects.None? then ""
    else
      match Seqs.Find(subjects.value, (x: Subject) => x.id == id)
      case None => ""
      case Some(x) => x.name
  }

  /** `getFacultyName`, the same lookup in the faculty list. */
  function FacultyName(faculty: Option<seq<Faculty>>, id: int): (r: string)
    ensures id == 0 || faculty.None? ==> r == ""
    ensures r != "" ==> exists i :: 0 <= i < |faculty.value| && faculty.value[i].id == id && faculty.value[i].name == r
  {
    if id == 0 || faculty.None? then ""
    else
      match Seqs.Find(faculty.value, (x: Faculty) => x.id == id)
      case None => ""
      case Some(x) => x.name
  }

  /** `getDivisionName`, without the falsy-id shortcut. */
  function DivisionName(divisions: Option<seq<Division>>, id: int): (r: string)
    ensures divisions.None? ==> r == ""
    ensures r != "" ==> exists i :: 0 <= i < |divisions.value| && divisions.value[i].id == id && divisions.value[i].name == r
  {
    if divisions.None? then ""
    else
      match Seqs.Find(divisions.value, (x: Division) => x.id == id)
      case None => ""
      case Some(x) => x.name
  }

  /** A name lookup of a non-zero id in a loaded list returns the first
      matching record's name, and "" exactly when no record has that id
      or the first one's name is empty. */
  lemma SubjectNameFound(subjects: seq<Subject>, id: int, i: int)
    requires id != 0 && 0 <= i < |subjects| && subjects[i].id == id
    requires forall j :: 0 <= j < i ==> subjects[j].id != id
    ensures SubjectName(Some(subjects), id) == subjects[i].name
  {
  }

  lemma SubjectNameMissing(subjects: seq<Subject>, id: int)
    requires forall j :: 0 <= j < |subjects| ==> subjects[j].id != id
    ensures SubjectName(Some(subjects), id) == ""
  {
  }

  // ---------------------------------------------------------------------
  // the cells of one row

  /** A table cell: a full-width break cell, or a slot cell with its
      class and the slot shown in it (nothing for "Free Period"). */
  datatype TableCell =
    | Span(day: string, colSpan: int, text: string)
    | SlotCell(day: string, className: Option<string>, shown: Option<ViewSlot>)

  /** The cells one day contributes to the row of `range`: in the two
      break rows the Monday column emits one cell spanning all five
      columns and the other days nothing. */
  function DayCells(slots: Option<seq<ViewSlot>>, range: string, day: string,
                    divisionArg: Js.Value, facultyArg: Js.Value): (r: seq<TableCell>)
    ensures |r| <= 1
  {
    var slot := SlotFor(slots, day, range, divisionArg, facultyArg);
    if range == BREAK_RANGE then (if day == "monday" then [Span(day, 5, "Break Time")] else [])
    else if range == LUNCH_RANGE then (if day == "monday" then [Span(day, 5, "Lunch Break")] else [])
    else
      var shown := if slot.Some? && slot.value.subjectId != 0 then slot else None;
      [SlotCell(day, SlotClassName(slot, range), shown)]
  }

  /** The cells of the row of `range`, day by day. */
  function RowCells(slots: Option<seq<ViewSlot>>, range: string, days: seq<string>,
                    divisionArg: Js.Value, facultyArg: Js.Value): (r: seq<TableCell>)
    ensures |r| <= |days|
    decreases |days|
  {
    if |days| == 0 then []
    else RowCells(slots, range, days[..|days| - 1], divisionArg, facultyArg)
         + DayCells(slots, range, days[|days| - 1], divisionArg, facultyArg)
  }

  /** Without a Monday column a break row emits nothing. */
  lemma {:induction false} BreakRowWithoutMonday(slots: Option<seq<ViewSlot>>, range: string, days: seq<string>,
                                                 divisionArg: Js.Value, facultyArg: Js.Value)
    requires range == BREAK_RANGE || range == LUNCH_RANGE
    requires "monday" !in days
    ensures RowCells(slots, range, days, divisionArg, facultyArg) == []
    decreases |days|
  {
    if |days| > 0 {
      BreakRowWithoutMonday(slots, range, days[..|days| - 1], divisionArg, facultyArg);
    }
  }

  /** The cell an ordinary row shows for `day`: a slot cell for that day,
      classed by what the lookup found and never as a break, showing a slot
      only when the lookup found one with a subject. */
  predicate OrdinaryCell(c: TableCell, day: string, found: Option<ViewSlot>, range: string)
  {
    c.SlotCell? && c.day == day && c.className == SlotClassName(found, range)
    && c.className != Some(BREAK_CLASS)
    && (c.shown.Some? <==> found.Some? && found.value.subjectId != 0)
  }

  /** An ordinary row has one cell per day, in day order: the cell that
      day contributes. */
  lemma {:induction false} OrdinaryRowByDay(slots: Option<seq<ViewSlot>>, range: string, days: seq<string>,
                                            divisionArg: Js.Value, facultyArg: Js.Value)
    requires range != BREAK_RANGE && range != LUNCH_RANGE
    ensures |RowCells(slots, range, days, divisionArg, facultyArg)| == |days|
    ensures forall i :: 0 <= i < |days| ==>
              DayCells(slots, range, days[i], divisionArg, facultyArg)
              == [RowCells(slots, range, days, divisionArg, facultyArg)[i]]
    decreases |days|
  {
    if |days| > 0 {
      var n := |days| - 1;
      var init := RowCells(slots, range, days[..n], divisionArg, facultyArg);
      var last := DayCells(slots, range, days[n], divisionArg, facultyArg);
      var r := RowCells(slots, range, days, divisionArg, facultyArg);
      OrdinaryRowByDay(slots, range, days[..n], divisionArg, facultyArg);
      OrdinaryDayCell(slots, range, days[n], divisionArg, facultyArg);
      assert r == init + last;
      forall i | 0 <= i < n
        ensures DayCells(slots, range, days[i], divisionArg, facultyArg) == [r[i]]
      {
        assert r[i] == init[i] && days[i] == days[..n][i];
      }
    }
  }

  /** An ordinary row has one slot cell per day, in day order, never with
      the break class; the cell shows a slot only when the lookup found one
      with a subject. */
  lemma OrdinaryRowCells(slots: Option<seq<ViewSlot>>, range: string, days: seq<string>,
                         divisionArg: Js.Value, facultyArg: Js.Value)
    requires range != BREAK_RANGE && range != LUNCH_RANGE
    ensures |RowCells(slots, range, days, divisionArg, facultyArg)| == |days|
    ensures forall i :: 0 <= i < |days| ==>
              OrdinaryCell(RowCells(slots, range, days, divisionArg, facultyArg)[i], days[i],
                           SlotFor(slots, days[i], range, divisionArg, facultyArg), range)
  {
    OrdinaryRowByDay(slots, range, days, divisionArg, facultyArg);
    forall i | 0 <= i < |days|
      ensures OrdinaryCell(RowCells(slots, range, days, divisionArg, facultyArg)[i], days[i],
                           SlotFor(slots, days[i], range, divisionArg, facultyArg), range)
    {
      OrdinaryDayCell(slots, range, days[i], divisionArg, facultyArg);
    }
  }

  /** On an ordinary row a day contributes one slot cell. */
  lemma OrdinaryDayCell(slots: Option<seq<ViewSlot>>, range: string, day: string,
                        divisionArg: Js.Value, facultyArg: Js.Value)
    requires range != BREAK_RANGE && range != LUNCH_RANGE
    ensures var cells := DayCells(slots, range, day, divisionArg, facultyArg);
            |cells| == 1
            && OrdinaryCell(cells[0], day, SlotFor(slots, day, range, divisionArg, facultyArg), range)
  {
    SlotClassNameCases(SlotFor(slots, day, range, divisionArg, facultyArg), range);
  }

  /** The rendered break and lunch rows are a single cell, on Monday,
      spanning the five day columns. */
  lemma BreakRowsSpanAllDays(slots: Option<seq<ViewSlot>>, divisionArg: Js.Value, facultyArg: Js.Value)
    ensures RowCells(slots, BREAK_RANGE, DAYS, divisionArg, facultyArg) == [Span("monday", |DAYS|, "Break Time")]
    ensures RowCells(slots, LUNCH_RANGE, DAYS, divisionArg, facultyArg) == [Span("monday", |DAYS|, "Lunch Break")]
  {
    var rest := DAYS[1..];
    assert "monday" !in rest;
    assert [DAYS[0]] + rest == DAYS;
    RowCellsAppend(slots, BREAK_RANGE, [DAYS[0]], rest, divisionArg, facultyArg);
    RowCellsAppend(slots, LUNCH_RANGE, [DAYS[0]], rest, divisionArg, facultyArg);
    BreakRowWithoutMonday(slots, BREAK_RANGE, rest, divisionArg, facultyArg);
    BreakRowWithoutMonday(slots, LUNCH_RANGE, rest, divisionArg, facultyArg);
    assert [DAYS[0]][..0] == [];
  }

  lemma {:induction false} RowCellsAppend(slots: Option<seq<ViewSlot>>, range: string, a: seq<string>, b: seq<string>,
                                          divisionArg: Js.Value, facultyArg: Js.Value)
    ensures RowCells(slots, range, a + b, divisionArg, facultyArg) ==
              RowCells(slots, range, a, divisionArg, facultyArg) + RowCells(slots, range, b, divisionArg, facultyArg)
    decreases |b|
  {
    if |b| == 0 {
      assert a + b == a;
    } else {
      var b' := b[..|b| - 1];
      assert (a + b)[..|a + b| - 1] == a + b';
      assert (a + b)[|a + b| - 1] == b[|b| - 1];
      RowCellsAppend(slots, range, a, b', divisionArg, facultyArg);
      var last := DayCells(slots, range, b[|b| - 1], divisionArg, facultyArg);
      assert RowCells(slots, range, a + b, divisionArg, facultyArg)
             == RowCells(slots, range, a + b', divisionArg, facultyArg) + last;
      assert RowCells(slots, range, b, divisionArg, facultyArg)
             == RowCells(slots, range, b', divisionArg, facultyArg) + last;
    }
  }

  /** Of the nine time ranges exactly the third and sixth are break rows. */
  lemma BreakRowPositions()
    ensures |TIME_RANGES| == 9
    ensures TIME_RANGES[2] == BREAK_RANGE && TIME_RANGES[5] == LUNCH_RANGE
    ensures forall i :: 0 <= i < 9 && i != 2 && i != 5 ==> TIME_RANGES[i] != BREAK_RANGE && TIME_RANGES[i] != LUNCH_RANGE
  {
  }
}

=== FILE: schema.dfy ===
/** The shared table definitions: one record type per table, the insert
    records the API accepts (each insert schema omits the server-assigned
    columns), the column defaults, and validation of a JSON request body
    against an insert schema. Validation keeps the behaviour that matters
    to the server: a required text column needs a string, an integer column
    needs a number, a nullable column may be absent, `undefined` or `null`,
    and keys the schema does not name are dropped. */
module Schema {
  import opened Common
  import Js

  // ---------------------------------------------------------------------
  // stored records (`$inferSelect`)

  datatype User = User(id: int, username: string, password: string)

  datatype Faculty = Faculty(id: int, name: string, email: string, position: string,
                             department: string, maxHours: int, currentHours: int)

  datatype Subject = Subject(id: int, name: string, code: string, department: string, credits: int)

  datatype Division = Division(id: int, name: string, department: string, semester: int,
                               academicYear: string)

  /** A workload assignment. The column `type` is called `kind` here;
      `classroom` is the only nullable column. */
  datatype Assignment = Assignment(id: int, facultyId: int, subjectId: int, divisionId: int,
                                   kind: string, hoursPerWeek: int, classroom: Option<string>,
                                   status: string)

  /** A timetable slot; unlike an assignment its classroom is required. */
  datatype Slot = Slot(id: int, divisionId: int, facultyId: int, subjectId: int, dayOfWeek: int,
                       startTime: string, endTime: string, classroom: string, kind: string)

  /** An upload record; `uploadedAt` is a time stamp in milliseconds. */
  datatype Upload = Upload(id: int, filename: string, originalName: string, fileSize: int,
                           status: string, uploadedAt: int, processedRows: int, totalRows: int)

  // ---------------------------------------------------------------------
  // insert records (what each insert schema leaves after its `omit`)

  datatype NewUser = NewUser(username: string, password: string)
  datatype NewFaculty = NewFaculty(name: string, email: string, position: string,
                                   department: string, maxHours: int)
  datatype NewSubject = NewSubject(name: string, code: string, department: string, credits: int)
  datatype NewDivision = NewDivision(name: string, department: string, semester: int,
                                     academicYear: string)
  datatype NewAssignment = NewAssignment(facultyId: int, subjectId: int, divisionId: int,
                                         kind: string, hoursPerWeek: int, classroom: Option<string>)
  datatype NewSlot = NewSlot(divisionId: int, facultyId: int, subjectId: int, dayOfWeek: int,
                             startTime: string, endTime: string, classroom: string, kind: string)
  datatype NewUpload = NewUpload(filename: string, originalName: string, fileSize: int)

  // ---------------------------------------------------------------------
  // column defaults

  const DEFAULT_CURRENT_HOURS: int := 0
  const DEFAULT_ASSIGNMENT_STATUS: string := "assigned"
  const DEFAULT_UPLOAD_STATUS: string := "processing"
  const DEFAULT_ROW_COUNT: int := 0

  // ---------------------------------------------------------------------
  // request bodies and validation

  /** A parsed JSON object: field name to value. */
  type Body = map<string, Js.Value>

  /** How an insert schema constrains one column. */
  datatype Column = Text | Integer | NullableText

  /** Does `b` satisfy column `c` at key `key`? */
  predicate Accepts(c: Column, b: Body, key: string)
  {
    match c
    case Text => key in b && b[key].Str?
    case Integer => key in b && b[key].Num?
    case NullableText => key !in b || b[key].Undefined? || b[key].Null? || b[key].Str?
  }

  /** The names of the columns `b` fails, in column order: the paths of
      the validation error. */
  function Rejected(b: Body, cols: seq<(string, Column)>): (r: seq<string>)
    ensures |r| <= |cols|
    ensures r == [] <==> forall i :: 0 <= i < |cols| ==> Accepts(cols[i].1, b, cols[i].0)
    decreases |cols|
  {
    if |cols| == 0 then []
    else
      var rest := Rejected(b, cols[..|cols| - 1]);
      var last := cols[|cols| - 1];
      rest + (if Accepts(last.1, b, last.0) then [] else [last.0])
  }

  predicate NamesNone(cols: seq<(string, Column)>, key: string)
  {
    forall i :: 0 <= i < |cols| ==> cols[i].0 != key
  }

  /** Validation looks only at the keys the schema names, so a body may
      carry any other key (an `id`, a `status`, ...) without effect. */
  lemma {:induction false} RejectedIgnoresOtherKeys(b: Body, cols: seq<(string, Column)>, key: string, v: Js.Value)
    requires NamesNone(cols, key)
    ensures Rejected(b[key := v], cols) == Rejected(b, cols)
    decreases |cols|
  {
    if |cols| > 0 {
      RejectedIgnoresOtherKeys(b, cols[..|cols| - 1], key, v);
      var last := cols[|cols| - 1];
      assert last.0 != key;
      assert Accepts(last.1, b[key := v], last.0) == Accepts(last.1, b, last.0);
    }
  }

  // ---------------------------------------------------------------------
  // the insert schemas

  const FACULTY_COLUMNS: seq<(string, Column)> :=
    [("name", Text), ("email", Text), ("position", Text), ("department", Text), ("maxHours", Integer)]
  const SUBJECT_COLUMNS: seq<(string, Column)> :=
    [("name", Text), ("code", Text), ("department", Text), ("credits", Integer)]
  const DIVISION_COLUMNS: seq<(string, Column)> :=
    [("name", Text), ("department", Text), ("semester", Integer), ("academicYear", Text)]
  const ASSIGNMENT_COLUMNS: seq<(string, Column)> :=
    [("facultyId", Integer), ("subjectId", Integer), ("divisionId", Integer), ("type", Text),
     ("hoursPerWeek", Integer), ("classroom", NullableText)]
  const SLOT_COLUMNS: seq<(string, Column)> :=
    [("divisionId", Integer), ("facultyId", Integer), ("subjectId", Integer), ("dayOfWeek", Integer),
     ("startTime", Text), ("endTime", Text), ("classroom", Text), ("type", Text)]
  const UPLOAD_COLUMNS: seq<(string, Column)> :=
    [("filename", Text), ("originalName", Text), ("fileSize", Integer)]

  /** The value of a nullable text column: absent, `undefined` and `null`
      all mean no value. */
  function NullableValue(b: Body, key: string): (r: Option<string>)
    ensures r.Some? <==> key in b && b[key].Str?
  {
    if key in b && b[key].Str? then Some(b[key].s) else None
  }

  function ParseFaculty(b: Body): (r: Result<NewFaculty, seq<string>>)
    ensures r.Ok? <==> forall i :: 0 <= i < |FACULTY_COLUMNS| ==> Accepts(FACULTY_COLUMNS[i].1, b, FACULTY_COLUMNS[i].0)
    ensures r.Err? ==> r.error != []
  {
    var bad := Rejected(b, FACULTY_COLUMNS);
    if bad != [] then Err(bad)
    else
      assert forall i :: 0 <= i < |FACULTY_COLUMNS| ==> Accepts(FACULTY_COLUMNS[i].1, b, FACULTY_COLUMNS[i].0);
      assert Accepts(FACULTY_COLUMNS[0].1, b, FACULTY_COLUMNS[0].0);
      assert Accepts(FACULTY_COLUMNS[1].1, b, FACULTY_COLUMNS[1].0);
      assert Accepts(FACULTY_COLUMNS[2].1, b, FACULTY_COLUMNS[2].0);
      assert Accepts(FACULTY_COLUMNS[3].1, b, FACULTY_COLUMNS[3].0);
      assert Accepts(FACULTY_COLUMNS[4].1, b, FACULTY_COLUMNS[4].0);
      Ok(NewFaculty(b["name"].s, b["email"].s, b["position"].s, b["department"].s, b["maxHours"].n))
  }

  function ParseSubject(b: Body): (r: Result<NewSubject, seq<string>>)
    ensures r.Ok? <==> forall i :: 0 <= i < |SUBJECT_COLUMNS| ==> Accepts(SUBJECT_COLUMNS[i].1, b, SUBJECT_COLUMNS[i].0)
    ensures r.Err? ==> r.error != []
  {
    var bad := Rejected(b, SUBJECT_COLUMNS);
    if bad != [] then Err(bad)
    else
      assert Accepts(SUBJECT_COLUMNS[0].1, b, SUBJECT_COLUMNS[0].0);
      assert Accepts(SUBJECT_COLUMNS[1].1, b, SUBJECT_COLUMNS[1].0);
      assert Accepts(SUBJECT_COLUMNS[2].1, b, SUBJECT_COLUMNS[2].0);
      assert Accepts(SUBJECT_COLUMNS[3].1, b, SUBJECT_COLUMNS[3].0);
      Ok(NewSubject(b["name"].s, b["code"].s, b["department"].s, b["credits"].n))
  }

  function ParseDivision(b: Body): (r: Result<NewDivision, seq<string>>)
    ensures r.Ok? <==> forall i :: 0 <= i < |DIVISION_COLUMNS| ==> Accepts(DIVISION_COLUMNS[i].1, b, DIVISION_COLUMNS[i].0)
    ensures r.Err? ==> r.error != []
  {
    var bad := Rejected(b, DIVISION_COLUMNS);
    if bad != [] then Err(bad)
    else
      assert Accepts(DIVISION_COLUMNS[0].1, b, DIVISION_COLUMNS[0].0);
      assert Accepts(DIVISION_COLUMNS[1].1, b, DIVISION_COLUMNS[1].0);
      assert Accepts(DIVISION_COLUMNS[2].1, b, DIVISION_COLUMNS[2].0);
      assert Accepts(DIVISION_COLUMNS[3].1, b, DIVISION_COLUMNS[3].0);
      Ok(NewDivision(b["name"].s, b["department"].s, b["semester"].n, b["academicYear"].s))
  }

  function ParseAssignment(b: Body): (r: Result<NewAssignment, seq<string>>)
    ensures r.Ok? <==> forall i :: 0 <= i < |ASSIGNMENT_COLUMNS| ==> Accepts(ASSIGNMENT_COLUMNS[i].1, b, ASSIGNMENT_COLUMNS[i].0)
    ensures r.Err? ==> r.error != []
  {
    var bad := Rejected(b, ASSIGNMENT_COLUMNS);
    if bad != [] then Err(bad)
    else
      assert Accepts(ASSIGNMENT_COLUMNS[0].1, b, ASSIGNMENT_COLUMNS[0].0);
      assert Accepts(ASSIGNMENT_COLUMNS[1].1, b, ASSIGNMENT_COLUMNS[1].0);
      assert Accepts(ASSIGNMENT_COLUMNS[2].1, b, ASSIGNMENT_COLUMNS[2].0);
      assert Accepts(ASSIGNMENT_COLUMNS[3].1, b, ASSIGNMENT_COLUMNS[3].0);
      assert Accepts(ASSIGNMENT_COLUMNS[4].1, b, ASSIGNMENT_COLUMNS[4].0);
      Ok(NewAssignment(b["facultyId"].n, b["subjectId"].n, b["divisionId"].n, b["type"].s,
                       b["hoursPerWeek"].n, NullableValue(b, "classroom")))
  }

  function ParseSlot(b: Body): (r: Result<NewSlot, seq<string>>)
    ensures r.Ok? <==> forall i :: 0 <= i < |SLOT_COLUMNS| ==> Accepts(SLOT_COLUMNS[i].1, b, SLOT_COLUMNS[i].0)
    ensures r.Err? ==> r.error != []
  {
    var bad := Rejected(b, SLOT_COLUMNS);
    if bad != [] then Err(bad)
    else
      assert Accepts(SLOT_COLUMNS[0].1, b, SLOT_COLUMNS[0].0);
      assert Accepts(SLOT_COLUMNS[1].1, b, SLOT_COLUMNS[1].0);
      assert Accepts(SLOT_COLUMNS[2].1, b, SLOT_COLUMNS[2].0);
      assert Accepts(SLOT_COLUMNS[3].1, b, SLOT_COLUMNS[3].0);
      assert Accepts(SLOT_COLUMNS[4].1, b, SLOT_COLUMNS[4].0);
      assert Accepts(SLOT_COLUMNS[5].1, b, SLOT_COLUMNS[5].0);
      assert Accepts(SLOT_COLUMNS[6].1, b, SLOT_COLUMNS[6].0);
      assert Accepts(SLOT_COLUMNS[7].1, b, SLOT_COLUMNS[7].0);
      Ok(NewSlot(b["divisionId"].n, b["facultyId"].n, b["subjectId"].n, b["dayOfWeek"].n,
                 b["startTime"].s, b["endTime"].s, b["classroom"].s, b["type"].s))
  }

  function ParseUpload(b: Body): (r: Result<NewUpload, seq<string>>)
    ensures r.Ok? <==> forall i :: 0 <= i < |UPLOAD_COLUMNS| ==> Accepts(UPLOAD_COLUMNS[i].1, b, UPLOAD_COLUMNS[i].0)
    ensures r.Err? ==> r.error != []
  {
    var bad := Rejected(b, UPLOAD_COLUMNS);
    if bad != [] then Err(bad)
    else
      assert Accepts(UPLOAD_COLUMNS[0].1, b, UPLOAD_COLUMNS[0].0);
      assert Accepts(UPLOAD_COLUMNS[1].1, b, UPLOAD_COLUMNS[1].0);
      assert Accepts(UPLOAD_COLUMNS[2].1, b, UPLOAD_COLUMNS[2].0);
      Ok(NewUpload(b["filename"].s, b["originalName"].s, b["fileSize"].n))
  }

  // ---------------------------------------------------------------------
  // the JSON bodies a well-behaved client sends

  function EncodeFaculty(f: NewFaculty): Body
  {
    map["name" := Js.Str(f.name), "email" := Js.Str(f.email), "position" := Js.Str(f.position),
        "department" := Js.Str(f.department), "maxHours" := Js.Num(f.maxHours)]
  }

  function EncodeSubject(s: NewSubject): Body
  {
    map["name" := Js.Str(s.name), "code" := Js.Str(s.code), "department" := Js.Str(s.department),
        "credits" := Js.Num(s.credits)]
  }

  function EncodeDivision(d: NewDivision): Body
  {
    map["name" := Js.Str(d.name), "department" := Js.Str(d.department),
        "semester" := Js.Num(d.semester), "academicYear" := Js.Str(d.academicYear)]
  }

  /** A missing classroom is sent by leaving the key out. */
  function EncodeAssignment(a: NewAssignment): Body
  {
    var b := map["facultyId" := Js.Num(a.facultyId), "subjectId" := Js.Num(a.subjectId),
                 "divisionId" := Js.Num(a.divisionId), "type" := Js.Str(a.kind),
                 "hoursPerWeek" := Js.Num(a.hoursPerWeek)];
    match a.classroom
    case Some(c) => b["classroom" := Js.Str(c)]
    case None => b
  }

  function EncodeSlot(s: NewSlot): Body
  {
    map["divisionId" := Js.Num(s.divisionId), "facultyId" := Js.Num(s.facultyId),
        "subjectId" := Js.Num(s.subjectId), "dayOfWeek" := Js.Num(s.dayOfWeek),
        "startTime" := Js.Str(s.startTime), "endTime" := Js.Str(s.endTime),
        "classroom" := Js.Str(s.classroom), "type" := Js.Str(s.kind)]
  }

  function EncodeUpload(u: NewUpload): Body
  {
    map["filename" := Js.Str(u.filename), "originalName" := Js.Str(u.originalName),
        "fileSize" := Js.Num(u.fileSize)]
  }

  // ---------------------------------------------------------------------
  // round trips: every well-formed insert record passes its schema
  // unchanged, whatever its integers (no range bound on any column)

  lemma ParseEncodeFaculty(f: NewFaculty)
    ensures ParseFaculty(EncodeFaculty(f)) == Ok(f)
  {
    var b := EncodeFaculty(f);
    assert Accepts(FACULTY_COLUMNS[4].1, b, FACULTY_COLUMNS[4].0);
  }

  lemma ParseEncodeSubject(s: NewSubject)
    ensures ParseSubject(EncodeSubject(s)) == Ok(s)
  {
    var b := EncodeSubject(s);
    assert Accepts(SUBJECT_COLUMNS[3].1, b, SUBJECT_COLUMNS[3].0);
  }

  lemma ParseEncodeDivision(d: NewDivision)
    ensures ParseDivision(EncodeDivision(d)) == Ok(d)
  {
    var b := EncodeDivision(d);
    assert Accepts(DIVISION_COLUMNS[3].1, b, DIVISION_COLUMNS[3].0);
  }

  lemma ParseEncodeAssignment(a: NewAssignment)
    ensures ParseAssignment(EncodeAssignment(a)) == Ok(a)
  {
    var b := EncodeAssignment(a);
    assert Accepts(ASSIGNMENT_COLUMNS[5].1, b, ASSIGNMENT_COLUMNS[5].0);
  }

  lemma ParseEncodeSlot(s: NewSlot)
    ensures ParseSlot(EncodeSlot(s)) == Ok(s)
  {
    var b := EncodeSlot(s);
    assert Accepts(SLOT_COLUMNS[7].1, b, SLOT_COLUMNS[7].0);
  }

  lemma ParseEncodeUpload(u: NewUpload)
    ensures ParseUpload(EncodeUpload(u)) == Ok(u)
  {
    var b := EncodeUpload(u);
    assert Accepts(UPLOAD_COLUMNS[2].1, b, UPLOAD_COLUMNS[2].0);
  }

  // ---------------------------------------------------------------------
  // omitted columns: a client cannot set them through an insert

  /** A faculty body's `id` and `currentHours` (or any other unnamed key)
      do not affect the parsed record. */
  lemma ParseFacultyIgnoresOtherKeys(b: Body, key: string, v: Js.Value)
    requires NamesNone(FACULTY_COLUMNS, key)
    ensures ParseFaculty(b[key := v]) == ParseFaculty(b)
  {
    RejectedIgnoresOtherKeys(b, FACULTY_COLUMNS, key, v);
    assert FACULTY_COLUMNS[0].0 != key && FACULTY_COLUMNS[1].0 != key && FACULTY_COLUMNS[2].0 != key && FACULTY_COLUMNS[3].0 != key && FACULTY_COLUMNS[4].0 != key;
  }

  lemma ParseSubjectIgnoresOtherKeys(b: Body, key: string, v: Js.Value)
    requires NamesNone(SUBJECT_COLUMNS, key)
    ensures ParseSubject(b[key := v]) == ParseSubject(b)
  {
    RejectedIgnoresOtherKeys(b, SUBJECT_COLUMNS, key, v);
    assert SUBJECT_COLUMNS[0].0 != key && SUBJECT_COLUMNS[1].0 != key && SUBJECT_COLUMNS[2].0 != key && SUBJECT_COLUMNS[3].0 != key;
  }

  lemma ParseDivisionIgnoresOtherKeys(b: Body, key: string, v: Js.Value)
    requires NamesNone(DIVISION_COLUMNS, key)
    ensures ParseDivision(b[key := v]) == ParseDivision(b)
  {
    RejectedIgnoresOtherKeys(b, DIVISION_COLUMNS, key, v);
    assert DIVISION_COLUMNS[0].0 != key && DIVISION_COLUMNS[1].0 != key && DIVISION_COLUMNS[2].0 != key && DIVISION_COLUMNS[3].0 != key;
  }

  /** An assignment body's `id` and `status` do not affect the parsed record. */
  lemma ParseAssignmentIgnoresOtherKeys(b: Body, key: string, v: Js.Value)
    requires NamesNone(ASSIGNMENT_COLUMNS, key)
    ensures ParseAssignment(b[key := v]) == ParseAssignment(b)
  {
    RejectedIgnoresOtherKeys(b, ASSIGNMENT_COLUMNS, key, v);
    assert ASSIGNMENT_COLUMNS[0].0 != key && ASSIGNMENT_COLUMNS[1].0 != key && ASSIGNMENT_COLUMNS[2].0 != key && ASSIGNMENT_COLUMNS[3].0 != key && ASSIGNMENT_COLUMNS[4].0 != key && ASSIGNMENT_COLUMNS[5].0 != key;
  }

  lemma ParseSlotIgnoresOtherKeys(b: Body, key: string, v: Js.Value)
    requires NamesNone(SLOT_COLUMNS, key)
    ensures ParseSlot(b[key := v]) == ParseSlot(b)
  {
    RejectedIgnoresOtherKeys(b, SLOT_COLUMNS, key, v);
    assert SLOT_COLUMNS[0].0 != key && SLOT_COLUMNS[1].0 != key && SLOT_COLUMNS[2].0 != key && SLOT_COLUMNS[3].0 != key && SLOT_COLUMNS[4].0 != key && SLOT_COLUMNS[5].0 != key && SLOT_COLUMNS[6].0 != key && SLOT_COLUMNS[7].0 != key;
  }

  /** An upload body's `id`, `status`, `uploadedAt`, `processedRows` and
      `totalRows` do not affect the parsed record. */
  lemma ParseUploadIgnoresOtherKeys(b: Body, key: string, v: Js.Value)
    requires NamesNone(UPLOAD_COLUMNS, key)
    ensures ParseUpload(b[key := v]) == ParseUpload(b)
  {
    RejectedIgnoresOtherKeys(b, UPLOAD_COLUMNS, key, v);
    assert UPLOAD_COLUMNS[0].0 != key && UPLOAD_COLUMNS[1].0 != key && UPLOAD_COLUMNS[2].0 != key;
  }

  /** The omitted columns are indeed unnamed by their insert schemas. */
  lemma OmittedColumns()
    ensures NamesNone(FACULTY_COLUMNS, "id") && NamesNone(FACULTY_COLUMNS, "currentHours")
    ensures NamesNone(ASSIGNMENT_COLUMNS, "id") && NamesNone(ASSIGNMENT_COLUMNS, "status")
    ensures NamesNone(UPLOAD_COLUMNS, "id") && NamesNone(UPLOAD_COLUMNS, "status")
    ensures NamesNone(UPLOAD_COLUMNS, "uploadedAt") && NamesNone(UPLOAD_COLUMNS, "processedRows")
    ensures NamesNone(UPLOAD_COLUMNS, "totalRows")
    ensures NamesNone(SUBJECT_COLUMNS, "id") && NamesNone(DIVISION_COLUMNS, "id") && NamesNone(SLOT_COLUMNS, "id")
  {
  }

  // ---------------------------------------------------------------------
  // nullable versus required classroom

  /** A slot without a string classroom is rejected, naming the column;
      an assignment without one is accepted with no classroom. */
  lemma ClassroomRequiredOnlyForSlots(b: Body)
    requires "classroom" !in b
    ensures ParseSlot(b).Err? && "classroom" in ParseSlot(b).error
    ensures ParseAssignment(b).Ok? ==> ParseAssignment(b).value.classroom == None
  {
    assert !Accepts(SLOT_COLUMNS[6].1, b, SLOT_COLUMNS[6].0);
    RejectedNames(b, SLOT_COLUMNS, 6);
  }

  /** A column the body fails is named in the error. */
  lemma {:induction false} RejectedNames(b: Body, cols: seq<(string, Column)>, i: int)
    requires 0 <= i < |cols| && !Accepts(cols[i].1, b, cols[i].0)
    ensures cols[i].0 in Rejected(b, cols)
    decreases |cols|
  {
    if i < |cols| - 1 {
      RejectedNames(b, cols[..|cols| - 1], i);
    }
  }
}

=== FILE: seqs.dfy ===
/** Array operations the application uses through JavaScript built-ins:
    `filter`, a summing `reduce`, `find`/`indexOf`, and the two ways it
    removes duplicates (`Array.from(new Set(xs))` and the
    `xs.filter((x, i) => xs.indexOf(x) === i)` idiom). Every fold is
    written from the back, as `reduce` and `forEach` visit elements from
    the front and append. */
module Seqs {
  import opened Common

  // ---------------------------------------------------------------------
  // filter

  /** `s.filter(p)`. */
  function Filter<T>(s: seq<T>, p: T -> bool): (r: seq<T>)
    ensures |r| <= |s|
    decreases |s|
  {
    if |s| == 0 then []
    else Filter(s[..|s| - 1], p) + (if p(s[|s| - 1]) then [s[|s| - 1]] else [])
  }

  /** An element survives the filter exactly when it was in the input and
      satisfies the predicate. */
  lemma {:induction false} FilterMembership<T>(s: seq<T>, p: T -> bool)
    ensures forall x :: x in Filter(s, p) <==> x in s && p(x)
    decreases |s|
  {
    if |s| > 0 {
      FilterMembership(s[..|s| - 1], p);
      assert s == s[..|s| - 1] + [s[|s| - 1]];
    }
  }

  /** Filtering distributes over concatenation. */
  lemma {:induction false} FilterAppend<T>(a: seq<T>, b: seq<T>, p: T -> bool)
    ensures Filter(a + b, p) == Filter(a, p) + Filter(b, p)
    decreases |b|
  {
    if |b| == 0 {
      assert a + b == a;
    } else {
      var b' := b[..|b| - 1];
      assert (a + b)[..|a + b| - 1] == a + b';
      FilterAppend(a, b', p);
    }
  }

  /** A filter that rejects nothing is the identity. */
  lemma {:induction false} FilterKeepsAll<T>(s: seq<T>, p: T -> bool)
    requires forall i :: 0 <= i < |s| ==> p(s[i])
    ensures Filter(s, p) == s
    decreases |s|
  {
    if |s| > 0 {
      FilterKeepsAll(s[..|s| - 1], p);
      assert s == s[..|s| - 1] + [s[|s| - 1]];
    }
  }

  /** `a` is `b` with some elements removed, order kept. */
  predicate IsSubsequence<T(==)>(a: seq<T>, b: seq<T>)
    decreases |b|
  {
    if |a| == 0 then true
    else if |b| == 0 then false
    else if a[|a| - 1] == b[|b| - 1] then IsSubsequence(a[..|a| - 1], b[..|b| - 1])
    else IsSubsequence(a, b[..|b| - 1])
  }

  /** Every sequence is a subsequence of itself. */
  lemma {:induction false} SubsequenceReflexive<T>(a: seq<T>)
    ensures IsSubsequence(a, a)
    decreases |a|
  {
    if |a| > 0 {
      SubsequenceReflexive(a[..|a| - 1]);
    }
  }

  lemma {:induction false} SubsequenceLength<T>(a: seq<T>, b: seq<T>)
    requires IsSubsequence(a, b)
    ensures |a| <= |b|
    decreases |b|
  {
    if |a| > 0 {
      if a[|a| - 1] == b[|b| - 1] {
        SubsequenceLength(a[..|a| - 1], b[..|b| - 1]);
      } else {
        SubsequenceLength(a, b[..|b| - 1]);
      }
    }
  }

  /** The filtered array is a subsequence of its input. */
  lemma {:induction false} FilterIsSubsequence<T>(s: seq<T>, p: T -> bool)
    ensures IsSubsequence(Filter(s, p), s)
    decreases |s|
  {
    if |s| > 0 {
      var init := s[..|s| - 1];
      FilterIsSubsequence(init, p);
      assert s == init + [s[|s| - 1]];
      if p(s[|s| - 1]) {
        var f := Filter(s, p);
        assert f[..|f| - 1] == Filter(init, p);
      } else {
        assert Filter(s, p) == Filter(init, p);
        SubsequenceOfLonger(Filter(init, p), init, s[|s| - 1]);
      }
    }
  }

  /** Appending to the longer sequence keeps a subsequence. */
  lemma {:induction false} SubsequenceOfLonger<T>(a: seq<T>, b: seq<T>, x: T)
    requires IsSubsequence(a, b)
    ensures IsSubsequence(a, b + [x])
    decreases |b|, 1
  {
    if |a| > 0 {
      assert (b + [x])[..|b + [x]| - 1] == b;
      if a[|a| - 1] == x {
        SubsequenceDropLast(a, b);
      }
    }
  }

  /** Dropping the last element of a subsequence keeps it a subsequence. */
  lemma {:induction false} SubsequenceDropLast<T>(a: seq<T>, b: seq<T>)
    requires |a| > 0 && IsSubsequence(a, b)
    ensures IsSubsequence(a[..|a| - 1], b)
    decreases |b|, 0
  {
    var b' := b[..|b| - 1];
    var last := b[|b| - 1];
    assert b' + [last] == b;
    if a[|a| - 1] == last {
      SubsequenceOfLonger(a[..|a| - 1], b', last);
    } else {
      SubsequenceDropLast(a, b');
      SubsequenceOfLonger(a[..|a| - 1], b', last);
    }
  }

  // ---------------------------------------------------------------------
  // map

  /** `s.map(f)`. */
  function Map<T, U>(s: seq<T>, f: T -> U): (r: seq<U>)
    ensures |r| == |s|
    ensures forall i :: 0 <= i < |s| ==> r[i] == f(s[i])
  {
    seq(|s|, i requires 0 <= i < |s| => f(s[i]))
  }

  // ---------------------------------------------------------------------
  // summing reduce

  /** `s.reduce((sum, x) => sum + f(x), 0)`. */
  function SumBy<T>(s: seq<T>, f: T -> int): int
    decreases |s|
  {
    if |s| == 0 then 0 else SumBy(s[..|s| - 1], f) + f(s[|s| - 1])
  }

  lemma {:induction false} SumByAppend<T>(a: seq<T>, b: seq<T>, f: T -> int)
    ensures SumBy(a + b, f) == SumBy(a, f) + SumBy(b, f)
    decreases |b|
  {
    if |b| == 0 {
      assert a + b == a;
    } else {
      assert (a + b)[..|a + b| - 1] == a + b[..|b| - 1];
      SumByAppend(a, b[..|b| - 1], f);
    }
  }

  /** The term that counts the elements satisfying `p`. */
  function Indicator<T>(p: T -> bool): T -> int
  {
    x => if p(x) then 1 else 0
  }

  /** The length of a filtered array counts the elements that satisfy the
      predicate. */
  lemma {:induction false} FilterLengthIsCount<T>(s: seq<T>, p: T -> bool)
    ensures |Filter(s, p)| == SumBy(s, Indicator(p))
    decreases |s|
  {
    if |s| > 0 {
      FilterLengthIsCount(s[..|s| - 1], p);
    }
  }

  /** The term that is `f` on the elements satisfying `p` and zero on the
      others. */
  function Masked<T>(p: T -> bool, f: T -> int): T -> int
  {
    x => if p(x) then f(x) else 0
  }

  /** Summing over the filtered array is summing, over the whole array, a
      term that is zero on the elements the filter drops. */
  lemma {:induction false} SumByFilter<T>(s: seq<T>, p: T -> bool, f: T -> int)
    ensures SumBy(Filter(s, p), f) == SumBy(s, Masked(p, f))
    decreases |s|
  {
    if |s| > 0 {
      var init := s[..|s| - 1];
      var x := s[|s| - 1];
      SumByFilter(init, p, f);
      SumByAppend(Filter(init, p), if p(x) then [x] else [], f);
    }
  }

  /** A sum of non-negative terms is non-negative. */
  lemma {:induction false} SumByNonNegative<T>(s: seq<T>, f: T -> int)
    requires forall i :: 0 <= i < |s| ==> f(s[i]) >= 0
    ensures SumBy(s, f) >= 0
    decreases |s|
  {
    if |s| > 0 {
      SumByNonNegative(s[..|s| - 1], f);
    }
  }

  /** Summing only where `g` is defined never exceeds summing `f` when
      `g` is `f` or zero and `f` is non-negative. */
  lemma {:induction false} SumByDominated<T>(s: seq<T>, f: T -> int, g: T -> int)
    requires forall i :: 0 <= i < |s| ==> 0 <= g(s[i]) <= f(s[i])
    ensures 0 <= SumBy(s, g) <= SumBy(s, f)
    decreases |s|
  {
    if |s| > 0 {
      SumByDominated(s[..|s| - 1], f, g);
    }
  }

  // ---------------------------------------------------------------------
  // find and indexOf

  /** Index of the first element satisfying `p`, or -1 (`findIndex`). */
  function FindIndex<T>(s: seq<T>, p: T -> bool): (r: int)
    ensures -1 <= r < |s|
    ensures r >= 0 ==> p(s[r]) && forall j :: 0 <= j < r ==> !p(s[j])
    ensures r == -1 ==> forall j :: 0 <= j < |s| ==> !p(s[j])
    decreases |s|
  {
    if |s| == 0 then -1
    else if p(s[0]) then 0
    else
      var k := FindIndex(s[1..], p);
      if k < 0 then -1 else k + 1
  }

  /** `s.find(p)`: the first element satisfying `p`, if any. */
  function Find<T>(s: seq<T>, p: T -> bool): (r: Option<T>)
    ensures r.None? <==> forall j :: 0 <= j < |s| ==> !p(s[j])
    ensures r.Some? ==> exists i :: 0 <= i < |s| && s[i] == r.value && p(s[i])
                                  && forall j :: 0 <= j < i ==> !p(s[j])
  {
    var k := FindIndex(s, p);
    if k < 0 then None else Some(s[k])
  }

  /** `s.indexOf(x)`: the first position holding `x`, or -1. */
  function IndexOf<T(==)>(s: seq<T>, x: T): (r: int)
    ensures -1 <= r < |s|
    ensures r >= 0 ==> s[r] == x && x !in s[..r]
    ensures r == -1 <==> x !in s
    decreases |s|
  {
    if |s| == 0 then -1
    else if s[0] == x then 0
    else
      var k := IndexOf(s[1..], x);
      assert k >= 0 ==> s[..k + 1] == [s[0]] + s[1..][..k];
      if k < 0 then -1 else k + 1
  }

  // ---------------------------------------------------------------------
  // duplicate removal

  predicate NoDuplicates<T(==)>(s: seq<T>)
  {
    forall i, j :: 0 <= i < j < |s| ==> s[i] != s[j]
  }

  /** `Array.from(new Set(s))`: a set remembers insertion order, so this is
      each value once, at the position of its first occurrence. */
  function Distinct<T(==)>(s: seq<T>): seq<T>
    decreases |s|
  {
    if |s| == 0 then []
    else
      var d := Distinct(s[..|s| - 1]);
      if s[|s| - 1] in d then d else d + [s[|s| - 1]]
  }

  /** The first `n` elements of `s.filter((x, i) => s.indexOf(x) === i)`
      considered, i.e. the callback run on indices `0 .. n-1`. */
  function KeepFirstOccurrences<T(==)>(s: seq<T>, n: nat): seq<T>
    requires n <= |s|
    decreases n
  {
    if n == 0 then []
    else KeepFirstOccurrences(s, n - 1) + (if IndexOf(s, s[n - 1]) == n - 1 then [s[n - 1]] else [])
  }

  /** `s.filter((x, i) => s.indexOf(x) === i)`. */
  function DedupByIndexOf<T(==)>(s: seq<T>): seq<T>
  {
    KeepFirstOccurrences(s, |s|)
  }

  /** `Distinct` keeps exactly the values of its input, each once, in an
      order that is a subsequence of the input. */
  lemma {:induction false} DistinctProperties<T>(s: seq<T>)
    ensures forall x :: x in Distinct(s) <==> x in s
    ensures NoDuplicates(Distinct(s))
    ensures IsSubsequence(Distinct(s), s)
    decreases |s|
  {
    if |s| > 0 {
      var init := s[..|s| - 1];
      var x := s[|s| - 1];
      DistinctProperties(init);
      assert s == init + [x];
      if x in Distinct(init) {
        SubsequenceOfLonger(Distinct(init), init, x);
      } else {
        var d := Distinct(s);
        assert d[..|d| - 1] == Distinct(init);
      }
    }
  }

  /** Position `i` is the first occurrence of its value exactly when the
      value does not appear earlier. */
  lemma IndexOfIsFirst<T>(s: seq<T>, i: int)
    requires 0 <= i < |s|
    ensures IndexOf(s, s[i]) == i <==> s[i] !in s[..i]
  {
    var k := IndexOf(s, s[i]);
    assert s[i] in s;
    assert k <= i;
    assert k < i ==> s[..i][k] == s[i];
  }

  /** The `indexOf` idiom and the `Set` idiom compute the same array. */
  lemma {:induction false} DedupByIndexOfIsDistinct<T>(s: seq<T>)
    ensures DedupByIndexOf(s) == Distinct(s)
  {
    KeepFirstIsDistinctOfPrefix(s, |s|);
    assert s[..|s|] == s;
  }

  lemma {:induction false} KeepFirstIsDistinctOfPrefix<T>(s: seq<T>, n: nat)
    requires n <= |s|
    ensures KeepFirstOccurrences(s, n) == Distinct(s[..n])
    decreases n
  {
    if n > 0 {
      KeepFirstIsDistinctOfPrefix(s, n - 1);
      var init := s[..n - 1];
      assert s[..n][..n - 1] == init;
      assert s[..n][n - 1] == s[n - 1];
      DistinctProperties(init);
      IndexOfIsFirst(s, n - 1);
    }
  }
}

=== FILE: storage.dfy ===
/** The in-memory repository: seven keyed tables, each with its own id
    counter starting at 1, and every repository operation as a function
    from the store to a new store and the operation's answer. A missing id
    answers `None` (JavaScript `undefined`) or `false`, never an error.
    The `!` joins of the listing queries do not check anything at run
    time, so a joined record that is absent is kept as `None`. */
module Storage {
  import opened Common
  import opened Schema
  import Tables
  import Seqs

  datatype Store = Store(
    users: Tables.Table<User>,
    faculty: Tables.Table<Faculty>,
    subjects: Tables.Table<Subject>,
    divisions: Tables.Table<Division>,
    assignments: Tables.Table<Assignment>,
    slots: Tables.Table<Slot>,
    uploads: Tables.Table<Upload>)

  predicate Valid(s: Store)
  {
    Tables.Valid(s.users) && Tables.Valid(s.faculty) && Tables.Valid(s.subjects)
    && Tables.Valid(s.divisions) && Tables.Valid(s.assignments) && Tables.Valid(s.slots)
    && Tables.Valid(s.uploads)
  }

  /** The store as constructed, before any sample data: seven empty
      tables, every counter at 1. */
  function Init(): (s: Store)
    ensures Valid(s)
    ensures s.faculty.nextId == 1 && s.subjects.nextId == 1 && s.divisions.nextId == 1
    ensures s.assignments.nextId == 1 && s.slots.nextId == 1 && s.uploads.nextId == 1
    ensures s.users.nextId == 1
    ensures |s.faculty.rows| == 0 && |s.assignments.rows| == 0
  {
    Store(Tables.Empty(), Tables.Empty(), Tables.Empty(), Tables.Empty(),
          Tables.Empty(), Tables.Empty(), Tables.Empty())
  }

  /** A record joined with the faculty, subject and division it refers to. */
  datatype Joined<T> = Joined(record: T, faculty: Option<Faculty>, subject: Option<Subject>,
                              division: Option<Division>)

  function Records<T>(js: seq<Joined<T>>): (r: seq<T>)
    ensures |r| == |js| && forall i :: 0 <= i < |js| ==> r[i] == js[i].record
  {
    seq(|js|, i requires 0 <= i < |js| => js[i].record)
  }

  // ---------------------------------------------------------------------
  // users

  function CreateUser(s: Store, nu: NewUser): (r: (Store, User))
    ensures r.1 == User(s.users.nextId, nu.username, nu.password)
    ensures r.0 == s.(users := r.0.users) && r.0.users.nextId == s.users.nextId + 1
    ensures Valid(s) ==> (Valid(r.0) && s.users.nextId !in s.users.rows
                       && Tables.Values(r.0.users) == Tables.Values(s.users) + [r.1])
  {
    var u := User(s.users.nextId, nu.username, nu.password);
    (s.(users := Tables.Insert(s.users, u)), u)
  }

  function GetUser(s: Store, id: int): Option<User>
  {
    Tables.Get(s.users, id)
  }

  /** The first user, in id order, with the given name. */
  function GetUserByUsername(s: Store, username: string): (r: Option<User>)
    ensures r.Some? ==> r.value.username == username && r.value in Tables.Values(s.users)
    ensures r.None? <==> forall u :: u in Tables.Values(s.users) ==> u.username != username
    ensures r.Some? ==> exists i :: 0 <= i < |Tables.Values(s.users)| && Tables.Values(s.users)[i] == r.value
                                  && forall j :: 0 <= j < i ==> Tables.Values(s.users)[j].username != username
  {
    Seqs.Find(Tables.Values(s.users), (u: User) => u.username == username)
  }

  // ---------------------------------------------------------------------
  // faculty

  function AllFaculty(s: Store): seq<Faculty>
  {
    Tables.Values(s.faculty)
  }

  function GetFaculty(s: Store, id: int): Option<Faculty>
  {
    Tables.Get(s.faculty, id)
  }

  /** Stores the given fields under the current counter with
      `currentHours` 0, and advances the counter. */
  function CreateFaculty(s: Store, nf: NewFaculty): (r: (Store, Faculty))
    ensures r.1 == Faculty(s.faculty.nextId, nf.name, nf.email, nf.position, nf.department,
                           nf.maxHours, DEFAULT_CURRENT_HOURS)
    ensures r.0 == s.(faculty := r.0.faculty) && r.0.faculty.nextId == s.faculty.nextId + 1
    ensures GetFaculty(r.0, r.1.id) == Some(r.1)
    ensures forall k :: k != r.1.id ==> GetFaculty(r.0, k) == GetFaculty(s, k)
    ensures Valid(s) ==> (Valid(r.0) && GetFaculty(s, r.1.id) == None
                       && AllFaculty(r.0) == AllFaculty(s) + [r.1])
  {
    var f := Faculty(s.faculty.nextId, nf.name, nf.email, nf.position, nf.department,
                     nf.maxHours, DEFAULT_CURRENT_HOURS);
    (s.(faculty := Tables.Insert(s.faculty, f)), f)
  }

  /** `Partial<InsertFaculty>`: `None` is a key the update leaves out. */
  datatype FacultyPatch = FacultyPatch(name: Option<string>, email: Option<string>,
                                       position: Option<string>, department: Option<string>,
                                       maxHours: Option<int>)

  /** `{ ...record, ...updates }`: supplied fields replace, the rest stay;
      the id and the hour count are never part of an update. */
  function ApplyFacultyPatch(f: Faculty, p: FacultyPatch): (r: Faculty)
    ensures r.id == f.id && r.currentHours == f.currentHours
    ensures p.name.Some? ==> r.name == p.name.value
    ensures p.name.None? ==> r.name == f.name
    ensures p.email.Some? ==> r.email == p.email.value
    ensures p.email.None? ==> r.email == f.email
    ensures p.position.Some? ==> r.position == p.position.value
    ensures p.position.None? ==> r.position == f.position
    ensures p.department.Some? ==> r.department == p.department.value
    ensures p.department.None? ==> r.department == f.department
    ensures p.maxHours.Some? ==> r.maxHours == p.maxHours.value
    ensures p.maxHours.None? ==> r.maxHours == f.maxHours
  {
    Faculty(f.id, OptionOr(p.name, f.name), OptionOr(p.email, f.email),
            OptionOr(p.position, f.position), OptionOr(p.department, f.department),
            OptionOr(p.maxHours, f.maxHours), f.currentHours)
  }

  /** An empty update changes nothing, and an update applied twice is the
      update applied once. */
  lemma FacultyPatchLaws(f: Faculty, p: FacultyPatch)
    ensures ApplyFacultyPatch(f, FacultyPatch(None, None, None, None, None)) == f
    ensures ApplyFacultyPatch(ApplyFacultyPatch(f, p), p) == ApplyFacultyPatch(f, p)
  {
  }

  function UpdateFaculty(s: Store, id: int, p: FacultyPatch): (r: (Store, Option<Faculty>))
    ensures id !in s.faculty.rows ==> r == (s, None)
    ensures id in s.faculty.rows ==>
              r.1 == Some(ApplyFacultyPatch(s.faculty.rows[id], p))
              && r.0 == s.(faculty := Tables.Put(s.faculty, id, r.1.value))
  {
    match GetFaculty(s, id)
    case None => (s, None)
    case Some(f) =>
      var g := ApplyFacultyPatch(f, p);
      (s.(faculty := Tables.Put(s.faculty, id, g)), Some(g))
  }

  /** Overwrites `currentHours` and nothing else: no recomputation from
      the assignments. */
  function UpdateFacultyWorkload(s: Store, id: int, hours: int): (r: (Store, Option<Faculty>))
    ensures id !in s.faculty.rows ==> r == (s, None)
    ensures id in s.faculty.rows ==>
              r.1 == Some(s.faculty.rows[id].(currentHours := hours))
              && r.0 == s.(faculty := r.0.faculty)
              && r.0.faculty.nextId == s.faculty.nextId
              && r.0.faculty.rows == s.faculty.rows[id := r.1.value]
  {
    match GetFaculty(s, id)
    case None => (s, None)
    case Some(f) =>
      var g := f.(currentHours := hours);
      (s.(faculty := Tables.Put(s.faculty, id, g)), Some(g))
  }

  /** A faculty member with all of their assignments. */
  function GetFacultyWithWorkload(s: Store, id: int): (r: Option<(Faculty, seq<Joined<Assignment>>)>)
    ensures r.Some? <==> id in s.faculty.rows
    ensures r.Some? ==> (r.value.0 == s.faculty.rows[id]
                      && r.value.1 == AssignmentsByFaculty(s, id))
  {
    match GetFaculty(s, id)
    case None => None
    case Some(f) => Some((f, AssignmentsByFaculty(s, id)))
  }

  // ---------------------------------------------------------------------
  // subjects and divisions

  function AllSubjects(s: Store): seq<Subject>
  {
    Tables.Values(s.subjects)
  }

  function GetSubject(s: Store, id: int): Option<Subject>
  {
    Tables.Get(s.subjects, id)
  }

  function CreateSubject(s: Store, ns: NewSubject): (r: (Store, Subject))
    ensures r.1 == Subject(s.subjects.nextId, ns.name, ns.code, ns.department, ns.credits)
    ensures r.0 == s.(subjects := r.0.subjects) && r.0.subjects.nextId == s.subjects.nextId + 1
    ensures GetSubject(r.0, r.1.id) == Some(r.1)
    ensures Valid(s) ==> (Valid(r.0) && GetSubject(s, r.1.id) == None
                       && AllSubjects(r.0) == AllSubjects(s) + [r.1])
  {
    var x := Subject(s.subjects.nextId, ns.name, ns.code, ns.department, ns.credits);
    (s.(subjects := Tables.Insert(s.subjects, x)), x)
  }

  /** Exactly the subjects of one department, in listing order. */
  function SubjectsByDepartment(s: Store, department: string): (r: seq<Subject>)
    ensures forall x :: x in r <==> x in AllSubjects(s) && x.department == department
    ensures Seqs.IsSubsequence(r, AllSubjects(s))
  {
    var p := (x: Subject) => x.department == department;
    Seqs.FilterMembership(AllSubjects(s), p);
    Seqs.FilterIsSubsequence(AllSubjects(s), p);
    Seqs.Filter(AllSubjects(s), p)
  }

  function AllDivisions(s: Store): seq<Division>
  {
    Tables.Values(s.divisions)
  }

  function GetDivision(s: Store, id: int): Option<Division>
  {
    Tables.Get(s.divisions, id)
  }

  function CreateDivision(s: Store, nd: NewDivision): (r: (Store, Division))
    ensures r.1 == Division(s.divisions.nextId, nd.name, nd.department, nd.semester, nd.academicYear)
    ensures r.0 == s.(divisions := r.0.divisions) && r.0.divisions.nextId == s.divisions.nextId + 1
    ensures GetDivision(r.0, r.1.id) == Some(r.1)
    ensures Valid(s) ==> (Valid(r.0) && GetDivision(s, r.1.id) == None
                       && AllDivisions(r.0) == AllDivisions(s) + [r.1])
  {
    var x := Division(s.divisions.nextId, nd.name, nd.department, nd.semester, nd.academicYear);
    (s.(divisions := Tables.Insert(s.divisions, x)), x)
  }

  /** Exactly the divisions of one department, in listing order. */
  function DivisionsByDepartment(s: Store, department: string): (r: seq<Division>)
    ensures forall x :: x in r <==> x in AllDivisions(s) && x.department == department
    ensures Seqs.IsSubsequence(r, AllDivisions(s))
  {
    var p := (x: Division) => x.department == department;
    Seqs.FilterMembership(AllDivisions(s), p);
    Seqs.FilterIsSubsequence(AllDivisions(s), p);
    Seqs.Filter(AllDivisions(s), p)
  }

  // ---------------------------------------------------------------------
  // workload assignments

  function AssignmentRecords(s: Store): seq<Assignment>
  {
    Tables.Values(s.assignments)
  }

  function JoinAssignment(s: Store, a: Assignment): Joined<Assignment>
  {
    Joined(a, GetFaculty(s, a.facultyId), GetSubject(s, a.subjectId), GetDivision(s, a.divisionId))
  }

  function JoinAssignments(s: Store, xs: seq<Assignment>): (r: seq<Joined<Assignment>>)
    ensures Records(r) == xs
    ensures forall i :: 0 <= i < |r| ==> r[i] == JoinAssignment(s, xs[i])
  {
    seq(|xs|, i requires 0 <= i < |xs| => JoinAssignment(s, xs[i]))
  }

  function AllAssignments(s: Store): (r: seq<Joined<Assignment>>)
    ensures Records(r) == AssignmentRecords(s)
    ensures forall i :: 0 <= i < |r| ==> r[i] == JoinAssignment(s, Records(r)[i])
  {
    JoinAssignments(s, AssignmentRecords(s))
  }

  function GetAssignment(s: Store, id: int): (r: Option<Joined<Assignment>>)
    ensures r.Some? <==> id in s.assignments.rows
    ensures r.Some? ==> r.value == JoinAssignment(s, s.assignments.rows[id])
  {
    match Tables.Get(s.assignments, id)
    case None => None
    case Some(a) => Some(JoinAssignment(s, a))
  }

  /** Exactly the assignments of one faculty member, in listing order,
      each joined with that member. */
  function AssignmentsByFaculty(s: Store, facultyId: int): (r: seq<Joined<Assignment>>)
    ensures forall a :: a in Records(r) <==> a in AssignmentRecords(s) && a.facultyId == facultyId
    ensures Seqs.IsSubsequence(Records(r), AssignmentRecords(s))
    ensures forall i :: 0 <= i < |r| ==> r[i].faculty == GetFaculty(s, facultyId)
    ensures forall i :: 0 <= i < |r| ==> r[i] == JoinAssignment(s, Records(r)[i])
  {
    var p := (a: Assignment) => a.facultyId == facultyId;
    Seqs.FilterMembership(AssignmentRecords(s), p);
    Seqs.FilterIsSubsequence(AssignmentRecords(s), p);
    var sel := Seqs.Filter(AssignmentRecords(s), p);
    assert forall i :: 0 <= i < |sel| ==> sel[i] in sel;
    JoinAssignments(s, sel)
  }

  /** Stores the assignment with status "assigned" under the current
      counter. The faculty, subject and division ids are not checked, and
      no other table (in particular no faculty hour count) changes. */
  function CreateAssignment(s: Store, na: NewAssignment): (r: (Store, Assignment))
    ensures r.1 == Assignment(s.assignments.nextId, na.facultyId, na.subjectId, na.divisionId,
                              na.kind, na.hoursPerWeek, na.classroom, DEFAULT_ASSIGNMENT_STATUS)
    ensures r.0 == s.(assignments := r.0.assignments)
    ensures r.0.assignments.nextId == s.assignments.nextId + 1
    ensures r.0.assignments.rows == s.assignments.rows[r.1.id := r.1]
    ensures Valid(s) ==> (Valid(r.0) && r.1.id !in s.assignments.rows
                       && AssignmentRecords(r.0) == AssignmentRecords(s) + [r.1])
  {
    var a := Assignment(s.assignments.nextId, na.facultyId, na.subjectId, na.divisionId,
                        na.kind, na.hoursPerWeek, na.classroom, DEFAULT_ASSIGNMENT_STATUS);
    (s.(assignments := Tables.Insert(s.assignments, a)), a)
  }

  /** Overwrites `status` and nothing else. */
  function UpdateAssignmentStatus(s: Store, id: int, status: string): (r: (Store, Option<Assignment>))
    ensures id !in s.assignments.rows ==> r == (s, None)
    ensures id in s.assignments.rows ==>
              r.1 == Some(s.assignments.rows[id].(status := status))
              && r.0 == s.(assignments := r.0.assignments)
              && r.0.assignments.nextId == s.assignments.nextId
              && r.0.assignments.rows == s.assignments.rows[id := r.1.value]
  {
    match Tables.Get(s.assignments, id)
    case None => (s, None)
    case Some(a) =>
      var b := a.(status := status);
      (s.(assignments := Tables.Put(s.assignments, id, b)), Some(b))
  }

  /** True iff the id was present; removes that one assignment only. */
  function DeleteAssignment(s: Store, id: int): (r: (Store, bool))
    ensures r.1 <==> id in s.assignments.rows
    ensures r.0 == s.(assignments := r.0.assignments)
    ensures r.0.assignments.nextId == s.assignments.nextId
    ensures r.0.assignments.rows == s.assignments.rows - {id}
  {
    var (t, ok) := Tables.Remove(s.assignments, id);
    (s.(assignments := t), ok)
  }

  // ---------------------------------------------------------------------
  // timetable slots

  function SlotRecords(s: Store): seq<Slot>
  {
    Tables.Values(s.slots)
  }

  function JoinSlot(s: Store, x: Slot): Joined<Slot>
  {
    Joined(x, GetFaculty(s, x.facultyId), GetSubject(s, x.subjectId), GetDivision(s, x.divisionId))
  }

  function JoinSlots(s: Store, xs: seq<Slot>): (r: seq<Joined<Slot>>)
    ensures Records(r) == xs
    ensures forall i :: 0 <= i < |r| ==> r[i] == JoinSlot(s, xs[i])
  {
    seq(|xs|, i requires 0 <= i < |xs| => JoinSlot(s, xs[i]))
  }

  function AllSlots(s: Store): (r: seq<Joined<Slot>>)
    ensures Records(r) == SlotRecords(s)
    ensures forall i :: 0 <= i < |r| ==> r[i] == JoinSlot(s, Records(r)[i])
  {
    JoinSlots(s, SlotRecords(s))
  }

  /** Exactly the slots of one division, in listing order, each joined
      with its faculty member, subject and division. */
  function SlotsByDivision(s: Store, divisionId: int): (r: seq<Joined<Slot>>)
    ensures forall x :: x in Records(r) <==> x in SlotRecords(s) && x.divisionId == divisionId
    ensures Seqs.IsSubsequence(Records(r), SlotRecords(s))
    ensures forall i :: 0 <= i < |r| ==> r[i] == JoinSlot(s, Records(r)[i])
  {
    var p := (x: Slot) => x.divisionId == divisionId;
    Seqs.FilterMembership(SlotRecords(s), p);
    Seqs.FilterIsSubsequence(SlotRecords(s), p);
    JoinSlots(s, Seqs.Filter(SlotRecords(s), p))
  }

  /** Exactly the slots of one faculty member, in listing order, each
      joined with its faculty member, subject and division. */
  function SlotsByFaculty(s: Store, facultyId: int): (r: seq<Joined<Slot>>)
    ensures forall x :: x in Records(r) <==> x in SlotRecords(s) && x.facultyId == facultyId
    ensures Seqs.IsSubsequence(Records(r), SlotRecords(s))
    ensures forall i :: 0 <= i < |r| ==> r[i] == JoinSlot(s, Records(r)[i])
  {
    var p := (x: Slot) => x.facultyId == facultyId;
    Seqs.FilterMembership(SlotRecords(s), p);
    Seqs.FilterIsSubsequence(SlotRecords(s), p);
    JoinSlots(s, Seqs.Filter(SlotRecords(s), p))
  }

  function CreateSlot(s: Store, ns: NewSlot): (r: (Store, Slot))
    ensures r.1 == Slot(s.slots.nextId, ns.divisionId, ns.facultyId, ns.subjectId, ns.dayOfWeek,
                        ns.startTime, ns.endTime, ns.classroom, ns.kind)
    ensures r.0 == s.(slots := r.0.slots) && r.0.slots.nextId == s.slots.nextId + 1
    ensures r.0.slots.rows == s.slots.rows[r.1.id := r.1]
    ensures Valid(s) ==> (Valid(r.0) && r.1.id !in s.slots.rows
                       && SlotRecords(r.0) == SlotRecords(s) + [r.1])
  {
    var x := Slot(s.slots.nextId, ns.divisionId, ns.facultyId, ns.subjectId, ns.dayOfWeek,
                  ns.startTime, ns.endTime, ns.classroom, ns.kind);
    (s.(slots := Tables.Insert(s.slots, x)), x)
  }

  /** `Partial<InsertTimetableSlot>`. */
  datatype SlotPatch = SlotPatch(divisionId: Option<int>, facultyId: Option<int>,
                                 subjectId: Option<int>, dayOfWeek: Option<int>,
                                 startTime: Option<string>, endTime: Option<string>,
                                 classroom: Option<string>, kind: Option<string>)

  function ApplySlotPatch(x: Slot, p: SlotPatch): (r: Slot)
    ensures r.id == x.id
    ensures p.divisionId.Some? ==> r.divisionId == p.divisionId.value
    ensures p.divisionId.None? ==> r.divisionId == x.divisionId
    ensures p.facultyId.Some? ==> r.facultyId == p.facultyId.value
    ensures p.facultyId.None? ==> r.facultyId == x.facultyId
    ensures p.subjectId.Some? ==> r.subjectId == p.subjectId.value
    ensures p.subjectId.None? ==> r.subjectId == x.subjectId
    ensures p.dayOfWeek.Some? ==> r.dayOfWeek == p.dayOfWeek.value
    ensures p.dayOfWeek.None? ==> r.dayOfWeek == x.dayOfWeek
    ensures p.startTime.Some? ==> r.startTime == p.startTime.value
    ensures p.startTime.None? ==> r.startTime == x.startTime
    ensures p.endTime.Some? ==> r.endTime == p.endTime.value
    ensures p.endTime.None? ==> r.endTime == x.endTime
    ensures p.classroom.Some? ==> r.classroom == p.classroom.value
    ensures p.classroom.None? ==> r.classroom == x.classroom
    ensures p.kind.Some? ==> r.kind == p.kind.value
    ensures p.kind.None? ==> r.kind == x.kind
  {
    Slot(x.id, OptionOr(p.divisionId, x.divisionId), OptionOr(p.facultyId, x.facultyId),
         OptionOr(p.subjectId, x.subjectId), OptionOr(p.dayOfWeek, x.dayOfWeek),
         OptionOr(p.startTime, x.startTime), OptionOr(p.endTime, x.endTime),
         OptionOr(p.classroom, x.classroom), OptionOr(p.kind, x.kind))
  }

  function UpdateSlot(s: Store, id: int, p: SlotPatch): (r: (Store, Option<Slot>))
    ensures id !in s.slots.rows ==> r == (s, None)
    ensures id in s.slots.rows ==>
              r.1 == Some(ApplySlotPatch(s.slots.rows[id], p))
              && r.0 == s.(slots := Tables.Put(s.slots, id, r.1.value))
  {
    match Tables.Get(s.slots, id)
    case None => (s, None)
    case Some(x) =>
      var y := ApplySlotPatch(x, p);
      (s.(slots := Tables.Put(s.slots, id, y)), Some(y))
  }

  function DeleteSlot(s: Store, id: int): (r: (Store, bool))
    ensures r.1 <==> id in s.slots.rows
    ensures r.0 == s.(slots := r.0.slots)
    ensures r.0.slots.nextId == s.slots.nextId && r.0.slots.rows == s.slots.rows - {id}
  {
    var (t, ok) := Tables.Remove(s.slots, id);
    (s.(slots := t), ok)
  }

  // ---------------------------------------------------------------------
  // upload records

  function AllUploads(s: Store): seq<Upload>
  {
    Tables.Values(s.uploads)
  }

  /** A new upload starts "processing" with 0 of 0 rows; `now` is the
      clock reading taken for `uploadedAt`. */
  function CreateUpload(s: Store, nu: NewUpload, now: int): (r: (Store, Upload))
    ensures r.1 == Upload(s.uploads.nextId, nu.filename, nu.originalName, nu.fileSize,
                          DEFAULT_UPLOAD_STATUS, now, DEFAULT_ROW_COUNT, DEFAULT_ROW_COUNT)
    ensures r.0 == s.(uploads := r.0.uploads) && r.0.uploads.nextId == s.uploads.nextId + 1
    ensures r.0.uploads.rows == s.uploads.rows[r.1.id := r.1]
    ensures Valid(s) ==> (Valid(r.0) && r.1.id !in s.uploads.rows
                       && AllUploads(r.0) == AllUploads(s) + [r.1])
  {
    var u := Upload(s.uploads.nextId, nu.filename, nu.originalName, nu.fileSize,
                    DEFAULT_UPLOAD_STATUS, now, DEFAULT_ROW_COUNT, DEFAULT_ROW_COUNT);
    (s.(uploads := Tables.Insert(s.uploads, u)), u)
  }

  /** Always sets the status; replaces a row count only when one is
      supplied (`None` is an argument left `undefined`). */
  function UpdateUploadStatus(s: Store, id: int, status: string,
                              processedRows: Option<int>, totalRows: Option<int>): (r: (Store, Option<Upload>))
    ensures id !in s.uploads.rows ==> r == (s, None)
    ensures id in s.uploads.rows ==>
              var u := s.uploads.rows[id];
              r.1.Some? && r.1.value.status == status
              && (processedRows.Some? ==> r.1.value.processedRows == processedRows.value)
              && (processedRows.None? ==> r.1.value.processedRows == u.processedRows)
              && (totalRows.Some? ==> r.1.value.totalRows == totalRows.value)
              && (totalRows.None? ==> r.1.value.totalRows == u.totalRows)
              && r.1.value.(status := u.status, processedRows := u.processedRows, totalRows := u.totalRows) == u
              && r.0 == s.(uploads := Tables.Put(s.uploads, id, r.1.value))
  {
    match Tables.Get(s.uploads, id)
    case None => (s, None)
    case Some(u) =>
      var v := u.(status := status, processedRows := OptionOr(processedRows, u.processedRows),
                  totalRows := OptionOr(totalRows, u.totalRows));
      (s.(uploads := Tables.Put(s.uploads, id, v)), Some(v))
  }

  // ---------------------------------------------------------------------
  // dashboard counters

  /** `avgWorkloadTenths` is the average hour count in tenths of an hour:
      the reported figure is `avgWorkloadTenths / 10`. */
  datatype Stats = Stats(totalFaculty: int, activeCourses: int, pendingTasks: int,
                         avgWorkloadTenths: int)

  predicate IsPending(a: Assignment)
  {
    a.status == "pending"
  }

  function CurrentHours(f: Faculty): int
  {
    f.currentHours
  }

  /** The sum of all faculty hour counts. */
  function TotalHours(s: Store): int
  {
    Seqs.SumBy(AllFaculty(s), CurrentHours)
  }

  /** The average rounded to the nearest tenth, halves upward, as
      `Math.round(avg * 10) / 10` does (exact arithmetic; see README). */
  function RoundedTenths(total: int, count: int): (t: int)
    requires count > 0
    ensures 2 * count * t <= 20 * total + count < 2 * count * (t + 1)
  {
    (20 * total + count) / (2 * count)
  }

  function DashboardStats(s: Store): (r: Stats)
    ensures r.totalFaculty == |s.faculty.rows| && r.activeCourses == |s.subjects.rows|
    ensures r.pendingTasks == Seqs.SumBy(AssignmentRecords(s), Seqs.Indicator(IsPending))
    ensures 0 <= r.pendingTasks <= |AssignmentRecords(s)|
    ensures |AllFaculty(s)| == 0 ==> r.avgWorkloadTenths == 0
    ensures |AllFaculty(s)| > 0 ==>
              var n := |AllFaculty(s)|;
              2 * n * r.avgWorkloadTenths <= 20 * TotalHours(s) + n < 2 * n * (r.avgWorkloadTenths + 1)
    ensures Valid(s) ==> |AllFaculty(s)| == r.totalFaculty
  {
    assert Valid(s) ==> |AllFaculty(s)| == |s.faculty.rows| by {
      if Valid(s) {
        Tables.ValuesLength(s.faculty);
      }
    }
    var pending := Seqs.Filter(AssignmentRecords(s), IsPending);
    Seqs.FilterLengthIsCount(AssignmentRecords(s), IsPending);
    var n := |AllFaculty(s)|;
    Stats(|s.faculty.rows|, |s.subjects.rows|, |pending|,
          if n > 0 then RoundedTenths(TotalHours(s), n) else 0)
  }

  // ---------------------------------------------------------------------
  // hour counts versus assignments

  /** The term an assignment contributes to faculty member `facultyId`'s
      assigned hours. */
  function HoursFor(facultyId: int): Assignment -> int
  {
    (a: Assignment) => if a.facultyId == facultyId then a.hoursPerWeek else 0
  }

  /** The hours of all stored assignments of one faculty member. */
  function AssignedHours(s: Store, facultyId: int): int
  {
    Seqs.SumBy(AssignmentRecords(s), HoursFor(facultyId))
  }

  /** Every faculty member's hour count is the sum of their assignments'
      hours. The repository does not maintain this; see module Routes for
      when the handlers preserve it. */
  predicate HoursConsistent(s: Store)
  {
    forall id :: id in s.faculty.rows ==> s.faculty.rows[id].currentHours == AssignedHours(s, id)
  }

  /** Creating an assignment never changes the pending count: new
      assignments start "assigned". */
  lemma PendingUnchangedByCreate(s: Store, na: NewAssignment)
    requires Valid(s)
    ensures DashboardStats(CreateAssignment(s, na).0).pendingTasks == DashboardStats(s).pendingTasks
  {
    var a := CreateAssignment(s, na).1;
    Tables.SumInsert(s.assignments, a, Seqs.Indicator(IsPending));
  }

  /** A status change moves the pending count by at most one, exactly as
      the old and new status say. */
  lemma PendingAfterStatusUpdate(s: Store, id: int, status: string)
    requires Valid(s) && id in s.assignments.rows
    ensures var before := DashboardStats(s).pendingTasks;
            var after := DashboardStats(UpdateAssignmentStatus(s, id, status).0).pendingTasks;
            after == before - (if s.assignments.rows[id].status == "pending" then 1 else 0)
                            + (if status == "pending" then 1 else 0)
  {
    var a := s.assignments.rows[id];
    Tables.SumPut(s.assignments, id, a.(status := status), Seqs.Indicator(IsPending));
  }

  /** Deleting a pending assignment lowers the pending count by one;
      deleting any other leaves it. */
  lemma PendingAfterDelete(s: Store, id: int)
    requires Valid(s) && id in s.assignments.rows
    ensures var before := DashboardStats(s).pendingTasks;
            var after := DashboardStats(DeleteAssignment(s, id).0).pendingTasks;
            after == before - (if s.assignments.rows[id].status == "pending" then 1 else 0)
  {
    Tables.SumRemove(s.assignments, id, Seqs.Indicator(IsPending));
  }
}

=== FILE: tables.dfy ===
/** One keyed table of the in-memory store: a `Map<number, Record>` with
    its own id counter. Records are only ever added under the current
    counter, which is then incremented, and a JavaScript `Map` iterates in
    insertion order (overwriting an existing key keeps its place), so the
    iteration order of a table is ascending id order. */
module Tables {
  import opened Common
  import Seqs

  datatype Table<T> = Table(rows: map<int, T>, nextId: int)

  /** The counter starts at 1 and every stored id lies below it. */
  predicate Valid<T>(t: Table<T>)
  {
    t.nextId >= 1 && forall k :: k in t.rows ==> 1 <= k < t.nextId
  }

  /** A table as constructed: empty, counter at 1. */
  function Empty<T>(): (t: Table<T>)
    ensures Valid(t) && |t.rows| == 0 && t.nextId == 1
  {
    Table(map[], 1)
  }

  /** The records whose ids lie in `[1, n)`, in ascending id order. */
  function Ascending<T>(rows: map<int, T>, n: int): seq<T>
    decreases n
  {
    if n <= 1 then []
    else Ascending(rows, n - 1) + (if n - 1 in rows then [rows[n - 1]] else [])
  }

  /** `Array.from(map.values())`. */
  function Values<T>(t: Table<T>): seq<T>
  {
    Ascending(t.rows, t.nextId)
  }

  /** `map.get(id)`: `None` stands for `undefined`. */
  function Get<T>(t: Table<T>, id: int): (r: Option<T>)
    ensures r.Some? <==> id in t.rows
    ensures r.Some? ==> r.value == t.rows[id]
  {
    if id in t.rows then Some(t.rows[id]) else None
  }

  /** `map.set(currentId++, v)`. */
  function Insert<T>(t: Table<T>, v: T): (r: Table<T>)
    ensures r.nextId == t.nextId + 1
    ensures t.nextId in r.rows && r.rows[t.nextId] == v
    ensures forall k :: k != t.nextId ==> (k in r.rows <==> k in t.rows)
    ensures forall k :: k in t.rows && k != t.nextId ==> r.rows[k] == t.rows[k]
    ensures Valid(t) ==> Valid(r) && t.nextId !in t.rows && Values(r) == Values(t) + [v]
  {
    var r := Table(t.rows[t.nextId := v], t.nextId + 1);
    AscendingAgree(t.rows, r.rows, t.nextId);
    r
  }

  /** `map.set(id, v)` on an id that is already present (the stores only
      overwrite after a successful `get`). */
  function Put<T>(t: Table<T>, id: int, v: T): (r: Table<T>)
    requires id in t.rows
    ensures r.nextId == t.nextId && r.rows.Keys == t.rows.Keys && r.rows[id] == v
    ensures forall k :: k in t.rows && k != id ==> r.rows[k] == t.rows[k]
    ensures Valid(t) ==> Valid(r)
  {
    Table(t.rows[id := v], t.nextId)
  }

  /** `map.delete(id)`: true iff the id was present; the counter is kept. */
  function Remove<T>(t: Table<T>, id: int): (r: (Table<T>, bool))
    ensures r.1 <==> id in t.rows
    ensures r.0.nextId == t.nextId && r.0.rows.Keys == t.rows.Keys - {id}
    ensures forall k :: k in r.0.rows ==> r.0.rows[k] == t.rows[k]
    ensures Valid(t) ==> Valid(r.0)
  {
    (Table(t.rows - {id}, t.nextId), id in t.rows)
  }

  // ---------------------------------------------------------------------
  // iteration order

  /** `Ascending` depends only on the entries below `n`. */
  lemma {:induction false} AscendingAgree<T>(a: map<int, T>, b: map<int, T>, n: int)
    requires forall k :: k < n ==> (k in a <==> k in b)
    requires forall k :: k < n && k in a ==> a[k] == b[k]
    ensures Ascending(a, n) == Ascending(b, n)
    decreases n
  {
    if n > 1 {
      AscendingAgree(a, b, n - 1);
    }
  }

  /** A record is listed iff it is stored under some id in range. */
  lemma {:induction false} AscendingMembership<T>(rows: map<int, T>, n: int, x: T)
    ensures x in Ascending(rows, n) <==> exists k :: 1 <= k < n && k in rows && rows[k] == x
    decreases n
  {
    if n > 1 {
      AscendingMembership(rows, n - 1, x);
      if n - 1 in rows && rows[n - 1] == x {
        assert x in Ascending(rows, n);
      }
    }
  }

  /** On a valid table, the listed records are exactly the stored ones. */
  lemma ValuesMembership<T>(t: Table<T>, x: T)
    requires Valid(t)
    ensures x in Values(t) <==> exists k :: k in t.rows && t.rows[k] == x
  {
    AscendingMembership(t.rows, t.nextId, x);
  }

  /** The listing has one entry per id in `[1, n)` that holds a record. */
  lemma {:induction false} AscendingLength<T>(rows: map<int, T>, n: int)
    ensures |Ascending(rows, n)| == |set k | k in rows && 1 <= k < n|
    decreases n
  {
    if n <= 1 {
      assert (set k | k in rows && 1 <= k < n) == {};
    } else {
      AscendingLength(rows, n - 1);
      var below := set k | k in rows && 1 <= k < n - 1;
      var upTo := set k | k in rows && 1 <= k < n;
      if n - 1 in rows {
        assert upTo == below + {n - 1};
      } else {
        assert upTo == below;
      }
    }
  }

  /** On a valid table `values()` has as many entries as the map has keys,
      i.e. the map's `size`. */
  lemma ValuesLength<T>(t: Table<T>)
    requires Valid(t)
    ensures |Values(t)| == |t.rows|
  {
    AscendingLength(t.rows, t.nextId);
    assert (set k | k in t.rows && 1 <= k < t.nextId) == t.rows.Keys;
  }

  /** Overwriting one present record changes any sum over the listing by
      exactly the difference of the two records' terms. */
  lemma {:induction false} AscendingSumPut<T>(rows: map<int, T>, n: int, id: int, v: T, f: T -> int)
    requires id in rows
    ensures Seqs.SumBy(Ascending(rows[id := v], n), f)
         == Seqs.SumBy(Ascending(rows, n), f) + (if 1 <= id < n then f(v) - f(rows[id]) else 0)
    decreases n
  {
    if n > 1 {
      AscendingSumPut(rows, n - 1, id, v, f);
      var a := Ascending(rows[id := v], n - 1);
      var b := Ascending(rows, n - 1);
      var ta := if n - 1 in rows[id := v] then [rows[id := v][n - 1]] else [];
      var tb := if n - 1 in rows then [rows[n - 1]] else [];
      Seqs.SumByAppend(a, ta, f);
      Seqs.SumByAppend(b, tb, f);
    }
  }

  /** Deleting one present record lowers any sum over the listing by that
      record's term. */
  lemma {:induction false} AscendingSumRemove<T>(rows: map<int, T>, n: int, id: int, f: T -> int)
    requires id in rows
    ensures Seqs.SumBy(Ascending(rows - {id}, n), f)
         == Seqs.SumBy(Ascending(rows, n), f) - (if 1 <= id < n then f(rows[id]) else 0)
    decreases n
  {
    if n > 1 {
      AscendingSumRemove(rows, n - 1, id, f);
      var a := Ascending(rows - {id}, n - 1);
      var b := Ascending(rows, n - 1);
      var ta := if n - 1 != id && n - 1 in rows then [rows[n - 1]] else [];
      var tb := if n - 1 in rows then [rows[n - 1]] else [];
      assert Ascending(rows - {id}, n) == a + ta;
      assert Ascending(rows, n) == b + tb;
      Seqs.SumByAppend(a, ta, f);
      Seqs.SumByAppend(b, tb, f);
    }
  }

  lemma SumPut<T>(t: Table<T>, id: int, v: T, f: T -> int)
    requires Valid(t) && id in t.rows
    ensures Seqs.SumBy(Values(Put(t, id, v)), f) == Seqs.SumBy(Values(t), f) + f(v) - f(t.rows[id])
  {
    AscendingSumPut(t.rows, t.nextId, id, v, f);
  }

  lemma SumRemove<T>(t: Table<T>, id: int, f: T -> int)
    requires Valid(t) && id in t.rows
    ensures Seqs.SumBy(Values(Remove(t, id).0), f) == Seqs.SumBy(Values(t), f) - f(t.rows[id])
  {
    AscendingSumRemove(t.rows, t.nextId, id, f);
  }

  lemma SumInsert<T>(t: Table<T>, v: T, f: T -> int)
    requires Valid(t)
    ensures Seqs.SumBy(Values(Insert(t, v)), f) == Seqs.SumBy(Values(t), f) + f(v)
  {
    Seqs.SumByAppend(Values(t), [v], f);
  }

  // ---------------------------------------------------------------------
  // id allocation

  /** Two inserts in a row receive consecutive, increasing, fresh ids. */
  lemma IdsIncrease<T>(t: Table<T>, v: T)
    requires Valid(t)
    ensures var t1 := Insert(t, v);
            t.nextId !in t.rows && t1.nextId !in t1.rows && t.nextId < t1.nextId
  {
  }

  /** An id is never reused: after deleting record `id`, the next insert
      stores under a different id and `id` stays absent. */
  lemma NoReuseAfterRemove<T>(t: Table<T>, id: int, v: T)
    requires Valid(t) && id in t.rows
    ensures var t1 := Insert(Remove(t, id).0, v);
            t.nextId != id && id !in t1.rows && t1.rows[t.nextId] == v
  {
  }
}

=== FILE: text.dfy ===
/** String operations the application performs through JavaScript's
    built-ins: case mapping (ASCII only), `includes`, `split`/`join` on a
    one-character separator, `Number.prototype.toString` on integers and
    the global `parseInt` with its default radix. */
module Text {
  import Js

  // ---------------------------------------------------------------------
  // Case mapping (ASCII letters only; other characters are unchanged)

  function LowerChar(c: char): char
  {
    if 'A' <= c <= 'Z' then (c as int + 32) as char else c
  }

  function UpperChar(c: char): char
  {
    if 'a' <= c <= 'z' then (c as int - 32) as char else c
  }

  function ToLower(s: string): (r: string)
    ensures |r| == |s|
    ensures forall i :: 0 <= i < |s| ==> r[i] == LowerChar(s[i])
    decreases |s|
  {
    if |s| == 0 then "" else [LowerChar(s[0])] + ToLower(s[1..])
  }

  function ToUpper(s: string): (r: string)
    ensures |r| == |s|
    ensures forall i :: 0 <= i < |s| ==> r[i] == UpperChar(s[i])
    decreases |s|
  {
    if |s| == 0 then "" else [UpperChar(s[0])] + ToUpper(s[1..])
  }

  /** Lower-casing is idempotent, so searching an already lower-cased
      string with a lower-cased term is stable. */
  lemma ToLowerIdempotent(s: string)
    ensures ToLower(ToLower(s)) == ToLower(s)
  {
    assert forall i :: 0 <= i < |s| ==> LowerChar(LowerChar(s[i])) == LowerChar(s[i]);
  }

  // ---------------------------------------------------------------------
  // String.prototype.includes

  predicate IsPrefix(p: string, s: string)
  {
    |p| <= |s| && s[..|p|] == p
  }

  /** `s.includes(t)`: `t` occurs in `s` at some position. */
  predicate Includes(s: string, t: string)
    decreases |s|
  {
    IsPrefix(t, s) || (|s| > 0 && Includes(s[1..], t))
  }

  /** `t` occurs in `s` starting at index `i`. */
  predicate OccursAt(s: string, t: string, i: int)
  {
    0 <= i && i + |t| <= |s| && s[i..i + |t|] == t
  }

  /** `Includes` agrees with the positional definition of a substring. */
  lemma {:induction false} IncludesIff(s: string, t: string)
    ensures Includes(s, t) <==> exists i :: OccursAt(s, t, i)
    decreases |s|
  {
    if IsPrefix(t, s) {
      assert OccursAt(s, t, 0);
    } else if |s| > 0 {
      IncludesIff(s[1..], t);
      if Includes(s[1..], t) {
        var i :| OccursAt(s[1..], t, i);
        assert s[1..][i..i + |t|] == s[i + 1..i + 1 + |t|];
        assert OccursAt(s, t, i + 1);
      } else {
        forall i | 0 <= i && i + |t| <= |s|
          ensures !OccursAt(s, t, i)
        {
          if i == 0 {
            assert s[0..0 + |t|] == s[..|t|];
          } else {
            assert s[i..i + |t|] == s[1..][i - 1..i - 1 + |t|];
            assert !OccursAt(s[1..], t, i - 1);
          }
        }
      }
    }
  }

  /** The empty string is included in every string. */
  lemma IncludesEmpty(s: string)
    ensures Includes(s, "")
  {
    assert IsPrefix("", s);
  }

  /** `a.toLowerCase().includes(b.toLowerCase())`. */
  predicate IncludesIgnoringCase(s: string, term: string)
  {
    Includes(ToLower(s), ToLower(term))
  }

  // ---------------------------------------------------------------------
  // split / join on a one-character separator

  /** `s.split(sep)`: the maximal separator-free pieces, in order; an empty
      string gives one empty piece. */
  function Split(s: string, sep: char): (r: seq<string>)
    ensures |r| >= 1
    decreases |s|
  {
    if |s| == 0 then [""]
    else
      var rest := Split(s[1..], sep);
      if s[0] == sep then [""] + rest
      else [[s[0]] + rest[0]] + rest[1..]
  }

  /** `parts.join(sep)`; the empty array joins to the empty string. */
  function Join(parts: seq<string>, sep: char): string
    decreases |parts|
  {
    if |parts| == 0 then ""
    else if |parts| == 1 then parts[0]
    else parts[0] + [sep] + Join(parts[1..], sep)
  }

  /** No piece produced by `Split` contains the separator. */
  lemma {:induction false} SplitPiecesFree(s: string, sep: char)
    ensures forall i :: 0 <= i < |Split(s, sep)| ==> sep !in Split(s, sep)[i]
    decreases |s|
  {
    if |s| > 0 {
      SplitPiecesFree(s[1..], sep);
    }
  }

  /** Joining the pieces of a split restores the original string. */
  lemma {:induction false} JoinSplit(s: string, sep: char)
    ensures Join(Split(s, sep), sep) == s
    decreases |s|
  {
    if |s| > 0 {
      var rest := Split(s[1..], sep);
      JoinSplit(s[1..], sep);
      if s[0] == sep {
        assert Split(s, sep) == [""] + rest;
        assert ([""] + rest)[1..] == rest;
      } else {
        var r := Split(s, sep);
        assert r == [[s[0]] + rest[0]] + rest[1..];
        if |rest| == 1 {
          assert Join(r, sep) == [s[0]] + rest[0];
        } else {
          assert r[1..] == rest[1..];
          assert Join(rest, sep) == rest[0] + [sep] + Join(rest[1..], sep);
          assert Join(r, sep) == [s[0]] + rest[0] + [sep] + Join(rest[1..], sep);
        }
        assert [s[0]] + s[1..] == s;
      }
    }
  }

  /** A separator-free prefix glues onto the first piece. */
  lemma {:induction false} SplitGlue(a: string, t: string, sep: char)
    requires sep !in a
    ensures Split(a + t, sep) == [a + Split(t, sep)[0]] + Split(t, sep)[1..]
    decreases |a|
  {
    if |a| == 0 {
      var x := Split(t, sep);
      assert a + t == t;
      assert a + x[0] == x[0];
      assert [x[0]] + x[1..] == x;
    } else {
      assert (a + t)[0] == a[0];
      assert (a + t)[1..] == a[1..] + t;
      SplitGlue(a[1..], t, sep);
      assert [a[0]] + (a[1..] + Split(t, sep)[0]) == a + Split(t, sep)[0];
    }
  }

  /** Splitting a join of separator-free pieces gives the pieces back. */
  lemma {:induction false} SplitJoin(parts: seq<string>, sep: char)
    requires |parts| >= 1
    requires forall i :: 0 <= i < |parts| ==> sep !in parts[i]
    ensures Split(Join(parts, sep), sep) == parts
    decreases |parts|
  {
    if |parts| == 1 {
      SplitGlue(parts[0], "", sep);
      assert parts[0] + "" == parts[0];
    } else {
      var tail := Join(parts[1..], sep);
      SplitJoin(parts[1..], sep);
      assert Join(parts, sep) == parts[0] + ([sep] + tail);
      SplitGlue(parts[0], [sep] + tail, sep);
      assert ([sep] + tail)[1..] == tail;
      assert Split([sep] + tail, sep) == [""] + parts[1..];
      assert parts[0] + "" == parts[0];
    }
  }

  // ---------------------------------------------------------------------
  // Number.prototype.toString on integers (plain decimal notation)

  function DigitChar(d: int): (c: char)
    requires 0 <= d < 10
    ensures '0' <= c <= '9'
    ensures DigitValue(c) == d
  {
    ('0' as int + d) as char
  }

  function NatToString(n: nat): (r: string)
    decreases n
  {
    (if n < 10 then "" else NatToString(n / 10)) + [DigitChar(n % 10)]
  }

  /** `n.toString()` for an integer `n`. */
  function IntToString(n: int): string
  {
    if n < 0 then "-" + NatToString(-n) else NatToString(n)
  }

  // ---------------------------------------------------------------------
  // parseInt(s) with no radix argument

  /** The white space and line terminators `parseInt` skips at the start. */
  predicate IsJsSpace(c: char)
  {
    c == ' ' || c == '\t' || c == '\n' || c == '\r' || c == '\U{000B}' || c == '\U{000C}'
    || c == '\U{00A0}' || c == '\U{1680}' || ('\U{2000}' <= c <= '\U{200A}')
    || c == '\U{2028}' || c == '\U{2029}' || c == '\U{202F}' || c == '\U{205F}'
    || c == '\U{3000}' || c == '\U{FEFF}'
  }

  function TrimStart(s: string): (r: string)
    ensures |r| <= |s| && r == s[|s| - |r|..]
    ensures |r| > 0 ==> !IsJsSpace(r[0])
    decreases |s|
  {
    if |s| > 0 && IsJsSpace(s[0]) then TrimStart(s[1..]) else s
  }

  /** The value of a digit character in radix 36, or -1 for a non-digit. */
  function DigitValue(c: char): (d: int)
    ensures -1 <= d < 36
  {
    if '0' <= c <= '9' then c as int - '0' as int
    else if 'a' <= c <= 'z' then c as int - 'a' as int + 10
    else if 'A' <= c <= 'Z' then c as int - 'A' as int + 10
    else -1
  }

  predicate IsDigitIn(c: char, radix: int)
  {
    0 <= DigitValue(c) < radix
  }

  /** Length of the longest prefix of `s` made of digits of `radix`. */
  function DigitRun(s: string, radix: int): (k: nat)
    ensures k <= |s|
    ensures forall i :: 0 <= i < k ==> IsDigitIn(s[i], radix)
    ensures k < |s| ==> !IsDigitIn(s[k], radix)
    decreases |s|
  {
    if |s| == 0 || !IsDigitIn(s[0], radix) then 0 else 1 + DigitRun(s[1..], radix)
  }

  /** The number written by a string of digits, most significant first. */
  function DigitsValue(s: string, radix: int): (v: int)
    requires radix >= 2
    requires forall i :: 0 <= i < |s| ==> IsDigitIn(s[i], radix)
    ensures v >= 0
    decreases |s|
  {
    if |s| == 0 then 0
    else
      var high := DigitsValue(s[..|s| - 1], radix);
      assert high * radix >= 0;
      assert IsDigitIn(s[|s| - 1], radix);
      high * radix + DigitValue(s[|s| - 1])
  }

  /** The digits part of `parseInt`: the longest run of digits of `radix`
      at the start of `body`, or `NaN` when there is none. */
  function ParseDigits(body: string, radix: int, negative: bool): (r: Js.Value)
    requires radix >= 2
    ensures r.Num? || r.NaN?
  {
    var k := DigitRun(body, radix);
    if k == 0 then Js.NaN
    else
      var v := DigitsValue(body[..k], radix);
      Js.Num(if negative then -v else v)
  }

  /** `parseInt` after the sign: a `0x`/`0X` prefix selects radix 16. */
  function ParseUnsigned(u: string, negative: bool): (r: Js.Value)
    ensures r.Num? || r.NaN?
  {
    if |u| >= 2 && u[0] == '0' && (u[1] == 'x' || u[1] == 'X') then ParseDigits(u[2..], 16, negative)
    else ParseDigits(u, 10, negative)
  }

  /** JavaScript's `parseInt(s)`: skip leading white space, read an optional
      sign, switch to radix 16 after a `0x`/`0X` prefix, then read the
      longest run of digits; no digits at all gives `NaN`. Trailing
      characters are ignored. */
  function ParseInt(s: string): (r: Js.Value)
    ensures r.Num? || r.NaN?
  {
    var t := TrimStart(s);
    if |t| > 0 && t[0] == '-' then ParseUnsigned(t[1..], true)
    else if |t| > 0 && t[0] == '+' then ParseUnsigned(t[1..], false)
    else ParseUnsigned(t, false)
  }

  /** `parseInt("")` is `NaN`, which is falsy. */
  lemma ParseIntEmpty()
    ensures ParseInt("") == Js.NaN
    ensures !Js.Truthy(ParseInt(""))
  {
  }

  /** Every character of a decimal rendering is a decimal digit and the
      digits denote the number rendered. */
  lemma {:induction false} NatToStringDigits(n: nat)
    ensures |NatToString(n)| >= 1
    ensures forall i :: 0 <= i < |NatToString(n)| ==> IsDigitIn(NatToString(n)[i], 10)
    ensures DigitsValue(NatToString(n), 10) == n
    decreases n
  {
    var s := NatToString(n);
    var c := DigitChar(n % 10);
    if n < 10 {
      assert s == [c];
      assert s[..0] == "";
    } else {
      var x := NatToString(n / 10);
      NatToStringDigits(n / 10);
      assert s == x + [c];
      assert s[..|s| - 1] == x;
    }
  }

  /** A run consisting only of decimal digits is read completely. */
  lemma DigitRunAll(u: string)
    requires forall i :: 0 <= i < |u| ==> IsDigitIn(u[i], 10)
    ensures DigitRun(u, 10) == |u|
  {
  }

  /** A string of digits whose second character cannot start a `0x`
      prefix is read in radix 10 after any sign. */
  predicate DecimalLead(u: string)
  {
    |u| >= 1 && IsDigitIn(u[0], 10) && (|u| >= 2 ==> u[1] != 'x' && u[1] != 'X')
  }

  lemma ParseUnsignedDecimal(u: string, negative: bool)
    requires DecimalLead(u)
    ensures ParseUnsigned(u, negative) == ParseDigits(u, 10, negative)
  {
  }

  /** A string made only of digits is read completely. */
  lemma ParseDigitsAll(u: string, negative: bool)
    requires |u| >= 1 && forall i :: 0 <= i < |u| ==> IsDigitIn(u[i], 10)
    ensures ParseDigits(u, 10, negative) == Js.Num(if negative then -DigitsValue(u, 10) else DigitsValue(u, 10))
  {
    DigitRunAll(u);
    assert u[..|u|] == u;
  }

  /** A decimal rendering starts like a decimal number. */
  lemma NatToStringLead(m: nat)
    ensures DecimalLead(NatToString(m))
    ensures forall i :: 0 <= i < |NatToString(m)| ==> IsDigitIn(NatToString(m)[i], 10)
    ensures DigitsValue(NatToString(m), 10) == m
  {
    var u := NatToString(m);
    NatToStringDigits(m);
    if |u| >= 2 {
      assert IsDigitIn(u[1], 10);
    }
  }

  /** A string that starts with neither white space, a sign nor a digit
      does not parse. */
  lemma ParseIntOfNonDigit(s: string)
    requires |s| > 0 && !IsJsSpace(s[0]) && s[0] != '-' && s[0] != '+' && !IsDigitIn(s[0], 10)
    ensures ParseInt(s) == Js.NaN
  {
    assert TrimStart(s) == s;
    assert ParseInt(s) == ParseUnsigned(s, false);
    assert ParseUnsigned(s, false) == ParseDigits(s, 10, false);
    assert DigitRun(s, 10) == 0;
  }

  /** `parseInt` on a string of decimal digits. */
  lemma ParseIntOfDigits(u: string)
    requires DecimalLead(u) && forall i :: 0 <= i < |u| ==> IsDigitIn(u[i], 10)
    ensures ParseInt(u) == Js.Num(DigitsValue(u, 10))
  {
    assert !IsJsSpace(u[0]) && u[0] != '-' && u[0] != '+';
    assert TrimStart(u) == u;
    assert ParseInt(u) == ParseUnsigned(u, false);
    ParseUnsignedDecimal(u, false);
    ParseDigitsAll(u, false);
  }

  /** `parseInt` on '-' followed by decimal digits. */
  lemma ParseIntOfMinusDigits(u: string)
    requires DecimalLead(u) && forall i :: 0 <= i < |u| ==> IsDigitIn(u[i], 10)
    ensures ParseInt("-" + u) == Js.Num(-DigitsValue(u, 10))
  {
    var s := "-" + u;
    assert s[0] == '-' && !IsJsSpace(s[0]);
    assert TrimStart(s) == s;
    assert s[1..] == u;
    ParseUnsignedDecimal(u, true);
    ParseDigitsAll(u, true);
  }

  /** `parseInt` on an unsigned decimal rendering. */
  lemma ParseIntOfNatToString(m: nat)
    ensures ParseInt(NatToString(m)) == Js.Num(m)
  {
    NatToStringLead(m);
    ParseIntOfDigits(NatToString(m));
  }

  /** `parseInt` on a negative decimal rendering. */
  lemma ParseIntOfNegative(m: int)
    requires m > 0
    ensures ParseInt("-" + NatToString(m)) == Js.Num(-m)
  {
    NatToStringLead(m);
    ParseIntOfMinusDigits(NatToString(m));
  }

  /** The digit run of a string of digits followed by a non-digit ends
      where the digits do. */
  lemma {:induction false} DigitRunStops(u: string, rest: string)
    requires forall i :: 0 <= i < |u| ==> IsDigitIn(u[i], 10)
    requires |rest| > 0 && !IsDigitIn(rest[0], 10)
    ensures DigitRun(u + rest, 10) == |u|
    decreases |u|
  {
    if |u| == 0 {
      assert u + rest == rest;
    } else {
      assert (u + rest)[1..] == u[1..] + rest;
      DigitRunStops(u[1..], rest);
    }
  }

  /** The text following a number when it is not itself a digit nor an
      `x` that could form a hexadecimal prefix, such as " days ago" or
      "_report.xlsx". */
  predicate Stops(rest: string)
  {
    |rest| > 0 && !IsDigitIn(rest[0], 10) && rest[0] != 'x' && rest[0] != 'X'
  }

  /** The digits of a rendered count, followed by a non-digit, read as the
      count. */
  lemma ParseDigitsThen(m: nat, rest: string)
    requires Stops(rest)
    ensures ParseDigits(NatToString(m) + rest, 10, false) == Js.Num(m)
  {
    var u := NatToString(m);
    NatToStringDigits(m);
    DigitRunStops(u, rest);
    assert (u + rest)[..|u|] == u;
  }

  /** A run of decimal digits followed by a non-digit is read by
      `parseInt` as a decimal digit run. */
  lemma ParseIntOfDigitsThen(u: string, rest: string)
    requires |u| >= 1 && forall i :: 0 <= i < |u| ==> IsDigitIn(u[i], 10)
    requires Stops(rest)
    ensures ParseInt(u + rest) == ParseDigits(u + rest, 10, false)
  {
    var s := u + rest;
    assert s[0] == u[0];
    if |u| >= 2 {
      assert s[1] == u[1];
    } else {
      assert s[1] == rest[0];
    }
    assert !IsJsSpace(s[0]) && s[0] != '-' && s[0] != '+';
    assert TrimStart(s) == s;
    ParseUnsignedDecimal(s, false);
  }

  /** `parseInt` reads a rendered count back from the front of a phrase
      such as "3 days ago". */
  lemma ParseIntOfNatToStringThen(m: nat, rest: string)
    requires Stops(rest)
    ensures ParseInt(NatToString(m) + rest) == Js.Num(m)
  {
    NatToStringDigits(m);
    ParseIntOfDigitsThen(NatToString(m), rest);
    ParseDigitsThen(m, rest);
  }

  /** Reading back what `toString` wrote: `parseInt(n.toString()) === n`
      for every integer `n`. This is the conversion a select box performs
      when it offers `id.toString()` and its handler calls `parseInt`. */
  lemma ParseIntOfIntToString(n: int)
    ensures ParseInt(IntToString(n)) == Js.Num(n)
  {
    if n < 0 {
      var m: nat := -n;
      var u := NatToString(m);
      assert IntToString(n) == "-" + u;
      NatToStringLead(m);
      ParseIntOfMinusDigits(u);
      assert ParseInt("-" + u) == Js.Num(n);
    } else {
      var m: nat := n;
      var u := NatToString(m);
      assert IntToString(n) == u;
      NatToStringLead(m);
      ParseIntOfDigits(u);
      assert ParseInt(u) == Js.Num(n);
    }
  }

  /** `toString` never writes the empty string. */
  lemma IntToStringNonEmpty(n: int)
    ensures |IntToString(n)| >= 1
  {
    if n < 0 {
      NatToStringDigits(-n);
    } else {
      NatToStringDigits(n);
    }
  }

  /** Different integers are written differently. */
  lemma IntToStringInjective(a: int, b: int)
    ensures IntToString(a) == IntToString(b) ==> a == b
  {
    ParseIntOfIntToString(a);
    ParseIntOfIntToString(b);
  }

  /** A character that is not a decimal digit never appears in a decimal
      rendering. */
  lemma NatToStringAvoids(m: nat, c: char)
    requires !IsDigitIn(c, 10)
    ensures c !in NatToString(m)
  {
    NatToStringDigits(m);
  }

  /** A character that is neither a decimal digit nor '-' never appears in
      what `toString` writes for an integer. */
  lemma IntToStringAvoids(n: int, c: char)
    requires !IsDigitIn(c, 10) && c != '-'
    ensures c !in IntToString(n)
  {
    if n < 0 {
      NatToStringAvoids(-n, c);
      assert IntToString(n) == "-" + NatToString(-n);
    } else {
      NatToStringAvoids(n, c);
    }
  }

  /** A character other than the separator that no piece contains is not
      in the joined string either. */
  lemma {:induction false} JoinAvoids(parts: seq<string>, sep: char, c: char)
    requires c != sep
    requires forall i :: 0 <= i < |parts| ==> c !in parts[i]
    ensures c !in Join(parts, sep)
    decreases |parts|
  {
    if |parts| > 1 {
      JoinAvoids(parts[1..], sep, c);
    }
  }

  // ---------------------------------------------------------------------
  // UTF-16 code units (what `split('')` and `charCodeAt` see)

  /** The UTF-16 encoding of one character: itself below 0x10000, a
      surrogate pair above. */
  function CharUnits(c: char): (r: seq<int>)
    ensures 1 <= |r| <= 2
    ensures forall i :: 0 <= i < |r| ==> 0 <= r[i] < 0x1_0000
    ensures |r| == 1 <==> (c as int) < 0x1_0000
  {
    var v := c as int;
    if v < 0x1_0000 then [v]
    else
      var w := v - 0x1_0000;
      [0xD800 + w / 0x400, 0xDC00 + w % 0x400]
  }

  /** The code units of a string, in order. */
  function CodeUnits(s: string): (r: seq<int>)
    ensures |r| >= |s|
    ensures forall i :: 0 <= i < |r| ==> 0 <= r[i] < 0x1_0000
    decreases |s|
  {
    if |s| == 0 then [] else CodeUnits(s[..|s| - 1]) + CharUnits(s[|s| - 1])
  }

  /** A string of characters below 0x10000 has one code unit per
      character, equal to the character's code. */
  lemma {:induction false} CodeUnitsOfBmp(s: string)
    requires forall i :: 0 <= i < |s| ==> (s[i] as int) < 0x1_0000
    ensures |CodeUnits(s)| == |s|
    ensures forall i :: 0 <= i < |s| ==> CodeUnits(s)[i] == s[i] as int
    decreases |s|
  {
    if |s| > 0 {
      CodeUnitsOfBmp(s[..|s| - 1]);
    }
  }
}

=== FILE: tracker.dfy ===
/** The faculty tracker page: a search and two filters over the detailed
    assignment list, the filtered assignments grouped by faculty member
    with total and completed hours per group, the completion percentage
    of a group, and the department choices. Groups live in an object keyed
    by faculty id; only sums over all groups are stated here, which do not
    depend on the order in which the page lists them. */
module Tracker {
  import opened Common
  import opened Schema
  import Storage
  import Tables
  import Seqs
  import Text
  import Percent

  /** One entry of the detailed assignment list, with its faculty member,
      subject and division resolved. */
  datatype Detail = Detail(assignment: Assignment, faculty: Faculty, subject: Subject, division: Division)

  /** Case-insensitive search on faculty, subject or division name, and
      exact status and department filters where an empty filter is no
      constraint. */
  predicate DetailMatches(d: Detail, term: string, status: string, department: string)
  {
    (Text.IncludesIgnoringCase(d.faculty.name, term)
     || Text.IncludesIgnoringCase(d.subject.name, term)
     || Text.IncludesIgnoringCase(d.division.name, term))
    && (status == "" || d.assignment.status == status)
    && (department == "" || d.faculty.department == department)
  }

  /** `filteredAssignments`. */
  function FilteredAssignments(xs: seq<Detail>, term: string, status: string, department: string): (r: seq<Detail>)
    ensures forall d :: d in r <==> d in xs && DetailMatches(d, term, status, department)
    ensures Seqs.IsSubsequence(r, xs)
  {
    var p := (d: Detail) => DetailMatches(d, term, status, department);
    Seqs.FilterMembership(xs, p);
    Seqs.FilterIsSubsequence(xs, p);
    Seqs.Filter(xs, p)
  }

  /** An empty search term with empty filters keeps every assignment. */
  lemma EmptySearchKeepsAll(xs: seq<Detail>)
    ensures FilteredAssignments(xs, "", "", "") == xs
  {
    forall i | 0 <= i < |xs|
      ensures DetailMatches(xs[i], "", "", "")
    {
      Text.IncludesEmpty(Text.ToLower(xs[i].faculty.name));
    }
    Seqs.FilterKeepsAll(xs, (d: Detail) => DetailMatches(d, "", "", ""));
  }

  // ---------------------------------------------------------------------
  // entries as the server sends them

  /** An entry whose faculty member, subject and division all exist. The
      server sends `undefined` for a dangling id, since an assignment is
      stored without checking the ids it refers to. */
  predicate Resolved(j: Storage.Joined<Assignment>)
  {
    j.faculty.Some? && j.subject.Some? && j.division.Some?
  }

  function ToDetail(j: Storage.Joined<Assignment>): (r: Detail)
    requires Resolved(j)
    ensures j == Storage.Joined(r.assignment, Some(r.faculty), Some(r.subject), Some(r.division))
  {
    Detail(j.record, j.faculty.value, j.subject.value, j.division.value)
  }

  function Details(xs: seq<Storage.Joined<Assignment>>): (r: seq<Detail>)
    requires forall i :: 0 <= i < |xs| ==> Resolved(xs[i])
    ensures |r| == |xs| && forall i :: 0 <= i < |xs| ==> r[i] == ToDetail(xs[i])
  {
    seq(|xs|, i requires 0 <= i < |xs| => ToDetail(xs[i]))
  }

  /** The page's filter callback on one server entry, evaluated left to
      right with JavaScript's short-circuit `||`: `None` when it reads
      `.name` of a missing faculty member, subject or division and so
      throws. The status and department tests run whatever the search
      gave, and read only the faculty member. */
  function MatchesOrThrows(j: Storage.Joined<Assignment>, term: string, status: string, department: string): (r: Option<bool>)
    ensures j.faculty.None? ==> r.None?
    ensures Resolved(j) ==> r == Some(DetailMatches(ToDetail(j), term, status, department))
    ensures r.None? ==> !Resolved(j)
  {
    if j.faculty.None? then None
    else
      var f := j.faculty.value;
      var search :=
        if Text.IncludesIgnoringCase(f.name, term) then Some(true)
        else if j.subject.None? then None
        else if Text.IncludesIgnoringCase(j.subject.value.name, term) then Some(true)
        else if j.division.None? then None
        else Some(Text.IncludesIgnoringCase(j.division.value.name, term));
      match search
      case None => None
      case Some(m) => Some(m && (status == "" || j.record.status == status)
                             && (department == "" || f.department == department))
  }

  /** `assignments.filter(...)` on the list the server sends: the kept
      entries, or `None` when the callback throws on some entry. */
  function PageFilter(xs: seq<Storage.Joined<Assignment>>, term: string, status: string, department: string)
    : (r: Option<seq<Storage.Joined<Assignment>>>)
    decreases |xs|
  {
    if |xs| == 0 then Some([])
    else
      var last := xs[|xs| - 1];
      match PageFilter(xs[..|xs| - 1], term, status, department)
      case None => None
      case Some(acc) =>
        match MatchesOrThrows(last, term, status, department)
        case None => None
        case Some(m) => Some(acc + (if m then [last] else []))
  }

  /** When every entry is resolved the page's filter does not throw, and
      it keeps exactly what `FilteredAssignments` keeps. */
  lemma {:induction false} PageFilterResolved(xs: seq<Storage.Joined<Assignment>>, term: string, status: string, department: string)
    requires forall i :: 0 <= i < |xs| ==> Resolved(xs[i])
    ensures PageFilter(xs, term, status, department).Some?
    ensures var kept := PageFilter(xs, term, status, department).value;
            (forall i :: 0 <= i < |kept| ==> Resolved(kept[i]))
            && Details(kept) == FilteredAssignments(Details(xs), term, status, department)
    decreases |xs|
  {
    if |xs| > 0 {
      var init := xs[..|xs| - 1];
      var last := xs[|xs| - 1];
      PageFilterResolved(init, term, status, department);
      var acc := PageFilter(init, term, status, department).value;
      var m := DetailMatches(ToDetail(last), term, status, department);
      var kept := acc + (if m then [last] else []);
      assert PageFilter(xs, term, status, department) == Some(kept);
      assert Details(xs)[..|xs| - 1] == Details(init);
      assert Details(kept) == Details(acc) + (if m then [ToDetail(last)] else []);
    }
  }

  /** An entry with a missing faculty member makes the page throw,
      whatever the search and filters. */
  lemma {:induction false} DanglingFacultyThrows(xs: seq<Storage.Joined<Assignment>>, k: int, term: string, status: string, department: string)
    requires 0 <= k < |xs| && xs[k].faculty.None?
    ensures PageFilter(xs, term, status, department).None?
    decreases |xs|
  {
    if k < |xs| - 1 {
      DanglingFacultyThrows(xs[..|xs| - 1], k, term, status, department);
    }
  }

  /** A stored assignment whose faculty id names no faculty member makes
      the tracker page throw on the full assignment list. */
  lemma DanglingStoredAssignmentThrows(s: Storage.Store, id: int, term: string, status: string, department: string)
    requires Storage.Valid(s)
    requires id in s.assignments.rows && s.assignments.rows[id].facultyId !in s.faculty.rows
    ensures PageFilter(Storage.AllAssignments(s), term, status, department).None?
  {
    var xs := Storage.AllAssignments(s);
    var a := s.assignments.rows[id];
    Tables.ValuesMembership(s.assignments, a);
    assert a in Storage.Records(xs);
    var k :| 0 <= k < |xs| && Storage.Records(xs)[k] == a;
    assert xs[k] == Storage.JoinAssignment(s, a);
    DanglingFacultyThrows(xs, k, term, status, department);
  }

  // ---------------------------------------------------------------------
  // grouping

  datatype Group = Group(faculty: Faculty, assignments: seq<Detail>, totalHours: int, completedHours: int)

  function Hours(d: Detail): int
  {
    d.assignment.hoursPerWeek
  }

  predicate IsCompleted(d: Detail)
  {
    d.assignment.status == "completed"
  }

  function OfFaculty(id: int): Detail -> bool
  {
    (d: Detail) => d.faculty.id == id
  }

  /** One step of the `reduce`: the group of the entry's faculty member is
      created on first sight, then the entry is appended and its hours
      added (to the completed hours too when its status is
      "completed"). */
  function AddToGroup(acc: map<int, Group>, d: Detail): (r: map<int, Group>)
    ensures r.Keys == acc.Keys + {d.faculty.id}
    ensures forall k :: k in acc && k != d.faculty.id ==> r[k] == acc[k]
  {
    var id := d.faculty.id;
    var g := if id in acc then acc[id] else Group(d.faculty, [], 0, 0);
    acc[id := Group(g.faculty, g.assignments + [d], g.totalHours + Hours(d),
                    g.completedHours + (if IsCompleted(d) then Hours(d) else 0))]
  }

  /** `assignmentsByFaculty`. */
  function GroupByFaculty(xs: seq<Detail>): map<int, Group>
    decreases |xs|
  {
    if |xs| == 0 then map[] else AddToGroup(GroupByFaculty(xs[..|xs| - 1]), xs[|xs| - 1])
  }

  /** What the group of one faculty member must be, given that member's
      entries in list order. */
  function Summary(ds: seq<Detail>): Group
    requires |ds| > 0
  {
    Group(ds[0].faculty, ds, Seqs.SumBy(ds, Hours), Seqs.SumBy(Seqs.Filter(ds, IsCompleted), Hours))
  }

  /** Adding an entry to a member's entries updates the summary the way
      one step of the `reduce` updates the group. */
  lemma SummaryAppend(before: seq<Detail>, d: Detail)
    ensures before == [] ==>
              Summary(before + [d]) == Group(d.faculty, [d], Hours(d), if IsCompleted(d) then Hours(d) else 0)
    ensures before != [] ==>
              var g := Summary(before);
              Summary(before + [d]) == Group(g.faculty, g.assignments + [d], g.totalHours + Hours(d),
                                             g.completedHours + (if IsCompleted(d) then Hours(d) else 0))
  {
    var after := before + [d];
    Seqs.SumByAppend(before, [d], Hours);
    assert after[..|after| - 1] == before;
    Seqs.SumByFilter(after, IsCompleted, Hours);
    Seqs.SumByFilter(before, IsCompleted, Hours);
    Seqs.SumByAppend(before, [d], Seqs.Masked(IsCompleted, Hours));
    if before == [] {
      assert after == [d];
    }
  }

  /** A member has a group iff one of the entries is theirs, and the group
      holds exactly their entries in list order, the sum of those entries'
      hours, and the sum over those of them that are completed. */
  lemma {:induction false} GroupIsSummary(xs: seq<Detail>, id: int)
    ensures id in GroupByFaculty(xs) <==> Seqs.Filter(xs, OfFaculty(id)) != []
    ensures id in GroupByFaculty(xs) ==> GroupByFaculty(xs)[id] == Summary(Seqs.Filter(xs, OfFaculty(id)))
    decreases |xs|
  {
    if |xs| > 0 {
      var init := xs[..|xs| - 1];
      var d := xs[|xs| - 1];
      GroupIsSummary(init, id);
      var before := Seqs.Filter(init, OfFaculty(id));
      if d.faculty.id == id {
        assert Seqs.Filter(xs, OfFaculty(id)) == before + [d];
        SummaryAppend(before, d);
      } else {
        assert Seqs.Filter(xs, OfFaculty(id)) == before;
      }
    }
  }

  /** Every entry lands in exactly one group: the one of its own faculty
      member. */
  lemma EntryInOwnGroupOnly(xs: seq<Detail>, i: int, id: int)
    requires 0 <= i < |xs|
    ensures xs[i].faculty.id in GroupByFaculty(xs) && xs[i] in GroupByFaculty(xs)[xs[i].faculty.id].assignments
    ensures id in GroupByFaculty(xs) && xs[i] in GroupByFaculty(xs)[id].assignments ==> id == xs[i].faculty.id
  {
    var own := xs[i].faculty.id;
    Seqs.FilterMembership(xs, OfFaculty(own));
    Seqs.FilterMembership(xs, OfFaculty(id));
    assert xs[i] in Seqs.Filter(xs, OfFaculty(own));
    GroupIsSummary(xs, own);
    GroupIsSummary(xs, id);
  }

  /** Over entries with non-negative hours, the completed ones' hours
      never exceed all the hours. */
  lemma CompletedHoursBound(ds: seq<Detail>)
    requires forall j :: 0 <= j < |ds| ==> Hours(ds[j]) >= 0
    ensures 0 <= Seqs.SumBy(Seqs.Filter(ds, IsCompleted), Hours) <= Seqs.SumBy(ds, Hours)
  {
    Seqs.SumByFilter(ds, IsCompleted, Hours);
    Seqs.SumByDominated(ds, Hours, Seqs.Masked(IsCompleted, Hours));
  }

  /** With non-negative hours, a group's completed hours never exceed its
      total. */
  lemma CompletedAtMostTotal(xs: seq<Detail>, id: int)
    requires forall i :: 0 <= i < |xs| ==> Hours(xs[i]) >= 0
    requires id in GroupByFaculty(xs)
    ensures 0 <= GroupByFaculty(xs)[id].completedHours <= GroupByFaculty(xs)[id].totalHours
  {
    GroupIsSummary(xs, id);
    var ds := Seqs.Filter(xs, OfFaculty(id));
    Seqs.FilterMembership(xs, OfFaculty(id));
    forall j | 0 <= j < |ds|
      ensures Hours(ds[j]) >= 0
    {
      assert ds[j] in xs;
    }
    CompletedHoursBound(ds);
  }

  // ---------------------------------------------------------------------
  // totals over all groups

  /** The sum of `totalHours` over the groups with keys in `ks`. */
  ghost function TotalOver(m: map<int, Group>, ks: set<int>): int
    requires ks <= m.Keys
    decreases ks
  {
    if ks == {} then 0
    else
      var k := Pick(ks);
      m[k].totalHours + TotalOver(m, ks - {k})
  }

  /** A set without members is the empty set. */
  lemma NoMemberIsEmpty(ks: set<int>)
    ensures (forall k :: k !in ks) ==> ks == {}
  {
    if forall k :: k !in ks {
      assert forall k :: k in ks <==> k in {};
    }
  }

  /** Some key of a non-empty set. */
  ghost function Pick(ks: set<int>): (k: int)
    requires ks != {}
    ensures k in ks
  {
    NoMemberIsEmpty(ks);
    var k :| k in ks; k
  }

  /** The sum over a set does not depend on which key is taken first. */
  lemma {:induction false} TotalOverPick(m: map<int, Group>, ks: set<int>, k: int)
    requires ks <= m.Keys && k in ks
    ensures TotalOver(m, ks) == m[k].totalHours + TotalOver(m, ks - {k})
    decreases ks
  {
    var j := Pick(ks);
    if j != k {
      TotalOverPick(m, ks - {j}, k);
      TotalOverPick(m, ks - {k}, j);
      assert ks - {j} - {k} == ks - {k} - {j};
    }
  }

  /** The sum only reads the groups with keys in `ks`. */
  lemma {:induction false} TotalOverFrame(m1: map<int, Group>, m2: map<int, Group>, ks: set<int>)
    requires ks <= m1.Keys && ks <= m2.Keys
    requires forall k :: k in ks ==> m1[k].totalHours == m2[k].totalHours
    ensures TotalOver(m1, ks) == TotalOver(m2, ks)
    decreases ks
  {
    if ks != {} {
      var k := Pick(ks);
      TotalOverPick(m1, ks, k);
      TotalOverPick(m2, ks, k);
      TotalOverFrame(m1, m2, ks - {k});
    }
  }

  /** Summed over all groups, the totals are the hours of the whole
      filtered list: no entry is lost or counted twice. */
  lemma {:induction false} GroupTotalsSum(xs: seq<Detail>)
    ensures TotalOver(GroupByFaculty(xs), GroupByFaculty(xs).Keys) == Seqs.SumBy(xs, Hours)
    decreases |xs|
  {
    if |xs| > 0 {
      var init := xs[..|xs| - 1];
      var d := xs[|xs| - 1];
      var m := GroupByFaculty(init);
      var m' := AddToGroup(m, d);
      var id := d.faculty.id;
      GroupTotalsSum(init);
      TotalOverPick(m', m'.Keys, id);
      TotalOverFrame(m, m', m.Keys - {id});
      assert m'.Keys - {id} == m.Keys - {id};
      if id in m {
        TotalOverPick(m, m.Keys, id);
      } else {
        assert m.Keys - {id} == m.Keys;
      }
    }
  }

  /** `completionPercentage`: completed over total hours times 100, or 0
      for a group with no hours. */
  function Completion(g: Group): (p: Percent.Num)
    ensures Percent.WellFormed(p)
    ensures g.totalHours == 0 ==> p == Percent.Frac(0, 1)
    ensures g.totalHours > 0 ==> p == Percent.Of(g.completedHours, g.totalHours)
  {
    if g.totalHours > 0 then Percent.Of(g.completedHours, g.totalHours) else Percent.Frac(0, 1)
  }

  /** With non-negative hours the completion of every group lies between
      0 and 100 percent. */
  lemma CompletionInRange(xs: seq<Detail>, id: int)
    requires forall i :: 0 <= i < |xs| ==> Hours(xs[i]) >= 0
    requires id in GroupByFaculty(xs)
    ensures Percent.AtLeast(Completion(GroupByFaculty(xs)[id]), 0)
    ensures !Percent.Above(Completion(GroupByFaculty(xs)[id]), 100)
  {
    CompletedAtMostTotal(xs, id);
  }

  /** `Array.from(new Set(assignments.map(a => a.faculty.department)))`,
      over the whole list rather than the filtered one. */
  function DepartmentChoices(xs: seq<Detail>): (r: seq<string>)
    ensures Seqs.NoDuplicates(r)
    ensures forall s :: s in r <==> exists i :: 0 <= i < |xs| && xs[i].faculty.department == s
  {
    var ds := Seqs.Map(xs, (d: Detail) => d.faculty.department);
    Seqs.DistinctProperties(ds);
    assert forall s :: s in ds <==> exists i :: 0 <= i < |xs| && xs[i].faculty.department == s by {
      forall s | s in ds
        ensures exists i :: 0 <= i < |xs| && xs[i].faculty.department == s
      {
        var i :| 0 <= i < |ds| && ds[i] == s;
        assert xs[i].faculty.department == s;
      }
    }
    Seqs.Distinct(ds)
  }

  /** Filtering never removes a department from the choices: every entry
      that survives the filter has its department among them. */
  lemma FilterKeepsDepartmentChoices(xs: seq<Detail>, term: string, status: string, department: string)
    ensures forall d :: d in FilteredAssignments(xs, term, status, department) ==> d.faculty.department in DepartmentChoices(xs)
  {
    forall d | d in FilteredAssignments(xs, term, status, department)
      ensures d.faculty.department in DepartmentChoices(xs)
    {
      var i :| 0 <= i < |xs| && xs[i] == d;
    }
  }
}

=== FILE: workload.dfy ===
/** The two staff-workload pages: the search and filter over the faculty
    list, the unique department and position lists, and the two workload
    classifiers. The lower-case page calls a member "Over Limit" from 100%
    on; the capitalised page only above 100%, and calls exactly 100% "Near
    Limit". */
module Workload {
  import opened Schema
  import Seqs
  import Text
  import Percent

  datatype Status = Status(text: string, variant: string)

  const OVER_LIMIT: string := "Over Limit"
  const AT_LIMIT: string := "At Limit"
  const NEAR_LIMIT: string := "Near Limit"
  const UNDER_LIMIT: string := "Under Limit"

  /** `getWorkloadStatus` of the workload-management page: at least 100%
      is over, at least 90% is at the limit, anything else (including
      `NaN`) is under. */
  function WorkloadStatus(cur: int, max: int): (r: Status)
    ensures r.text == OVER_LIMIT <==> Percent.AtLeast(Percent.Of(cur, max), 100)
    ensures r.text == AT_LIMIT <==> !Percent.AtLeast(Percent.Of(cur, max), 100) && Percent.AtLeast(Percent.Of(cur, max), 90)
    ensures r.text == UNDER_LIMIT <==> !Percent.AtLeast(Percent.Of(cur, max), 90)
    ensures r.text == OVER_LIMIT ==> r.variant == "destructive"
    ensures r.text == AT_LIMIT ==> r.variant == "secondary"
    ensures r.text == UNDER_LIMIT ==> r.variant == "default"
  {
    var p := Percent.Of(cur, max);
    if Percent.AtLeast(p, 100) then Status(OVER_LIMIT, "destructive")
    else if Percent.AtLeast(p, 90) then Status(AT_LIMIT, "secondary")
    else Status(UNDER_LIMIT, "default")
  }

  /** The classifier in whole hours, for a positive limit: over iff the
      hours reach the limit, at the limit iff below it but at least nine
      tenths of it, under otherwise. */
  lemma WorkloadStatusByHours(cur: int, max: int)
    requires max > 0
    ensures WorkloadStatus(cur, max).text == OVER_LIMIT <==> cur >= max
    ensures WorkloadStatus(cur, max).text == AT_LIMIT <==> cur < max && 10 * cur >= 9 * max
    ensures WorkloadStatus(cur, max).text == UNDER_LIMIT <==> 10 * cur < 9 * max
  {
    Percent.AtLeastIff(cur, max, 100);
    Percent.AtLeastIff(cur, max, 90);
  }

  /** How far up the scale a label is: under 0, at/near 1, over 2. */
  function Rank(text: string): (k: int)
    ensures 0 <= k <= 2
  {
    if text == OVER_LIMIT then 2
    else if text == AT_LIMIT || text == NEAR_LIMIT then 1
    else 0
  }

  /** With the limit fixed (and not negative), more hours never move the
      label down: over stays over, at the limit never becomes under. */
  lemma WorkloadStatusMonotone(cur1: int, cur2: int, max: int)
    requires max >= 0 && cur1 <= cur2
    ensures Rank(WorkloadStatus(cur1, max).text) <= Rank(WorkloadStatus(cur2, max).text)
  {
    Percent.Monotone(cur1, cur2, max, 100);
    Percent.Monotone(cur1, cur2, max, 90);
  }

  /** `getWorkloadStatus` of the capitalised page: strictly above 100% is
      over, from 90% up to and including 100% is near, else under. */
  function StrictWorkloadStatus(f: Faculty): (r: Status)
    ensures r.text == OVER_LIMIT <==> Percent.Above(Percent.Of(f.currentHours, f.maxHours), 100)
    ensures r.text == NEAR_LIMIT <==>
              !Percent.Above(Percent.Of(f.currentHours, f.maxHours), 100) && Percent.AtLeast(Percent.Of(f.currentHours, f.maxHours), 90)
    ensures r.text == UNDER_LIMIT <==> !Percent.AtLeast(Percent.Of(f.currentHours, f.maxHours), 90)
    ensures r.text == OVER_LIMIT ==> r.variant == "destructive"
    ensures r.text == NEAR_LIMIT ==> r.variant == "outline"
    ensures r.text == UNDER_LIMIT ==> r.variant == "secondary"
  {
    var p := Percent.Of(f.currentHours, f.maxHours);
    Percent.AboveImpliesAtLeast(p, 100, 90);
    if Percent.Above(p, 100) then Status(OVER_LIMIT, "destructive")
    else if Percent.AtLeast(p, 90) then Status(NEAR_LIMIT, "outline")
    else Status(UNDER_LIMIT, "secondary")
  }

  /** The strict classifier in whole hours, for a positive limit: a member
      exactly at the limit is near it, not over it. */
  lemma StrictWorkloadStatusByHours(f: Faculty)
    requires f.maxHours > 0
    ensures StrictWorkloadStatus(f).text == OVER_LIMIT <==> f.currentHours > f.maxHours
    ensures StrictWorkloadStatus(f).text == NEAR_LIMIT <==>
              f.currentHours <= f.maxHours && 10 * f.currentHours >= 9 * f.maxHours
    ensures StrictWorkloadStatus(f).text == UNDER_LIMIT <==> 10 * f.currentHours < 9 * f.maxHours
  {
    Percent.AtLeastIff(f.currentHours, f.maxHours, 100);
    Percent.AtLeastIff(f.currentHours, f.maxHours, 90);
  }

  /** For a positive limit the two pages disagree on "over" exactly when
      the hours equal the limit; below 90% both say under. */
  lemma ClassifiersDisagreeOnlyAtTheLimit(f: Faculty)
    requires f.maxHours > 0
    ensures ((WorkloadStatus(f.currentHours, f.maxHours).text == OVER_LIMIT) !=
             (StrictWorkloadStatus(f).text == OVER_LIMIT)) <==> f.currentHours == f.maxHours
    ensures WorkloadStatus(f.currentHours, f.maxHours).text == UNDER_LIMIT <==> StrictWorkloadStatus(f).text == UNDER_LIMIT
  {
    WorkloadStatusByHours(f.currentHours, f.maxHours);
    StrictWorkloadStatusByHours(f);
  }

  // ---------------------------------------------------------------------
  // search and filters

  /** Case-insensitive search on name or email; an empty department or
      position filter is no constraint, a non-empty one must match
      exactly. */
  predicate FacultyMatches(f: Faculty, term: string, department: string, position: string)
  {
    (Text.IncludesIgnoringCase(f.name, term) || Text.IncludesIgnoringCase(f.email, term))
    && (department == "" || f.department == department)
    && (position == "" || f.position == position)
  }

  /** `filteredFaculty`, the same on both pages. */
  function FilteredFaculty(xs: seq<Faculty>, term: string, department: string, position: string): (r: seq<Faculty>)
    ensures forall f :: f in r <==> f in xs && FacultyMatches(f, term, department, position)
    ensures Seqs.IsSubsequence(r, xs)
  {
    var r := Seqs.Filter(xs, (f: Faculty) => FacultyMatches(f, term, department, position));
    Seqs.FilterMembership(xs, (f: Faculty) => FacultyMatches(f, term, department, position));
    Seqs.FilterIsSubsequence(xs, (f: Faculty) => FacultyMatches(f, term, department, position));
    r
  }

  /** With no search term and no filters every member is listed, in
      order. */
  lemma NoFiltersListsAll(xs: seq<Faculty>)
    ensures FilteredFaculty(xs, "", "", "") == xs
  {
    forall i | 0 <= i < |xs|
      ensures FacultyMatches(xs[i], "", "", "")
    {
      Text.IncludesEmpty(Text.ToLower(xs[i].name));
    }
    Seqs.FilterKeepsAll(xs, (f: Faculty) => FacultyMatches(f, "", "", ""));
  }

  /** `Array.from(new Set(xs.map(f => f.department)))`: each department
      of the list once, in order of first appearance. */
  function Departments(xs: seq<Faculty>): (r: seq<string>)
    ensures Seqs.NoDuplicates(r)
    ensures forall d :: d in r <==> exists i :: 0 <= i < |xs| && xs[i].department == d
  {
    var ds := Seqs.Map(xs, (f: Faculty) => f.department);
    Seqs.DistinctProperties(ds);
    assert forall d :: d in ds <==> exists i :: 0 <= i < |xs| && xs[i].department == d by {
      forall d | d in ds
        ensures exists i :: 0 <= i < |xs| && xs[i].department == d
      {
        var i :| 0 <= i < |ds| && ds[i] == d;
        assert xs[i].department == d;
      }
    }
    Seqs.Distinct(ds)
  }

  /** The same for positions. */
  function Positions(xs: seq<Faculty>): (r: seq<string>)
    ensures Seqs.NoDuplicates(r)
    ensures forall p :: p in r <==> exists i :: 0 <= i < |xs| && xs[i].position == p
  {
    var ps := Seqs.Map(xs, (f: Faculty) => f.position);
    Seqs.DistinctProperties(ps);
    assert forall p :: p in ps <==> exists i :: 0 <= i < |xs| && xs[i].position == p by {
      forall p | p in ps
        ensures exists i :: 0 <= i < |xs| && xs[i].position == p
      {
        var i :| 0 <= i < |ps| && ps[i] == p;
        assert xs[i].position == p;
      }
    }
    Seqs.Distinct(ps)
  }
}
